=== FILE: README.md ===
# ShadowedBackend chat core in Dafny

This project models the chat core of the ShadowedBackend server. The core has three parts:

- **Stores.** Three database tables: `Chats`, `ChatMembers` (one row per chat and user, holding the member's encrypted chat key, the unread counter and the do-not-disturb flag) and `Messages`. Each is an immutable Dafny table: a map from row id to row, plus the next id the sequence hands out. Each store operation is a pure function from the table to the new table and its result.
- **Packet handlers.** Chat (`get_messages`, `send_message`, `rename_chat`, `set_do_not_disturb`, `edit_message`, `set_burn_time`, `mark_message_read`, `toggle_reaction`), group (`create_group`, `add_member_to_chat`, `kick_member_from_chat`) and moment (`get_moments`, `post_moment`, `get_user_moments`, `toggle_moment_permission`, `get_moment_permission`, `get_my_moment_key`).
  - Each handler is a function from a `Database.State` (all tables) and a parsed request to an `Outcome`. An `Outcome` is the new state plus the list of events the handler sends: errors, successes, chat-list refreshes, message distributions, file deletions.
  - A request of `None` is a packet whose JSON did not parse.
  - The clock is a `now` parameter in epoch milliseconds.
- **Weekly summary service.** It parses the `day:hour:minute` schedule, computes the next run time over abstract local dates, runs the start/stop guard, and builds the ranking text with its medals.

Two invariants are proved across the model:

- Every handler preserves `Database.Consistent`. Under it, every member row and every message belongs to an existing chat, every reply points at an existing message, ids come from the auto-increment counters, and a user has at most one moment chat.
- Each handler's contract states its refusal cases and the effect of an accepted request.
  - A refusal sends one error event and leaves the state unchanged, except where the source does otherwise: `rename_chat` and `set_do_not_disturb` ignore a packet that does not parse; `mark_message_read` returns silently on each of its guards; `get_moment_permission` answers a non-friend with nothing; `post_moment` refused for a missing key keeps the moment chat it has just created; and a negative count or offset in `get_messages`, `get_moments` and `get_user_moments` makes the query fail, so nothing is sent.
  - The effect is stated exactly, except where a handler calls a store operation that the store files do not define (listed below). There the contract states what the call's arguments fix and what stays unchanged. These are `get_messages` with `before`, the insert of `send_message`, the system messages of `rename_chat`, `add_member_to_chat` and `kick_member_from_chat`, `set_burn_time`, the read deadline of `mark_message_read`, and `toggle_reaction`; "## Left out" names the store member behind each.

Modules follow the repository's files:

| module | file | models |
|---|---|---|
| `Records` | records.dfy | the rows and ids of `dataClass/*.kt`; `Option` |
| `Text` | text.dfy | Kotlin `toIntOrNull`, integer printing, `split` |
| `Ordering` | ordering.dfy | `ORDER BY … DESC`, `LIMIT/OFFSET`, `reversed()` |
| `Chats` | chats.dfy | `database/Chats.kt` |
| `ChatMembers` | chat_members.dfy | `database/ChatMembers.kt` |
| `Messages` | messages.dfy | `database/Messages.kt` |
| `Database` | database.dfy | whole state, foreign keys, user lookups, chat cascade |
| `ChatPackets` | chat_packets.dfy | `route/packets/ChatPackets.kt` |
| `GroupPackets` | group_packets.dfy | `route/packets/GroupPackets.kt` |
| `MomentPackets` | moment_packets.dfy | `route/packets/MomentPackets.kt` |
| `WeeklySummary` | weekly_summary.dfy | `service/WeeklySummaryService.kt`, `config/WeeklySummaryConfig.kt` |

Modelling conventions:

- `ORDER BY time DESC` leaves ties unordered. The model breaks ties by larger row id first (`Ordering.Precedes`), which is one of the orders the database may return.
- The unread counter is a 32-bit `int4` column. The model keeps it as an `Int32` newtype. An increment past `Int.MAX_VALUE` fails the whole `UPDATE`, as PostgreSQL raises an overflow error (`ChatMembers.IncrementUnread` returns `None`).
- The friends table is a `set<UserId>` parameter.
- The reaction toggle of the store is a function parameter.

The handlers call several store operations that `Messages.kt` and `Chats.kt` do not define; the handlers were written against a newer revision of the stores:

- `markAsRead(id, now, burnTime)`
- `addSystemMessage`
- `toggleReaction`
- `setBurnTime`
- the six-argument `addChatMessage`
- `getChatMessages(chat, before: Instant?, count)`

The model gives these the effect their call sites need, and it states only frame properties about them (see "Left out").

## Model

| member | source | states |
|---|---|---|
| Text.ToIntOrNull | src/main/kotlin/service/WeeklySummaryService.kt:101-103 | a text parses exactly when it is an optional `-` or `+` followed by one or more decimal digits and nothing else, and its signed value lies in the 32-bit range; the result is that signed value |
| Text.IntToStringRoundTrip | src/main/kotlin/service/WeeklySummaryService.kt:101-103 | `toIntOrNull` reads back every 32-bit integer from its decimal text |
| Text.NatToStringValue | src/main/kotlin/service/WeeklySummaryService.kt:161-163 | the decimal text of a natural number has that number as its digit value |
| Text.IntToStringInjective | src/main/kotlin/service/WeeklySummaryService.kt:161-163 | distinct 32-bit integers print as distinct texts |
| Text.SplitJoin | src/main/kotlin/service/WeeklySummaryService.kt:97 | joining the parts of `split(":")` with ":" gives back the original text |
| Text.SplitCount | src/main/kotlin/service/WeeklySummaryService.kt:97 | `split` yields one more part than there are separators, and no part holds a separator |
| Text.SplitAfter | src/main/kotlin/service/WeeklySummaryService.kt:97 | splitting `a + sep + rest` gives `a` followed by the parts of `rest` |
| Ordering.SortDesc | src/main/kotlin/database/Messages.kt:93 | the result is newest-first and a permutation of the input |
| Ordering.SortedDescUnique | src/main/kotlin/database/Messages.kt:93-95 | two newest-first orderings of the same rows are the same list, so a page is determined by its rows |
| Ordering.Window | src/main/kotlin/database/Messages.kt:94-95 | `LIMIT count OFFSET begin` keeps exactly the entries from position `begin`, at most `count` of them |
| Ordering.PositionIsRank | src/main/kotlin/database/Messages.kt:93-95 | in a newest-first list, an entry's position equals the number of rows that precede it |
| Ordering.ReverseOfSorted | src/main/kotlin/database/Messages.kt:120 | reversing a newest-first page gives the same entries oldest-first |
| Chats.CreateChat | src/main/kotlin/database/Chats.kt:36-47 | a fresh id gets the new row (not private, not a moment chat, no burn time) and no other chat changes |
| Chats.GetChat | src/main/kotlin/database/Chats.kt:49-62 | found exactly when the id exists, and then it is that row |
| Chats.IsChatOwner | src/main/kotlin/database/Chats.kt:64-67 | true exactly when the chat exists and its owner is the user |
| Chats.RenameChat | src/main/kotlin/database/Chats.kt:69-75 | only the named chat's name changes; the ids and every other chat are kept |
| Chats.UpdateTime | src/main/kotlin/database/Chats.kt:77-83 | only the named chat's last-activity time changes, to `now` |
| Chats.DeleteChat | src/main/kotlin/database/Chats.kt:85-88 | the chat is gone and every other chat is kept |
| Chats.GetMomentChatByOwner | src/main/kotlin/database/Chats.kt:121-136 | returns a moment chat owned by the user, or none exists |
| Chats.GetOrCreateMomentChat | src/main/kotlin/database/Chats.kt:96-116 | returns the existing moment chat unchanged; otherwise creates exactly one moment chat, keeping every other chat and the at-most-one invariant |
| Chats.MomentChatIsUnique | src/main/kotlin/database/Chats.kt:121-136 | under the table invariant, any moment chat of the user is the one the lookup returns |
| Chats.GetOrCreateMomentChatTwice | src/main/kotlin/database/Chats.kt:96-116 | a second call returns the same chat and leaves the table unchanged (idempotence) |
| ChatMembers.AddMember | src/main/kotlin/database/ChatMembers.kt:45-53 | the user becomes a member; an existing row is kept as it is (insert-ignore); a new row has the key, zero unread and DND off; nothing else changes |
| ChatMembers.RemoveMember | src/main/kotlin/database/ChatMembers.kt:55-58 | the user is no longer a member and every other row is kept |
| ChatMembers.AddMemberIdempotent | src/main/kotlin/database/ChatMembers.kt:45-53 | adding a member twice is adding once, whatever the second key |
| ChatMembers.RemoveUndoesAdd | src/main/kotlin/database/ChatMembers.kt:45-58 | removing a member just added restores the table |
| ChatMembers.IncrementUnread | src/main/kotlin/database/ChatMembers.kt:131-137 | fails exactly when a counter to bump is at the 32-bit maximum; otherwise every member of the chat but the sender gets +1 and keeps key and DND flag, and all other rows are kept |
| ChatMembers.ResetUnread | src/main/kotlin/database/ChatMembers.kt:139-145 | only the member's counter changes, to zero |
| ChatMembers.SetAtMarker | src/main/kotlin/database/ChatMembers.kt:168-174 | reports whether the user is a member; if so only that counter becomes the mention marker, otherwise nothing changes |
| ChatMembers.SetDoNotDisturb | src/main/kotlin/database/ChatMembers.kt:155-161 | reports membership; if a member, only that row's flag changes |
| ChatMembers.GetUnreadCount | src/main/kotlin/database/ChatMembers.kt:147-153 | the member's counter, or 0 for a non-member |
| ChatMembers.GetMemberKey | src/main/kotlin/database/ChatMembers.kt:187-192 | found exactly for a member, and then it is the stored key |
| ChatMembers.GetMemberIds | src/main/kotlin/database/ChatMembers.kt:105-110 | exactly the members of the chat |
| ChatMembers.ChatUsers | src/main/kotlin/database/ChatMembers.kt:112-129 | exactly the known users who are members of the chat |
| ChatMembers.AfterMessagesBounds | src/main/kotlin/database/ChatMembers.kt:131-137 | after n messages from another sender the member is still a member and the counter has not decreased and grown by at most n |
| ChatMembers.MentionSurvivesIncrements | src/main/kotlin/database/ChatMembers.kt:131-137 | a mention marker (Int.MIN_VALUE) stays negative through any fewer than 2^31 later messages from others |
| ChatMembers.ResetClearsMention | src/main/kotlin/database/ChatMembers.kt:139-174 | the marker reads back as the marker, and a reset clears it to zero |
| ChatMembers.ChatOrder | src/main/kotlin/database/ChatMembers.kt:60-103 | the user's listed chats, each once, most recently active first |
| ChatMembers.Summary | src/main/kotlin/database/ChatMembers.kt:60-103 | an entry carries the user's own key, unread count and DND flag and the chat's privacy and burn time; a group shows its name, a private chat shows the other member's name (or "Private Chat" when alone) and that member's donor flag |
| ChatMembers.GetUserChats | src/main/kotlin/database/ChatMembers.kt:60-103 | every chat the user is listed in appears exactly once, correctly described, ordered by last activity |
| Messages.Insert | src/main/kotlin/database/Messages.kt:34-51 | the row gets a fresh id and no other row changes |
| Messages.AddChatMessage | src/main/kotlin/database/Messages.kt:34-51 | the new row has id `nextId`, the given content, type, chat and sender, no reply, no read time, no burn time or deadline and no reactions; no other row changes |
| Messages.AddReplyMessage | src/main/kotlin/database/Messages.kt:57-75 | fails exactly when the replied message does not exist; otherwise a fresh row with id `nextId`, the given content, type, chat, sender and time `now`, the reply link set, unread, with no burn time, deadline or reactions; no other row changes |
| Messages.GetMessage | src/main/kotlin/database/Messages.kt:135-172 | found exactly when the id exists, and then it is that row |
| Messages.DeleteRows | src/main/kotlin/database/Messages.kt:28-30 | deleting rows nulls the reply link of every message that replied to them (`ON DELETE SET NULL`) and changes nothing else |
| Messages.DeleteMessage | src/main/kotlin/database/Messages.kt:310-313 | the message is gone, every other row is kept, and replies to it lose their reply link |
| Messages.DeleteChatMessages | src/main/kotlin/database/Messages.kt:318-321 | exactly the chat's messages are gone; every other row is unchanged except that a reply to one of the deleted messages loses its reply target (ON DELETE SET NULL) |
| Messages.UpdateMessage | src/main/kotlin/database/Messages.kt:123-133 | new content replaces only that message's content; no content deletes the message |
| Messages.MarkAsRead | src/main/kotlin/database/Messages.kt:265-274 | the first read time is recorded and a read message is left as it is |
| Messages.MarkAsReadKeepsFirst | src/main/kotlin/database/Messages.kt:265-274 | a second read keeps the first read time |
| Messages.GetExpiredMessageIds | src/main/kotlin/database/Messages.kt:289-305 | exactly the read messages whose chat burn time has run out, with their chat |
| Messages.ExpiryThreshold | src/main/kotlin/database/Messages.kt:298 | a message expires exactly one millisecond after read time plus burn time (strict comparison), and stays expired |
| Messages.GetFileMessageIds | src/main/kotlin/database/Messages.kt:327-333 | exactly the chat's messages whose type carries a file |
| Messages.NewestFirst | src/main/kotlin/database/Messages.kt:93 | every matching row, each once, newest first |
| Messages.NewestFirstRank | src/main/kotlin/database/Messages.kt:93-95 | the position of a row in the newest-first list is its rank |
| Messages.Page | src/main/kotlin/database/Messages.kt:93-95 | a row is on the page exactly when it matches and its rank is in `[begin, begin + count)` |
| Messages.GetChatMessages | src/main/kotlin/database/Messages.kt:77-121 | fails exactly for a negative offset or count; otherwise the chat's messages ranked in the window, oldest first |
| Messages.GetMomentMessagesForUser | src/main/kotlin/database/Messages.kt:193-227 | fails exactly for a negative offset or count; otherwise at most `count` feed items, each a top-level moment post visible to the user, newest first, ranked in the window, and every feed row ranked in the window is listed |
| Messages.FeedPageFacts | src/main/kotlin/database/Messages.kt:208-214 | every feed page entry is a visible moment post within the requested ranks |
| Messages.GetMomentComments | src/main/kotlin/database/Messages.kt:338-375 | exactly the replies to the moment, each once, oldest first |
| Database.FindByName | src/main/kotlin/route/packets/GroupPackets.kt:43-52 | a found user has that name; none is found exactly when no user has it |
| Database.FindById | src/main/kotlin/route/packets/MomentPackets.kt:164-165 | a found user has that id; none is found exactly when no user has it |
| Database.DeleteChatCascade | src/main/kotlin/database/ChatMembers.kt:21-31 | deleting a chat removes exactly its member rows and messages (`ON DELETE CASCADE`) and keeps the state consistent |
| ChatPackets.KotlinDiv | src/main/kotlin/route/packets/ChatPackets.kt:307-346 | Kotlin `Long` division rounds toward zero: for a non-negative dividend the quotient is the largest whose multiple does not exceed it, for a negative one the smallest whose multiple is not below it |
| ChatPackets.MarkMentions | src/main/kotlin/route/packets/ChatPackets.kt:140-144 | exactly the mentioned members of the chat get the mention marker |
| ChatPackets.GetMessages | src/main/kotlin/route/packets/ChatPackets.kt:42-73 | non-members are refused; a member gets exactly `[unread_count(0), messages_list]` without `before` and `[messages_list]` with it, the page holding at most `count` messages of that chat; opening the newest page resets the member's unread count; a member asking with a negative count gets nothing sent and no state change |
| ChatPackets.CountersAfterSend | src/main/kotlin/route/packets/ChatPackets.kt:137-144 | fails exactly on a counter overflow; otherwise other members are bumped, the sender is reset, and mentioned members get the marker; other chats are untouched |
| ChatPackets.StoreMessage | src/main/kotlin/route/packets/ChatPackets.kt:122-136 | the stored message has id `nextId` and carries the sender, chat, reply, send time `now` and the chat's burn time, and is unread with no deadline or reactions; non-text content is blanked; only the chat's activity time changes, to `now`, and the users, members and id counters are untouched |
| ChatPackets.AcceptSend | src/main/kotlin/route/packets/ChatPackets.kt:122-146 | the message is stored; then either the counters update and the message is distributed, or an overflow leaves the counters as they were and sends nothing |
| ChatPackets.SendMessage | src/main/kotlin/route/packets/ChatPackets.kt:80-147 | refuses posting to another user's moments, non-members and bad reply targets; otherwise behaves as AcceptSend |
| ChatPackets.RenameChat | src/main/kotlin/route/packets/ChatPackets.kt:178-219 | only the owner renames; only that chat's name changes, a sender-less system message stamped `now` records it, members are refreshed, and users, members and the chat id counter are untouched |
| ChatPackets.SetDoNotDisturb | src/main/kotlin/route/packets/ChatPackets.kt:226-245 | only a member's own flag changes |
| ChatPackets.EditMessage | src/main/kotlin/route/packets/ChatPackets.kt:252-301 | only the sender, while still a member, edits; an edit with no (null) content deletes the message exactly as `deleteMessage` does and asks for its files to be removed, while any content, the empty string included, replaces only the content; mentions are marked; the edited copy is distributed silently |
| ChatPackets.SetBurnTime | src/main/kotlin/route/packets/ChatPackets.kt:307-346 | only a member of a private chat changes its burn time; no other chat, table or id counter changes |
| ChatPackets.MarkMessageRead | src/main/kotlin/route/packets/ChatPackets.kt:353-379 | only the first receipt from a non-sender member of a private chat counts; it records the read time and the burn deadline `now + burn` |
| ChatPackets.MarkMessageReadOnce | src/main/kotlin/route/packets/ChatPackets.kt:373-374 | a second receipt, by anyone, changes nothing and sends nothing |
| ChatPackets.ToggleReaction | src/main/kotlin/route/packets/ChatPackets.kt:386-446 | only a member toggles; only that message's reactions change, and one update is sent |
| GroupPackets.Resolve | src/main/kotlin/route/packets/GroupPackets.kt:43-52 | every name resolves exactly when the result has one user per name, in order |
| GroupPackets.MissingKeys | src/main/kotlin/route/packets/GroupPackets.kt:55-59 | exactly the named users without an encrypted key |
| GroupPackets.AddInvited | src/main/kotlin/route/packets/GroupPackets.kt:66-74 | exactly the invited users with a key, other than the creator, become members with their key |
| GroupPackets.GroupMembers | src/main/kotlin/route/packets/GroupPackets.kt:64-74 | existing rows are kept; new rows are only for the new chat; the creator and invitees with keys are its members |
| GroupPackets.BuildGroup | src/main/kotlin/route/packets/GroupPackets.kt:64-79 | a new group owned by the creator (default name if none given) with those members, and every member's list is refreshed |
| GroupPackets.CreateGroup | src/main/kotlin/route/packets/GroupPackets.kt:27-80 | refuses unknown users and missing keys; otherwise behaves as BuildGroup |
| GroupPackets.AddMemberToChat | src/main/kotlin/route/packets/GroupPackets.kt:87-142 | refuses a missing chat and a moment chat of someone else, and any other refusal leaves the state as it is; an allowed add inserts exactly the target's row with the given key, records "<me> invited <target>" as a system message, and refreshes the chat and the target |
| GroupPackets.Remaining | src/main/kotlin/route/packets/GroupPackets.kt:210-212 | the chat's users other than the target |
| GroupPackets.Dissolve | src/main/kotlin/route/packets/GroupPackets.kt:175-203 | corrected dissolve: the file ids are read before the cascade, then the chat and all its rows are deleted |
| GroupPackets.DissolveAsWritten | src/main/kotlin/route/packets/GroupPackets.kt:175-203 | as written: the cascade runs first, so the file deletion gets no ids |
| GroupPackets.PlanKick | src/main/kotlin/route/packets/GroupPackets.kt:149-212 | refuses a missing chat, another user's moment chat, and a non-owner kicking someone else; the chat is dissolved exactly when it is private or the owner removes themself and the requester is a member; a requester that may not dissolve is refused as a non-member; once the guards pass, an unknown target name is refused with the name, two or fewer remaining members are refused, and otherwise exactly that target is removed |
| GroupPackets.NonOwnerRemovesOnlySelf | src/main/kotlin/route/packets/GroupPackets.kt:205-208 | a non-owner can remove only themselves |
| GroupPackets.RemoveMember | src/main/kotlin/route/packets/GroupPackets.kt:214-226 | removes only the target's row, records "<me> removed <target>", and refreshes those who remain and the target |
| GroupPackets.KickMember | src/main/kotlin/route/packets/GroupPackets.kt:149-227 | follows the plan: a refusal sends one error and changes nothing; a dissolve runs the cascade, asks for the chat's files and group avatar to be deleted and refreshes every former member's chat list; a removal is exactly `GroupPackets.RemoveMember` for the planned target and remaining members |
| GroupPackets.KickMemberAsWritten | src/main/kotlin/route/packets/GroupPackets.kt:149-227 | identical to KickMember except that a dissolve deletes no files |
| GroupPackets.DissolveLeaksFiles | src/main/kotlin/route/packets/GroupPackets.kt:180-183 | a file message of a dissolved chat leaves the table without being named in any file deletion, while the corrected kick names it |
| MomentPackets.MomentsWindow | src/main/kotlin/route/packets/MomentPackets.kt:42-48 | offset defaults to 0 and count to 50 |
| MomentPackets.GetMoments | src/main/kotlin/route/packets/MomentPackets.kt:42-73 | read-only; a negative window sends nothing; otherwise one list holding exactly the visible moment posts ranked in the window, newest first, each with its content, type, owner, time and the viewer's key for that moment chat |
| MomentPackets.MomentContent | src/main/kotlin/route/packets/MomentPackets.kt:106-124 | text posts keep their content; file posts store an empty text |
| MomentPackets.WithMomentChat | src/main/kotlin/database/Chats.kt:96-116 | the poster's moment chat exists afterwards, and no other table changes |
| MomentPackets.PostMoment | src/main/kotlin/route/packets/MomentPackets.kt:96-133 | a poster not yet in their moment chat must send a key (the chat is still created); otherwise one top-level post is stored there with the poster as sender, unread, with no burn time and no reactions, the poster is a member, the chat's time becomes `now` and every other chat and field is unchanged |
| MomentPackets.PostedMomentIsInFeed | src/main/kotlin/route/packets/MomentPackets.kt:96-133 | a successful post is in the feed of every viewer of the poster's moments |
| MomentPackets.PostThenKey | src/main/kotlin/route/packets/MomentPackets.kt:334-359 | after a post, `get_my_moment_key` finds the moment chat and a key, the one sent when the poster joined with it |
| MomentPackets.UserItems | src/main/kotlin/route/packets/MomentPackets.kt:164-189 | one item per message, carrying the owner and the viewer's key |
| MomentPackets.GetUserMoments | src/main/kotlin/route/packets/MomentPackets.kt:150-209 | read-only; refuses unknown users and non-viewers; a user without a moment chat gives an empty list; for the owner or a member, a negative `before` or count sends nothing, and otherwise exactly the `getChatMessages` page of that chat is sent, each entry carrying the owner and the viewer's key |
| MomentPackets.UserMomentsEntries | src/main/kotlin/route/packets/MomentPackets.kt:150-209 | a list sent for a user with a moment chat holds at most `count` entries, all from that chat, each naming the user as owner and carrying the viewer's key |
| MomentPackets.ToggleMomentPermission | src/main/kotlin/route/packets/MomentPackets.kt:226-264 | refuses non-friends; turning viewing on changes no table, turning it off removes only the friend's row in the requester's moment chat |
| MomentPackets.KeyOf | src/main/kotlin/route/packets/MomentPackets.kt:285 | corrected: only a JSON string is a key |
| MomentPackets.KeyAsWritten | src/main/kotlin/route/packets/MomentPackets.kt:285 | as written: a JSON `null` reads as the text "null" |
| MomentPackets.CanView | src/main/kotlin/route/packets/MomentPackets.kt:293-308 | true exactly when the viewer is a member of the owner's moment chat |
| MomentPackets.GrantAndReport | src/main/kotlin/route/packets/MomentPackets.kt:293-317 | with a key the friend becomes a viewer of the requester's (found or created) moment chat, without a key nothing changes; the reply reports both viewing directions |
| MomentPackets.GetMomentPermission | src/main/kotlin/route/packets/MomentPackets.kt:281-317 | non-friends get nothing; without a key string the state is unchanged |
| MomentPackets.GetMomentPermissionAsWritten | src/main/kotlin/route/packets/MomentPackets.kt:281-317 | as written: agrees with the corrected handler except on a JSON `null` key |
| MomentPackets.NullKeyGrantsAccess | src/main/kotlin/route/packets/MomentPackets.kt:285 | a JSON `null` key makes a friend a viewer with the key "null"; the corrected handler changes nothing |
| MomentPackets.ToggleOffRevokes | src/main/kotlin/route/packets/MomentPackets.kt:239-255 | after revoking, the friend cannot view |
| MomentPackets.GetMyMomentKey | src/main/kotlin/route/packets/MomentPackets.kt:334-359 | read-only; finds the moment chat exactly when one exists, with the user's own key |
| WeeklySummary.ParseScheduledTime | src/main/kotlin/service/WeeklySummaryService.kt:94-109 | accepted exactly for a non-blank text with three `:`-parts that parse to a day 1-7, an hour 0-23 and a minute 0-59 |
| WeeklySummary.ParseFormatRoundTrip | src/main/kotlin/service/WeeklySummaryService.kt:94-109 | every valid schedule printed as `d:hh:mm` parses back to itself |
| WeeklySummary.ConfigDefaults | src/main/kotlin/config/WeeklySummaryConfig.kt:16-21 | the data-class default "7:09:00" parses; the delegate default "0:09:00" is refused (day 0), and so is the empty time |
| WeeklySummary.NonNumericFieldRefused | src/main/kotlin/service/WeeklySummaryService.kt:94-109 | "a:09:00" has three parts but a non-numeric day, and is refused |
| WeeklySummary.DayOfWeek | src/main/kotlin/service/WeeklySummaryService.kt:116-118 | ISO day numbers 1-7 |
| WeeklySummary.ShiftToWeekday | src/main/kotlin/service/WeeklySummaryService.kt:117-118 | adding `(target - today + 7) % 7` days lands on the target weekday |
| WeeklySummary.CalculateNextRunTime | src/main/kotlin/service/WeeklySummaryService.kt:111-121 | the result is the scheduled time on the scheduled weekday, strictly after now, within a week, and the earliest such time |
| WeeklySummary.NextRunUnique | src/main/kotlin/service/WeeklySummaryService.kt:111-121 | two times meeting that contract are equal |
| WeeklySummary.Start | src/main/kotlin/service/WeeklySummaryService.kt:33-45 | a running service stays as it is; otherwise it launches exactly when enabled |
| WeeklySummary.Stop | src/main/kotlin/service/WeeklySummaryService.kt:87-92 | afterwards nothing runs |
| WeeklySummary.ReloadFollowsConfig | src/main/kotlin/config/WeeklySummaryConfig.kt:23-26 | stop-then-start on a reload leaves the service running exactly when enabled |
| WeeklySummary.NextStep | src/main/kotlin/service/WeeklySummaryService.kt:53-74 | an unparsable schedule waits one hour; otherwise the next run is the earliest slot on the scheduled weekday and time strictly after now, at most a week ahead |
| WeeklySummary.Medal | src/main/kotlin/service/WeeklySummaryService.kt:154-177 | ranks 0, 1 and 2 get the gold, silver and bronze medals; later ranks get "n." with n the 1-based rank |
| WeeklySummary.MedalInjective | src/main/kotlin/service/WeeklySummaryService.kt:154-177 | distinct ranks get distinct medals |
| WeeklySummary.RankLineAt | src/main/kotlin/service/WeeklySummaryService.kt:154-177 | the k-th entry's line appears in the ranking, after exactly k earlier lines |
| WeeklySummary.RankLineCount | src/main/kotlin/service/WeeklySummaryService.kt:154-177 | a ranking of names without line breaks has one line per entry |
| WeeklySummary.BuildSummary | src/main/kotlin/service/WeeklySummaryService.kt:137-183 | the summary opens with the title line and ends with the farewell; its line count is stated by `WeeklySummary.SummaryLineCount` and each ranked line by `WeeklySummary.RankLineAt` |
| WeeklySummary.SummaryLineCount | src/main/kotlin/service/WeeklySummaryService.kt:137-183 | the summary has 10 line breaks plus one per ranked user and chat |

## Left out

- I/O and sessions: sending packets, `SessionManager` and distribution to sessions are events in the `Outcome`; delivery itself is not modelled.
- Concurrency: coroutines and the scheduler's `delay` are not modelled, and neither are transactions running interleaved. Each handler runs alone.
- JSON decoding: a request is a Dafny datatype, and a packet that does not parse is `None`.
- Time: time zones and `Instant` conversion are not modelled. Times are epoch milliseconds. The weekly schedule works on abstract local dates (day 0 is a Thursday) and milliseconds of the day.
- Users table, friends table and the sender foreign key: the users table is a list of known users, and friends are a set parameter.
- Column widths (`varchar` limits) are not modelled.
- Joins that only fill display fields: the sender name, the private-chat donor display, the owner name and the reply preview.
- `getTopActiveUsers` and `getTopActiveChats` (`Messages.kt`:229-257) are not modelled. They aggregate `GROUP BY` counts, and the summary receives their result as input.
- `generateAndSendSummary` and broadcasts are not modelled. The summary's date rendering is replaced by input strings.
- `get_chats` and `get_chat_details` (`ChatPackets.kt`:24-36 and 150-171) are not modelled as handlers. They only wrap `ChatMembers.GetUserChats` and `ChatMembers.ChatUsers`.
- Login, the user routes, file storage and the browser client are not part of this model.
- Text.ToIntOrNull: accepts ASCII digits only, while Kotlin also accepts other Unicode decimal digits.
- Messages.AddMessage: the six-argument `addChatMessage` the handler calls is not in the store file; the model assumes it inserts one fresh row from its arguments (unread, no deadline, no reactions) and touches nothing else.
- Messages.AddSystemMessage: `addSystemMessage` is not in the store file; the model assumes it inserts one fresh sender-less SYSTEM row stamped `now` and touches nothing else.
- Messages.MarkAsReadUntil: frame-only contract, because `markAsRead(id, now, burnTime)` is not in the store file.
- Messages.ToggleReaction: only the reactions of the one message may change. The toggle itself is a parameter, because `toggleReaction` is not in the store file.
- Messages.GetChatMessagesBefore: states only chat, bound and count. `getChatMessages(chat, before, count)` as `get_messages` calls it is not in the store file, which has an offset version instead.
- Chats.SetBurnTime: frame-only contract, because `setBurnTime` is not in the store file.
- WeeklySummary.Medal: a medal counts as one character because a Dafny string holds Unicode code points; Kotlin holds each medal as two UTF-16 units, so lengths of texts that contain medals differ from the JVM's `length`.

Notes on the code as written, where it differs from what its documentation suggests:

- `get_user_moments` passes `before` as the offset of the offset-based `getChatMessages`, and `before` defaults to `Long.MAX_VALUE`. The model follows the code: a request without `before` gets an empty page.
- A message expires strictly after `readAt + burnTime` (`Messages.kt`:298).
- The configuration delegate's default "0:09:00" is refused by the parser, because its day is 0. The data-class default "7:09:00" is accepted (`WeeklySummary.ConfigDefaults`).
- The configuration documents an empty time as switching the weekly summary off (`WeeklySummaryConfig.kt`:12-15). In the code an empty time is refused by the parser (`WeeklySummary.ConfigDefaults`), so a started job logs a warning and retries every hour for ever (`WeeklySummaryService.kt`:53-58, `WeeklySummary.NextStep`); only `enableWeeklySummary` turns it off.

## Findings

| source | as written | input that shows it | evidently intended | confidence | as-written member | corrected member |
|---|---|---|---|---|---|---|
| src/main/kotlin/route/packets/GroupPackets.kt:180-183 | `deleteChat` runs first. It cascades away the chat's messages, so the `getFileMessageIds` that follows returns nothing, and no stored files are deleted | the owner kicks themself from a group holding an image message; the message row is gone but its file is never deleted (`GroupPackets.DissolveLeaksFiles`) | read the file message ids before deleting the chat, and delete those files | not executed | GroupPackets.KickMemberAsWritten | GroupPackets.KickMember |
| src/main/kotlin/route/packets/MomentPackets.kt:285 | `jsonPrimitive.content` of a JSON `null` is the text "null", so the key counts as given | `{"friendId": 5, "encryptedKey": null}` from a user to a friend; the friend is added to the moment chat with key "null" (`MomentPackets.NullKeyGrantsAccess`) | treat `null` like an absent key: no access is granted | not executed | MomentPackets.GetMomentPermissionAsWritten | MomentPackets.GetMomentPermission |

=== FILE: chat_members.dfy ===
/**
 The chat_members table (`ChatMembers.kt`): one row per (chat, user) pair,
 holding the member's copy of the chat key, an unread counter and a
 do-not-disturb flag. The unread counter is a 32-bit SQL `integer`; the
 value Int.MIN_VALUE marks an @-mention, and ordinary increments keep it
 negative. An `unread + 1` that would leave the 32-bit range is an SQL
 error that rolls the whole UPDATE back.
 */
module ChatMembers {
  import opened Records
  import Chats
  import Ordering

  type Members = map<(ChatId, UserId), Member>

  /** The counter value that marks an @-mention. */
  const MentionMarker: Int32 := -0x8000_0000

  predicate IsMember(m: Members, c: ChatId, u: UserId) {
    (c, u) in m
  }

  /** `addMember`: an INSERT IGNORE on the (chat, user) primary key. */
  function AddMember(m: Members, c: ChatId, u: UserId, key: string): (r: Members)
    ensures IsMember(r, c, u)
    ensures IsMember(m, c, u) ==> r == m
    ensures !IsMember(m, c, u) ==> r[(c, u)] == Member(key, 0, false)
    ensures AgreeOutside(m, r, {(c, u)})
  {
    if (c, u) in m then m else m[(c, u) := Member(key, 0, false)]
  }

  /** `removeMember`. */
  function RemoveMember(m: Members, c: ChatId, u: UserId): (r: Members)
    ensures !IsMember(r, c, u)
    ensures AgreeOutside(m, r, {(c, u)})
  {
    m - {(c, u)}
  }

  /** A row of chat `c` that an increment for a message from `sender` touches. */
  predicate Bumped(k: (ChatId, UserId), c: ChatId, sender: UserId) {
    k.0 == c && k.1 != sender
  }

  /**
   `incrementUnread`: one UPDATE adding 1 to the counter of every member of
   `c` except the sender. None is the overflow error, after which no row
   has changed.
   */
  function IncrementUnread(m: Members, c: ChatId, sender: UserId): (r: Option<Members>)
    ensures r.None? <==> exists k :: k in m && Bumped(k, c, sender) && m[k].unread as int == IntMax
    ensures r.Some? ==> r.value.Keys == m.Keys
    ensures r.Some? ==> forall k :: k in m && Bumped(k, c, sender) ==>
      && r.value[k].unread as int == m[k].unread as int + 1
      && r.value[k].key == m[k].key
      && r.value[k].doNotDisturb == m[k].doNotDisturb
    ensures r.Some? ==> forall k :: k in m && !Bumped(k, c, sender) ==> r.value[k] == m[k]
  {
    if exists k :: k in m && Bumped(k, c, sender) && m[k].unread == 0x7fff_ffff then None
    else Some(map k | k in m :: if Bumped(k, c, sender) then m[k].(unread := m[k].unread + 1) else m[k])
  }

  /** `resetUnread`: the counter of (c, u) becomes 0, whatever it was, mention included. */
  function ResetUnread(m: Members, c: ChatId, u: UserId): (r: Members)
    ensures r.Keys == m.Keys
    ensures IsMember(m, c, u) ==> r[(c, u)] == m[(c, u)].(unread := 0)
    ensures AgreeOutside(m, r, {(c, u)})
  {
    if (c, u) in m then m[(c, u) := m[(c, u)].(unread := 0)] else m
  }

  /** `setAtMarker`: true iff the row exists, in which case its counter is the mention marker. */
  function SetAtMarker(m: Members, c: ChatId, u: UserId): (r: (Members, bool))
    ensures r.1 <==> IsMember(m, c, u)
    ensures r.0.Keys == m.Keys
    ensures r.1 ==> r.0[(c, u)] == m[(c, u)].(unread := MentionMarker)
    ensures !r.1 ==> r.0 == m
    ensures AgreeOutside(m, r.0, {(c, u)})
  {
    if (c, u) in m then (m[(c, u) := m[(c, u)].(unread := MentionMarker)], true) else (m, false)
  }

  /** `setDoNotDisturb`: true iff the row exists, in which case only its flag changes. */
  function SetDoNotDisturb(m: Members, c: ChatId, u: UserId, dnd: bool): (r: (Members, bool))
    ensures r.1 <==> IsMember(m, c, u)
    ensures r.0.Keys == m.Keys
    ensures r.1 ==> r.0[(c, u)] == m[(c, u)].(doNotDisturb := dnd)
    ensures !r.1 ==> r.0 == m
    ensures AgreeOutside(m, r.0, {(c, u)})
  {
    if (c, u) in m then (m[(c, u) := m[(c, u)].(doNotDisturb := dnd)], true) else (m, false)
  }

  /** `getUnreadCount`: the stored counter, or 0 for a non-member. */
  function GetUnreadCount(m: Members, c: ChatId, u: UserId): (r: Int32)
    ensures IsMember(m, c, u) ==> r == m[(c, u)].unread
    ensures !IsMember(m, c, u) ==> r == 0
  {
    if (c, u) in m then m[(c, u)].unread else 0
  }

  /** `getMemberKey`: the member's key, or none for a non-member. */
  function GetMemberKey(m: Members, c: ChatId, u: UserId): (r: Option<string>)
    ensures r.Some? <==> IsMember(m, c, u)
    ensures r.Some? ==> r.value == m[(c, u)].key
  {
    if (c, u) in m then Some(m[(c, u)].key) else None
  }

  /** `getMemberIds`: the members of chat `c` (the query has no order). */
  function GetMemberIds(m: Members, c: ChatId): (r: set<UserId>)
    ensures forall u :: u in r <==> IsMember(m, c, u)
  {
    set k | k in m && k.0 == c :: k.1
  }

  // ---------------------------------------------------------------------
  // Mention marker under repeated traffic

  /**
   The counter table after `n` further messages from `sender` in chat `c`;
   a message whose increment overflowed left the table as it was.
   */
  function AfterMessages(m: Members, c: ChatId, sender: UserId, n: nat): Members {
    if n == 0 then m
    else
      var prev := AfterMessages(m, c, sender, n - 1);
      IncrementUnread(prev, c, sender).GetOr(prev)
  }

  lemma {:induction false} AfterMessagesBounds(m: Members, c: ChatId, u: UserId, sender: UserId, n: nat)
    requires IsMember(m, c, u) && u != sender
    ensures IsMember(AfterMessages(m, c, sender, n), c, u)
    ensures var v := AfterMessages(m, c, sender, n)[(c, u)].unread as int;
      m[(c, u)].unread as int <= v <= m[(c, u)].unread as int + n
  {
    if n > 0 {
      AfterMessagesBounds(m, c, u, sender, n - 1);
      var prev := AfterMessages(m, c, sender, n - 1);
      assert Bumped((c, u), c, sender);
    }
  }

  /**
   A member who was @-mentioned keeps a negative counter through any fewer
   than 2^31 later messages from someone else, whether each increment
   succeeded or overflowed elsewhere in the chat.
   */
  lemma MentionSurvivesIncrements(m: Members, c: ChatId, u: UserId, sender: UserId, n: nat)
    requires IsMember(m, c, u) && u != sender
    requires m[(c, u)].unread == MentionMarker
    requires n < 0x8000_0000
    ensures IsMember(AfterMessages(m, c, sender, n), c, u)
    ensures AfterMessages(m, c, sender, n)[(c, u)].unread < 0
  {
    AfterMessagesBounds(m, c, u, sender, n);
  }

  /** Resetting after a mention clears it: the counter reads 0. */
  lemma ResetClearsMention(m: Members, c: ChatId, u: UserId)
    requires IsMember(m, c, u)
    ensures GetUnreadCount(SetAtMarker(m, c, u).0, c, u) == MentionMarker
    ensures GetUnreadCount(ResetUnread(SetAtMarker(m, c, u).0, c, u), c, u) == 0
  {
  }

  /** Adding a member twice is adding it once: the first key and counters are kept. */
  lemma AddMemberIdempotent(m: Members, c: ChatId, u: UserId, k1: string, k2: string)
    ensures AddMember(AddMember(m, c, u, k1), c, u, k2) == AddMember(m, c, u, k1)
  {
  }

  /** Removing a member just added restores the table. */
  lemma RemoveUndoesAdd(m: Members, c: ChatId, u: UserId, key: string)
    requires !IsMember(m, c, u)
    ensures RemoveMember(AddMember(m, c, u, key), c, u) == m
  {
  }

  // ---------------------------------------------------------------------
  // Chat list

  /** `ChatFull`: one entry of a user's chat list. */
  datatype ChatSummary = ChatSummary(
    chatId: ChatId,
    name: string,
    key: string,
    members: seq<User>,
    isPrivate: bool,
    unreadCount: Int32,
    doNotDisturb: bool,
    burnTime: Option<int>,
    otherUserIsDonor: bool)

  /** The users that are members of chat `c`, in the order of the users table. */
  function ChatUsers(users: seq<User>, m: Members, c: ChatId): (r: seq<User>)
    ensures forall x :: x in r <==> x in users && IsMember(m, c, x.id)
  {
    if |users| == 0 then []
    else
      var rest := ChatUsers(users[1..], m, c);
      assert forall x :: x in users <==> x == users[0] || x in users[1..];
      if IsMember(m, c, users[0].id) then [users[0]] + rest else rest
  }

  /** The first user of `us` other than `u`. */
  function FirstOther(us: seq<User>, u: UserId): (r: Option<User>)
    ensures r.Some? ==> r.value in us && r.value.id != u
    ensures r.None? ==> forall x :: x in us ==> x.id == u
  {
    if |us| == 0 then None
    else if us[0].id != u then Some(us[0])
    else FirstOther(us[1..], u)
  }

  predicate AnyOtherDonor(us: seq<User>, u: UserId) {
    exists x :: x in us && x.id != u && x.isDonor
  }

  /** The chats listed for `u`: member, not a moment chat, and present in the chats table. */
  predicate Listed(chats: Chats.ChatTable, m: Members, u: UserId, c: ChatId) {
    c in chats.rows && IsMember(m, c, u) && !chats.rows[c].isMoment
  }

  function ListedIds(chats: Chats.ChatTable, m: Members, u: UserId, hi: int): (r: seq<ChatId>)
    ensures forall c :: c in r <==> 0 <= c < hi && Listed(chats, m, u, c)
    ensures Ordering.Distinct(r)
    decreases hi
  {
    if hi <= 0 then []
    else
      var rest := ListedIds(chats, m, u, hi - 1);
      if Listed(chats, m, u, hi - 1) then rest + [hi - 1] else rest
  }

  /** The last-activity time of a chat, as a sort key. */
  function LastChatAt(chats: Chats.ChatTable): int -> int {
    c => if c in chats.rows then chats.rows[c].lastChatAt else 0
  }

  /** What an entry of the chat list says about chat `e.chatId` as seen by `u`. */
  ghost predicate Describes(chats: Chats.ChatTable, users: seq<User>, m: Members, u: UserId, e: ChatSummary)
    requires Listed(chats, m, u, e.chatId)
  {
    var chat := chats.rows[e.chatId];
    var row := m[(e.chatId, u)];
    && e.key == row.key
    && e.unreadCount == row.unread
    && e.doNotDisturb == row.doNotDisturb
    && e.isPrivate == chat.private
    && e.burnTime == chat.burnTime
    && (forall x :: x in e.members <==> x in users && IsMember(m, e.chatId, x.id))
    && (!chat.private ==> e.name == chat.name && !e.otherUserIsDonor)
    && (chat.private ==>
          || (e.name == "Private Chat" && forall x :: x in e.members ==> x.id == u)
          || (exists x :: x in e.members && x.id != u && x.username == e.name))
    && (chat.private ==> (e.otherUserIsDonor <==> exists x :: x in e.members && x.id != u && x.isDonor))
  }

  function Summary(chats: Chats.ChatTable, users: seq<User>, m: Members, u: UserId, c: ChatId): (r: ChatSummary)
    requires Listed(chats, m, u, c)
    ensures r.chatId == c
    ensures Describes(chats, users, m, u, r)
  {
    var chat := chats.rows[c];
    var row := m[(c, u)];
    var us := ChatUsers(users, m, c);
    var name :=
      if !chat.private then chat.name
      else match FirstOther(us, u)
        case Some(x) => x.username
        case None => "Private Chat";
    ChatSummary(c, name, row.key, us, chat.private, row.unread, row.doNotDisturb, chat.burnTime,
                chat.private && AnyOtherDonor(us, u))
  }

  function Summaries(chats: Chats.ChatTable, users: seq<User>, m: Members, u: UserId, ids: seq<ChatId>): (r: seq<ChatSummary>)
    requires forall c :: c in ids ==> Listed(chats, m, u, c)
    ensures |r| == |ids|
    ensures forall i :: 0 <= i < |ids| ==> r[i] == Summary(chats, users, m, u, ids[i])
  {
    if |ids| == 0 then [] else [Summary(chats, users, m, u, ids[0])] + Summaries(chats, users, m, u, ids[1..])
  }

  /** The listed chats of `u`, each once, most recent activity first. */
  function ChatOrder(chats: Chats.ChatTable, m: Members, u: UserId): (ids: seq<ChatId>)
    requires Chats.Valid(chats)
    ensures forall c :: c in ids <==> Listed(chats, m, u, c)
    ensures Ordering.Distinct(ids)
    ensures Ordering.SortedDesc(LastChatAt(chats), ids)
  {
    var listed := ListedIds(chats, m, u, chats.nextId);
    var ids := Ordering.SortDesc(LastChatAt(chats), listed);
    assert forall c :: c in ids <==> c in listed by {
      forall c ensures c in ids <==> c in listed {
        assert c in ids <==> c in multiset(ids);
        assert c in listed <==> c in multiset(listed);
      }
    }
    Ordering.DistinctPreserved(listed, ids);
    ids
  }

  /**
   `getUserChats`: the non-moment chats of `u`, most recent activity first.
   A group chat shows its stored name; a private chat shows the name of
   another member, or "Private Chat" when there is none; only a private
   chat can report a donor on the other side.
   */
  function GetUserChats(chats: Chats.ChatTable, users: seq<User>, m: Members, u: UserId): (r: seq<ChatSummary>)
    requires Chats.Valid(chats)
    ensures forall i :: 0 <= i < |r| ==> Listed(chats, m, u, r[i].chatId) && Describes(chats, users, m, u, r[i])
    ensures forall c :: Listed(chats, m, u, c) ==> exists i :: 0 <= i < |r| && r[i].chatId == c
    ensures forall i, j :: 0 <= i < j < |r| ==> r[i].chatId != r[j].chatId
    ensures forall i, j :: 0 <= i < j < |r| ==>
      LastChatAt(chats)(r[i].chatId) >= LastChatAt(chats)(r[j].chatId)
  {
    var ids := ChatOrder(chats, m, u);
    var r := Summaries(chats, users, m, u, ids);
    assert forall c :: c in ids ==> exists i :: 0 <= i < |r| && r[i].chatId == c by {
      forall c | c in ids ensures exists i :: 0 <= i < |r| && r[i].chatId == c {
        var i :| 0 <= i < |ids| && ids[i] == c;
        assert r[i].chatId == c;
      }
    }
    assert forall i, j :: 0 <= i < j < |r| ==> Ordering.Precedes(LastChatAt(chats), r[i].chatId, r[j].chatId);
    r
  }
}

=== FILE: chat_packets.dfy ===
/**
 The chat packet handlers (`ChatPackets.kt`) as guarded transitions
 State × Request → State × events. A request of None stands for a packet
 that did not parse; the clock is the `now` parameter.
 */
module ChatPackets {
  import opened Records
  import Chats
  import ChatMembers
  import Messages
  import Text
  import opened Database

  // ---------------------------------------------------------------------
  // Shared steps

  /** The @-mention loop: every listed user who is a member of chat `c` gets the marker. */
  function MarkMentions(m: ChatMembers.Members, c: ChatId, ats: seq<UserId>): (r: ChatMembers.Members)
    ensures r.Keys == m.Keys
    ensures forall k :: k in m && k.0 == c && k.1 in ats ==> r[k] == m[k].(unread := ChatMembers.MentionMarker)
    ensures forall k :: k in m && !(k.0 == c && k.1 in ats) ==> r[k] == m[k]
    decreases |ats|
  {
    if |ats| == 0 then m
    else MarkMentions(ChatMembers.SetAtMarker(m, c, ats[0]).0, c, ats[1..])
  }

  /** Kotlin's `Long / Long`, which rounds toward zero. */
  function KotlinDiv(a: int, b: int): (q: int)
    requires b > 0
    ensures a >= 0 ==> q * b <= a < q * b + b
    ensures a < 0 ==> q * b - b < a <= q * b
  {
    if a >= 0 then a / b else -((-a) / b)
  }

  function BoolText(b: bool): string {
    if b then "true" else "false"
  }

  // ---------------------------------------------------------------------
  // get_messages

  datatype GetMessagesRequest = GetMessagesRequest(chat: ChatId, before: Option<int>, count: int)

  /**
   `get_messages`: a member gets one page of the chat. Opening the newest
   page (no `before`) also clears the member's unread counter. A negative
   count is an SQL error that aborts the handler with nothing sent.
   */
  function GetMessages(s: State, me: User, req: Option<GetMessagesRequest>): (r: Outcome)
    requires Consistent(s)
    ensures Consistent(r.state)
    ensures req.None? ==> r == Reject(s, "Get messages failed: Invalid packet format")
    ensures req.Some? && !ChatMembers.IsMember(s.members, req.value.chat, me.id) ==>
      r == Reject(s, "Get messages failed: You are not a member of this chat")
    ensures req.Some? && req.value.before.Some? ==> r.state == s
    ensures req.Some? && ChatMembers.IsMember(s.members, req.value.chat, me.id) && req.value.count >= 0 ==>
      var q := req.value;
      && |r.events| > 0
      && r.events[|r.events| - 1].MessagesList?
      && r.events[|r.events| - 1].chat == q.chat
      && |r.events[|r.events| - 1].page| <= q.count
      && (forall id :: id in r.events[|r.events| - 1].page ==> id in s.messages.rows && s.messages.rows[id].chat == q.chat)
      && r.events == (if q.before.None? then [UnreadCount(me.id, q.chat, 0)] else [])
                     + [MessagesList(q.chat, Messages.GetChatMessagesBefore(s.messages, q.chat, q.before, q.count).value)]
      && (q.before.None? ==>
            && r.state == s.(members := ChatMembers.ResetUnread(s.members, q.chat, me.id))
            && r.state.members[(q.chat, me.id)].unread == 0
            && r.events[0] == UnreadCount(me.id, q.chat, 0))
    ensures req.Some? && req.value.count < 0 ==> r.state == s && (r.events == [] || r.events[0].Error?)
    ensures req.Some? && ChatMembers.IsMember(s.members, req.value.chat, me.id) && req.value.count < 0 ==>
      r == Outcome(s, [])
  {
    match req
    case None => Reject(s, "Get messages failed: Invalid packet format")
    case Some(q) =>
      if !ChatMembers.IsMember(s.members, q.chat, me.id) then
        Reject(s, "Get messages failed: You are not a member of this chat")
      else
        match Messages.GetChatMessagesBefore(s.messages, q.chat, q.before, q.count)
        case None => Outcome(s, [])
        case Some(page) =>
          if q.before.None? then
            var m := ChatMembers.ResetUnread(s.members, q.chat, me.id);
            Outcome(s.(members := m), [UnreadCount(me.id, q.chat, ChatMembers.GetUnreadCount(m, q.chat, me.id)),
                                       MessagesList(q.chat, page)])
          else Outcome(s, [MessagesList(q.chat, page)])
  }

  // ---------------------------------------------------------------------
  // send_message

  datatype SendMessageRequest = SendMessageRequest(
    chat: ChatId, message: string, mtype: MessageType, replyTo: Option<MessageId>, atUserIds: seq<UserId>)

  /** The chat is a moment chat of someone else. */
  predicate OthersMoment(s: State, c: ChatId, u: UserId) {
    c in s.chats.rows && s.chats.rows[c].isMoment && s.chats.rows[c].owner != u
  }

  /** A reply may only target an existing, non-system message of the same chat. */
  predicate ReplyTargetOk(s: State, c: ChatId, target: MessageId) {
    target in s.messages.rows && s.messages.rows[target].chat == c && s.messages.rows[target].sender.Some?
  }

  predicate SendAllowed(s: State, me: User, q: SendMessageRequest) {
    && !OthersMoment(s, q.chat, me.id)
    && ChatMembers.IsMember(s.members, q.chat, me.id)
    && (q.replyTo.Some? ==> ReplyTargetOk(s, q.chat, q.replyTo.value))
  }

  /**
   The counter updates after a send, in the handler's order: every member
   but the sender goes up by one, the sender is cleared, every mentioned
   member gets the marker. None when a counter would pass the 32-bit
   maximum, which fails the whole UPDATE.
   */
  function CountersAfterSend(m: ChatMembers.Members, c: ChatId, sender: UserId, ats: seq<UserId>)
    : (r: Option<ChatMembers.Members>)
    ensures r.None? <==> exists k :: k in m && ChatMembers.Bumped(k, c, sender) && m[k].unread as int == IntMax
    ensures r.Some? ==> r.value.Keys == m.Keys
    ensures r.Some? ==> forall k :: k in m && k.0 != c ==> r.value[k] == m[k]
    ensures r.Some? ==> forall k :: k in m && k.0 == c ==>
      && r.value[k].key == m[k].key
      && r.value[k].doNotDisturb == m[k].doNotDisturb
      && r.value[k].unread as int ==
           if k.1 in ats then ChatMembers.MentionMarker as int
           else if k.1 == sender then 0
           else m[k].unread as int + 1
  {
    match ChatMembers.IncrementUnread(m, c, sender)
    case None => None
    case Some(bumped) => Some(MarkMentions(ChatMembers.ResetUnread(bumped, c, sender), c, ats))
  }

  /** The stored half of a send: the new message row and the chat's activity time. */
  function StoreMessage(s: State, me: User, q: SendMessageRequest, now: int): (r: (State, MessageId))
    requires Consistent(s)
    requires SendAllowed(s, me, q)
    ensures Consistent(r.0)
    ensures r.0.users == s.users && r.0.members == s.members
    ensures var id := r.1;
      && id == s.messages.nextId
      && id !in s.messages.rows
      && id in r.0.messages.rows
      && r.0.messages.rows[id].content == (if q.mtype == TEXT then q.message else "")
      && r.0.messages.rows[id].mtype == q.mtype
      && r.0.messages.rows[id].chat == q.chat
      && r.0.messages.rows[id].sender == Some(me.id)
      && r.0.messages.rows[id].replyTo == q.replyTo
      && r.0.messages.rows[id].burn == s.chats.rows[q.chat].burnTime
      && r.0.messages.rows[id].time == now
      && r.0.messages.rows[id].readAt.None?
      && r.0.messages.rows[id].burnDeadline.None?
      && r.0.messages.rows[id].reactions == []
      && AgreeOutside(s.messages.rows, r.0.messages.rows, {id})
    ensures r.0.chats.rows.Keys == s.chats.rows.Keys && r.0.chats.nextId == s.chats.nextId
    ensures q.chat in r.0.chats.rows && r.0.chats.rows[q.chat] == s.chats.rows[q.chat].(lastChatAt := now)
    ensures AgreeOutside(s.chats.rows, r.0.chats.rows, {q.chat})
  {
    var chat := Chats.GetChat(s.chats, q.chat);
    var burn := if chat.Some? then chat.value.burnTime else None;
    var content := if q.mtype == TEXT then q.message else "";
    var (msgs, id) := Messages.AddMessage(s.messages, content, q.mtype, q.chat, me.id, burn, q.replyTo, now).value;
    (State(s.users, Chats.UpdateTime(s.chats, q.chat, now), s.members, msgs), id)
  }

  // The error texts of `send_message`.
  const SendBadPacket := "Send message failed: Invalid packet format"
  const SendOwnerOnly := "Send message failed: Only the owner can post to their moments"
  const SendNotMember := "Send message failed: You are not a member of this chat"
  const SendBadReply := "Send message failed: Replied message not found or not in this chat or is a system message"

  /**
   A send that passed the guards: the message is stored (StoreMessage),
   the counters change as CountersAfterSend says, and the message is
   distributed with sound. A counter already at the 32-bit maximum makes
   the counter update fail: the message and the time bump are already
   stored, and nothing is sent.
   */
  function AcceptSend(s: State, me: User, q: SendMessageRequest, now: int): (r: Outcome)
    requires Consistent(s)
    requires SendAllowed(s, me, q)
    ensures Consistent(r.state)
    ensures var (stored, id) := StoreMessage(s, me, q, now);
      && r.state == stored.(members := r.state.members)
      && (CountersAfterSend(s.members, q.chat, me.id, q.atUserIds).None? ==>
            r.state.members == s.members && r.events == [])
      && (CountersAfterSend(s.members, q.chat, me.id, q.atUserIds).Some? ==>
            && r.state.members == CountersAfterSend(s.members, q.chat, me.id, q.atUserIds).value
            && r.events == [Distribute(id, stored.messages.rows[id], false)])
  {
    var (stored, id) := StoreMessage(s, me, q, now);
    match CountersAfterSend(s.members, q.chat, me.id, q.atUserIds)
    case None => Outcome(stored, [])
    case Some(m) =>
      SameMemberKeys(stored, m);
      Outcome(stored.(members := m), [Distribute(id, stored.messages.rows[id], false)])
  }

  /**
   `send_message`: rejected for someone else's moment chat, for a
   non-member, and for a reply to a message that is missing, in another
   chat, or a system message; otherwise accepted as AcceptSend says.
   */
  function SendMessage(s: State, me: User, req: Option<SendMessageRequest>, now: int): (r: Outcome)
    requires Consistent(s)
    ensures Consistent(r.state)
    ensures req.None? ==> r == Reject(s, SendBadPacket)
    ensures req.Some? && OthersMoment(s, req.value.chat, me.id) ==>
      r == Reject(s, SendOwnerOnly)
    ensures req.Some? && !OthersMoment(s, req.value.chat, me.id) && !ChatMembers.IsMember(s.members, req.value.chat, me.id) ==>
      r == Reject(s, SendNotMember)
    ensures req.Some? && !OthersMoment(s, req.value.chat, me.id) && ChatMembers.IsMember(s.members, req.value.chat, me.id)
            && req.value.replyTo.Some? && !ReplyTargetOk(s, req.value.chat, req.value.replyTo.value) ==>
      r == Reject(s, SendBadReply)
    ensures req.Some? && SendAllowed(s, me, req.value) ==> r == AcceptSend(s, me, req.value, now)
  {
    match req
    case None => Reject(s, SendBadPacket)
    case Some(q) =>
      var chat := Chats.GetChat(s.chats, q.chat);
      if chat.Some? && chat.value.isMoment && chat.value.owner != me.id then
        Reject(s, SendOwnerOnly)
      else if !ChatMembers.IsMember(s.members, q.chat, me.id) then
        Reject(s, SendNotMember)
      else if q.replyTo.Some? && !ReplyTargetOk(s, q.chat, q.replyTo.value) then
        Reject(s, SendBadReply)
      else AcceptSend(s, me, q, now)
  }

  // ---------------------------------------------------------------------
  // rename_chat

  datatype RenameChatRequest = RenameChatRequest(chat: ChatId, newName: string)

  /**
   `rename_chat`: only the owner may rename. A system message announces
   the new name; every member's chat list is refreshed. A packet that does
   not parse is ignored.
   */
  function RenameChat(s: State, me: User, req: Option<RenameChatRequest>, now: int): (r: Outcome)
    requires Consistent(s)
    ensures Consistent(r.state)
    ensures req.None? ==> r == Outcome(s, [])
    ensures req.Some? && !Chats.IsChatOwner(s.chats, req.value.chat, me.id) ==> r == Reject(s, "Only owner can rename chat")
    ensures req.Some? && Chats.IsChatOwner(s.chats, req.value.chat, me.id) ==>
      var q := req.value;
      var id := s.messages.nextId;
      && r.state.users == s.users
      && r.state.chats.rows.Keys == s.chats.rows.Keys && r.state.chats.nextId == s.chats.nextId
      && r.state.chats.rows[q.chat] == s.chats.rows[q.chat].(name := q.newName)
      && AgreeOutside(s.chats.rows, r.state.chats.rows, {q.chat})
      && r.state.members == s.members
      && id in r.state.messages.rows && id !in s.messages.rows
      && r.state.messages.rows[id].sender.None? && r.state.messages.rows[id].time == now
      && AgreeOutside(s.messages.rows, r.state.messages.rows, {id})
      && r.state.messages.rows[id].content == me.username + " changed the chat name to \"" + q.newName + "\""
      && r.state.messages.rows[id].chat == q.chat
      && r.events == [Success("Chat renamed successfully"),
                      ChatList(ChatMembers.GetMemberIds(s.members, q.chat)),
                      Distribute(id, r.state.messages.rows[id], false)]
  {
    match req
    case None => Outcome(s, [])
    case Some(q) =>
      if !Chats.IsChatOwner(s.chats, q.chat, me.id) then Reject(s, "Only owner can rename chat")
      else
        var chats := Chats.RenameChat(s.chats, q.chat, q.newName);
        var (msgs, id) := Messages.AddSystemMessage(s.messages, me.username + " changed the chat name to \"" + q.newName + "\"", q.chat, now);
        Outcome(s.(chats := chats, messages := msgs),
                [Success("Chat renamed successfully"), ChatList(ChatMembers.GetMemberIds(s.members, q.chat)),
                 Distribute(id, msgs.rows[id], false)])
  }

  // ---------------------------------------------------------------------
  // set_do_not_disturb

  datatype DoNotDisturbRequest = DoNotDisturbRequest(chat: ChatId, doNotDisturb: bool)

  /** `set_do_not_disturb`: a member sets their own flag; a packet that does not parse is ignored. */
  function SetDoNotDisturb(s: State, me: User, req: Option<DoNotDisturbRequest>): (r: Outcome)
    requires Consistent(s)
    ensures Consistent(r.state)
    ensures req.None? ==> r == Outcome(s, [])
    ensures req.Some? && !ChatMembers.IsMember(s.members, req.value.chat, me.id) ==>
      r == Reject(s, "You are not a member of this chat")
    ensures req.Some? && ChatMembers.IsMember(s.members, req.value.chat, me.id) ==>
      var q := req.value;
      && r.state == s.(members := r.state.members)
      && (q.chat, me.id) in r.state.members
      && r.state.members[(q.chat, me.id)] == s.members[(q.chat, me.id)].(doNotDisturb := q.doNotDisturb)
      && r.state.members.Keys == s.members.Keys
      && AgreeOutside(s.members, r.state.members, {(q.chat, me.id)})
      && r.events == [Success("Do Not Disturb set to " + BoolText(q.doNotDisturb)), ChatList({me.id})]
  {
    match req
    case None => Outcome(s, [])
    case Some(q) =>
      var (m, ok) := ChatMembers.SetDoNotDisturb(s.members, q.chat, me.id, q.doNotDisturb);
      if !ok then Reject(s, "You are not a member of this chat")
      else Outcome(s.(members := m), [Success("Do Not Disturb set to " + BoolText(q.doNotDisturb)), ChatList({me.id})])
  }

  // ---------------------------------------------------------------------
  // edit_message

  datatype EditMessageRequest = EditMessageRequest(messageId: MessageId, message: Option<string>, atUserIds: seq<UserId>)

  // The error texts of `edit_message`.
  const EditBadPacket := "Edit message failed: Invalid packet format"
  const EditNotFound := "Edit message failed: Message not found"
  const EditNotSender := "Edit message failed: You can only edit your own messages"
  const EditNotMember := "Edit message failed: You are not a member of this chat"

  /** The rules an edit must pass: the message exists, `me` sent it and is still a member. */
  predicate EditAllowed(s: State, me: User, q: EditMessageRequest) {
    && q.messageId in s.messages.rows
    && s.messages.rows[q.messageId].sender == Some(me.id)
    && ChatMembers.IsMember(s.members, s.messages.rows[q.messageId].chat, me.id)
  }

  /**
   `edit_message`: the sender replaces the content, or deletes the message
   (and its file) by sending no content. Mentions are marked, and the edited
   copy is distributed silently: a deleted message goes out as empty text.
   */
  function EditMessage(s: State, me: User, req: Option<EditMessageRequest>): (r: Outcome)
    requires Consistent(s)
    ensures Consistent(r.state)
    ensures r.state.chats == s.chats && r.state.users == s.users
    ensures req.None? ==> r == Reject(s, EditBadPacket)
    ensures req.Some? && req.value.messageId !in s.messages.rows ==> r == Reject(s, EditNotFound)
    ensures req.Some? && req.value.messageId in s.messages.rows && s.messages.rows[req.value.messageId].sender != Some(me.id) ==>
      r == Reject(s, EditNotSender)
    ensures req.Some? && req.value.messageId in s.messages.rows && s.messages.rows[req.value.messageId].sender == Some(me.id)
            && !ChatMembers.IsMember(s.members, s.messages.rows[req.value.messageId].chat, me.id) ==>
      r == Reject(s, EditNotMember)
    ensures req.Some? && EditAllowed(s, me, req.value) ==>
      var q := req.value;
      var old_ := s.messages.rows[q.messageId];
      && (q.message.None? ==>
            && r.state.messages == Messages.DeleteMessage(s.messages, q.messageId)
            && q.messageId !in r.state.messages.rows
            && r.state.messages.rows.Keys == s.messages.rows.Keys - {q.messageId})
      && (q.message.Some? ==>
            && r.state.messages.rows.Keys == s.messages.rows.Keys
            && r.state.messages.rows[q.messageId] == old_.(content := q.message.value)
            && AgreeOutside(s.messages.rows, r.state.messages.rows, {q.messageId}))
      && r.state.members == MarkMentions(s.members, old_.chat, q.atUserIds)
      && r.events == (if q.message.None? then [DeleteChatFiles({q.messageId})] else [])
                     + [Distribute(q.messageId,
                                   old_.(content := q.message.GetOr(""), mtype := if q.message.None? then TEXT else old_.mtype),
                                   true)]
  {
    match req
    case None => Reject(s, EditBadPacket)
    case Some(q) =>
      match Messages.GetMessage(s.messages, q.messageId)
      case None => Reject(s, EditNotFound)
      case Some(original) =>
        if original.sender != Some(me.id) then Reject(s, EditNotSender)
        else if !ChatMembers.IsMember(s.members, original.chat, me.id) then
          Reject(s, EditNotMember)
        else
          var files := if q.message.None? then [DeleteChatFiles({q.messageId})] else [];
          var msgs := Messages.UpdateMessage(s.messages, q.messageId, q.message);
          var m := MarkMentions(s.members, original.chat, q.atUserIds);
          var shown := original.(content := q.message.GetOr(""), mtype := if q.message.None? then TEXT else original.mtype);
          Outcome(s.(messages := msgs, members := m), files + [Distribute(q.messageId, shown, true)])
  }

  // ---------------------------------------------------------------------
  // set_burn_time

  datatype BurnTimeRequest = BurnTimeRequest(chat: ChatId, burnTime: Option<int>)

  /** The confirmation text, with the window in whole seconds as Kotlin's `/` computes them. */
  function BurnTimeText(burn: Option<int>): string {
    match burn
    case Some(ms) => "Burn time set to " + Text.IntToString(KotlinDiv(ms, 1000)) + " seconds"
    case None => "Burn after read disabled"
  }

  /**
   `set_burn_time`: a member of a private chat sets or clears its burn
   window; every member's chat list is refreshed.
   */
  function SetBurnTime(s: State, me: User, req: Option<BurnTimeRequest>): (r: Outcome)
    requires Consistent(s)
    ensures Consistent(r.state)
    ensures r.state.members == s.members && r.state.messages == s.messages && r.state.users == s.users
    ensures req.None? ==> r == Reject(s, "Set burn time failed: Invalid packet format")
    ensures req.Some? && !ChatMembers.IsMember(s.members, req.value.chat, me.id) ==>
      r == Reject(s, "Set burn time failed: You are not a member of this chat")
    ensures req.Some? && ChatMembers.IsMember(s.members, req.value.chat, me.id) && !s.chats.rows[req.value.chat].private ==>
      r == Reject(s, "Set burn time failed: Burn after read is only available for private chats")
    ensures req.Some? && ChatMembers.IsMember(s.members, req.value.chat, me.id) && s.chats.rows[req.value.chat].private ==>
      var q := req.value;
      && r.state.chats.rows.Keys == s.chats.rows.Keys && r.state.chats.nextId == s.chats.nextId
      && AgreeOutside(s.chats.rows, r.state.chats.rows, {q.chat})
      && r.events == [ChatList(ChatMembers.GetMemberIds(s.members, q.chat)), Success(BurnTimeText(q.burnTime))]
  {
    match req
    case None => Reject(s, "Set burn time failed: Invalid packet format")
    case Some(q) =>
      if !ChatMembers.IsMember(s.members, q.chat, me.id) then
        Reject(s, "Set burn time failed: You are not a member of this chat")
      else
        match Chats.GetChat(s.chats, q.chat)
        case None => Reject(s, "Set burn time failed: Chat not found")
        case Some(chat) =>
          if !chat.private then Reject(s, "Set burn time failed: Burn after read is only available for private chats")
          else
            Outcome(s.(chats := Chats.SetBurnTime(s.chats, q.chat, q.burnTime)),
                    [ChatList(ChatMembers.GetMemberIds(s.members, q.chat)), Success(BurnTimeText(q.burnTime))])
  }

  // ---------------------------------------------------------------------
  // mark_message_read

  /**
   A read receipt counts only from a member of a private chat who did not
   send the message, and only the first time.
   */
  predicate ReadCounts(s: State, me: User, id: MessageId) {
    && id in s.messages.rows
    && s.messages.rows[id].chat in s.chats.rows
    && ChatMembers.IsMember(s.members, s.messages.rows[id].chat, me.id)
    && s.messages.rows[id].sender != Some(me.id)
    && s.messages.rows[id].readAt.None?
    && s.chats.rows[s.messages.rows[id].chat].private
  }

  /**
   `mark_message_read`: records the read time and, for a message sent with
   a burn window, the instant `now + burn` milliseconds at which it burns.
   Any receipt that does not count is ignored silently.
   */
  function MarkMessageRead(s: State, me: User, req: Option<MessageId>, now: int): (r: Outcome)
    requires Consistent(s)
    ensures Consistent(r.state)
    ensures req.None? ==> r == Reject(s, "Mark message read failed: Invalid packet format")
    ensures req.Some? && !ReadCounts(s, me, req.value) ==> r == Outcome(s, [])
    ensures req.Some? && ReadCounts(s, me, req.value) ==>
      var id := req.value;
      var msg := s.messages.rows[id];
      && r.state == s.(messages := r.state.messages)
      && r.state.messages.rows.Keys == s.messages.rows.Keys
      && AgreeOutside(s.messages.rows, r.state.messages.rows, {id})
      && r.state.messages.rows[id].readAt == Some(now)
      && r.state.messages.rows[id].burnDeadline == (if msg.burn.Some? then Some(now + msg.burn.value) else None)
      && r.state.messages.rows[id].content == msg.content
      && r.events == [Distribute(id, r.state.messages.rows[id], true)]
  {
    match req
    case None => Reject(s, "Mark message read failed: Invalid packet format")
    case Some(id) =>
      match Messages.GetMessage(s.messages, id)
      case None => Outcome(s, [])
      case Some(msg) =>
        match Chats.GetChat(s.chats, msg.chat)
        case None => Outcome(s, [])
        case Some(chat) =>
          if !ChatMembers.IsMember(s.members, msg.chat, me.id) then Outcome(s, [])
          else if msg.sender == Some(me.id) || msg.readAt.Some? || !chat.private then Outcome(s, [])
          else
            var deadline := if msg.burn.Some? then Some(now + msg.burn.value) else None;
            var msgs := Messages.MarkAsReadUntil(s.messages, id, now, deadline);
            Outcome(s.(messages := msgs), [Distribute(id, msgs.rows[id], true)])
  }

  /** A second receipt for the same message, by anyone, changes nothing and sends nothing. */
  lemma MarkMessageReadOnce(s: State, me: User, other: User, id: MessageId, now: int, later: int)
    requires Consistent(s)
    requires ReadCounts(s, me, id)
    ensures var first := MarkMessageRead(s, me, Some(id), now).state;
      MarkMessageRead(first, other, Some(id), later) == Outcome(first, [])
  {
    var first := MarkMessageRead(s, me, Some(id), now).state;
    assert !ReadCounts(first, other, id);
  }

  // ---------------------------------------------------------------------
  // toggle_reaction

  datatype ToggleReactionRequest = ToggleReactionRequest(messageId: MessageId, emoji: string)

  /**
   `toggle_reaction`: a member toggles a reaction through `toggle`, which
   stands for the store operation. The update goes to the moment chat's
   viewers as a moment edit, or is distributed silently in other chats.
   */
  function ToggleReaction(s: State, me: User, req: Option<ToggleReactionRequest>,
                          toggle: (seq<Reaction>, UserId, string) -> seq<Reaction>): (r: Outcome)
    requires Consistent(s)
    ensures Consistent(r.state)
    ensures r.state.chats == s.chats && r.state.members == s.members && r.state.users == s.users
    ensures req.None? ==> r == Reject(s, "Toggle reaction failed: Invalid packet format")
    ensures req.Some? && req.value.messageId !in s.messages.rows ==> r == Reject(s, "Toggle reaction failed: Message not found")
    ensures req.Some? && req.value.messageId in s.messages.rows
            && !ChatMembers.IsMember(s.members, s.messages.rows[req.value.messageId].chat, me.id) ==>
      r == Reject(s, "Toggle reaction failed: You are not a member of this chat")
    ensures req.Some? && req.value.messageId in s.messages.rows
            && ChatMembers.IsMember(s.members, s.messages.rows[req.value.messageId].chat, me.id) ==>
      var id := req.value.messageId;
      var c := s.messages.rows[id].chat;
      && r.state.messages.rows.Keys == s.messages.rows.Keys
      && AgreeOutside(s.messages.rows, r.state.messages.rows, {id})
      && r.state.messages.rows[id].(reactions := s.messages.rows[id].reactions) == s.messages.rows[id]
      && |r.events| == 1
      && (s.chats.rows[c].isMoment ==>
            r.events[0] == MomentEdited(id, r.state.messages.rows[id].content, r.state.messages.rows[id].reactions,
                                        ChatMembers.GetMemberIds(s.members, c)))
      && (!s.chats.rows[c].isMoment ==> r.events[0] == Distribute(id, r.state.messages.rows[id], true))
  {
    match req
    case None => Reject(s, "Toggle reaction failed: Invalid packet format")
    case Some(q) =>
      match Messages.GetMessage(s.messages, q.messageId)
      case None => Reject(s, "Toggle reaction failed: Message not found")
      case Some(msg) =>
        match Chats.GetChat(s.chats, msg.chat)
        case None => Reject(s, "Toggle reaction failed: Chat not found")
        case Some(chat) =>
          if !ChatMembers.IsMember(s.members, msg.chat, me.id) then
            Reject(s, "Toggle reaction failed: You are not a member of this chat")
          else
            var msgs := Messages.ToggleReaction(s.messages, q.messageId, me.id, q.emoji, toggle);
            var updated := msgs.rows[q.messageId];
            if chat.isMoment then
              Outcome(s.(messages := msgs),
                      [MomentEdited(q.messageId, updated.content, updated.reactions, ChatMembers.GetMemberIds(s.members, msg.chat))])
            else Outcome(s.(messages := msgs), [Distribute(q.messageId, updated, true)])
  }
}

=== FILE: chats.dfy ===
/**
 The chats table (`Chats.kt`): chat rows keyed by an auto-increment id,
 with a partial unique index that allows at most one moment chat per owner.
 The clock is the `now` parameter.
 */
module Chats {
  import opened Records

  datatype ChatTable = ChatTable(rows: map<ChatId, Chat>, nextId: ChatId)

  predicate IsMomentOf(rows: map<ChatId, Chat>, c: ChatId, u: UserId) {
    c in rows && rows[c].isMoment && rows[c].owner == u
  }

  /** The unique index on `owner` where `is_moment` is true. */
  ghost predicate MomentUnique(rows: map<ChatId, Chat>) {
    forall a, b :: a in rows && b in rows && rows[a].isMoment && rows[b].isMoment && rows[a].owner == rows[b].owner ==> a == b
  }

  /** Every id was handed out by the auto-increment counter, and the unique index holds. */
  ghost predicate Valid(t: ChatTable) {
    && 0 <= t.nextId
    && (forall c :: c in t.rows ==> 0 <= c < t.nextId)
    && MomentUnique(t.rows)
  }

  /** `createChat`: a fresh group chat that is neither private nor a moment chat. */
  function CreateChat(t: ChatTable, name: string, owner: UserId, now: int): (r: (ChatTable, ChatId))
    requires Valid(t)
    ensures Valid(r.0)
    ensures r.1 !in t.rows && r.1 in r.0.rows
    ensures r.0.rows[r.1] == Chat(name, owner, false, false, None, now)
    ensures AgreeOutside(t.rows, r.0.rows, {r.1})
  {
    var id := t.nextId;
    (ChatTable(t.rows[id := Chat(name, owner, false, false, None, now)], id + 1), id)
  }

  function GetChat(t: ChatTable, c: ChatId): (r: Option<Chat>)
    ensures r.Some? <==> c in t.rows
    ensures r.Some? ==> r.value == t.rows[c]
  {
    if c in t.rows then Some(t.rows[c]) else None
  }

  /** `isChatOwner`: the chat exists and `u` owns it. */
  function IsChatOwner(t: ChatTable, c: ChatId, u: UserId): (r: bool)
    ensures r <==> (GetChat(t, c).Some? && GetChat(t, c).value.owner == u)
  {
    c in t.rows && t.rows[c].owner == u
  }

  /** `renameChat`: only the name of chat `c` changes; a missing chat is left missing. */
  function RenameChat(t: ChatTable, c: ChatId, newName: string): (r: ChatTable)
    requires Valid(t)
    ensures Valid(r)
    ensures r.rows.Keys == t.rows.Keys && r.nextId == t.nextId
    ensures c in t.rows ==> r.rows[c] == t.rows[c].(name := newName)
    ensures AgreeOutside(t.rows, r.rows, {c})
  {
    if c in t.rows then t.(rows := t.rows[c := t.rows[c].(name := newName)]) else t
  }

  /** `updateTime`: only the last-activity time of chat `c` changes. */
  function UpdateTime(t: ChatTable, c: ChatId, now: int): (r: ChatTable)
    requires Valid(t)
    ensures Valid(r)
    ensures r.rows.Keys == t.rows.Keys && r.nextId == t.nextId
    ensures c in t.rows ==> r.rows[c] == t.rows[c].(lastChatAt := now)
    ensures AgreeOutside(t.rows, r.rows, {c})
  {
    if c in t.rows then t.(rows := t.rows[c := t.rows[c].(lastChatAt := now)]) else t
  }

  /**
   `setBurnTime` is called by the handlers but is not defined in
   `Chats.kt`; it is modelled as touching only the burn window of chat `c`.
   */
  function SetBurnTime(t: ChatTable, c: ChatId, burn: Option<int>): (r: ChatTable)
    requires Valid(t)
    ensures Valid(r)
    ensures r.rows.Keys == t.rows.Keys && r.nextId == t.nextId
    ensures AgreeOutside(t.rows, r.rows, {c})
  {
    if c in t.rows then t.(rows := t.rows[c := t.rows[c].(burnTime := burn)]) else t
  }

  /** `deleteChat` on the chats table alone (the cascades are in the Database module). */
  function DeleteChat(t: ChatTable, c: ChatId): (r: ChatTable)
    requires Valid(t)
    ensures Valid(r)
    ensures c !in r.rows
    ensures AgreeOutside(t.rows, r.rows, {c})
  {
    t.(rows := t.rows - {c})
  }

  /** Scans ids below `hi`, highest first, for a moment chat owned by `u`. */
  function FindMoment(rows: map<ChatId, Chat>, u: UserId, hi: int): (r: Option<ChatId>)
    ensures r.Some? ==> IsMomentOf(rows, r.value, u)
    ensures r.None? ==> forall c :: 0 <= c < hi ==> !IsMomentOf(rows, c, u)
    decreases hi
  {
    if hi <= 0 then None
    else if IsMomentOf(rows, hi - 1, u) then Some(hi - 1)
    else FindMoment(rows, u, hi - 1)
  }

  /** `getMomentChatByOwner`: the moment chat owned by `u`, if there is one. */
  function GetMomentChatByOwner(t: ChatTable, u: UserId): (r: Option<ChatId>)
    requires Valid(t)
    ensures r.Some? ==> IsMomentOf(t.rows, r.value, u)
    ensures r.None? ==> forall c :: c in t.rows ==> !IsMomentOf(t.rows, c, u)
  {
    FindMoment(t.rows, u, t.nextId)
  }

  /**
   `getOrCreateMomentChat`: the existing moment chat of `u`, or a new one
   named "<username>'s Moments".
   */
  function GetOrCreateMomentChat(t: ChatTable, u: UserId, username: string, now: int): (r: (ChatTable, ChatId))
    requires Valid(t)
    ensures Valid(r.0)
    ensures IsMomentOf(r.0.rows, r.1, u)
    ensures GetMomentChatByOwner(t, u).Some? ==> r == (t, GetMomentChatByOwner(t, u).value)
    ensures GetMomentChatByOwner(t, u).None? ==>
      && r.1 !in t.rows
      && r.0.rows[r.1] == Chat(username + "'s Moments", u, false, true, None, now)
      && AgreeOutside(t.rows, r.0.rows, {r.1})
  {
    match GetMomentChatByOwner(t, u)
    case Some(c) => (t, c)
    case None =>
      var id := t.nextId;
      var rows := t.rows[id := Chat(username + "'s Moments", u, false, true, None, now)];
      assert MomentUnique(rows);
      (ChatTable(rows, id + 1), id)
  }

  /** In a valid table a user has at most one moment chat, so the lookup finds exactly it. */
  lemma MomentChatIsUnique(t: ChatTable, u: UserId, c: ChatId)
    requires Valid(t)
    requires IsMomentOf(t.rows, c, u)
    ensures GetMomentChatByOwner(t, u) == Some(c)
  {
  }

  /**
   Asking twice for the moment chat of `u` gives the same chat, and the
   second request changes nothing.
   */
  lemma GetOrCreateMomentChatTwice(t: ChatTable, u: UserId, n1: string, n2: string, now1: int, now2: int)
    requires Valid(t)
    ensures var (t1, c1) := GetOrCreateMomentChat(t, u, n1, now1);
      GetOrCreateMomentChat(t1, u, n2, now2) == (t1, c1)
  {
    var (t1, c1) := GetOrCreateMomentChat(t, u, n1, now1);
    MomentChatIsUnique(t1, u, c1);
  }
}

=== FILE: database.dfy ===
/**
 The whole server state the packet handlers read and write: the users
 table (reduced to a lookup list), the chats, chat_members and messages
 tables, and the foreign keys between them. Also the abstract events a
 handler emits instead of writing to sockets or the file store.
 */
module Database {
  import opened Records
  import Chats
  import ChatMembers
  import Messages

  datatype State = State(
    users: seq<User>,
    chats: Chats.ChatTable,
    members: ChatMembers.Members,
    messages: Messages.MessageTable)

  /**
   Each table is valid on its own, and every member row and every message
   belongs to a chat that exists (the `chat` foreign keys of chat_members
   and messages).
   */
  ghost predicate Consistent(s: State) {
    && Chats.Valid(s.chats)
    && Messages.Valid(s.messages)
    && (forall k :: k in s.members ==> k.0 in s.chats.rows)
    && (forall id :: id in s.messages.rows ==> s.messages.rows[id].chat in s.chats.rows)
  }

  /**
   What a handler sends instead of socket writes and file deletions. Who
   receives a fan-out event is left to the delivery layer.
   */
  datatype Event =
    | Error(reason: string)
    | Success(text: string)
    | Distribute(messageId: MessageId, message: Message, silent: bool)
    | ChatList(users: set<UserId>)
    | ChatDetails(chat: ChatId, members: set<UserId>)
    | UnreadCount(user: UserId, chat: ChatId, count: Int32)
    | MessagesList(chat: ChatId, page: seq<MessageId>)
    | DeleteChatFiles(messageIds: set<MessageId>)
    | DeleteGroupAvatar(chat: ChatId)
    | MomentEdited(messageId: MessageId, content: string, reactions: seq<Reaction>, viewers: set<UserId>)
    | MomentsList(moments: seq<Messages.MomentItem>)
    | MomentPosted(messageId: MessageId, chat: ChatId)
    | UserMomentsList(user: UserId, username: string, moments: seq<Messages.MomentItem>)
    | PermissionUpdated(friend: UserId, canView: bool)
    | PermissionStatus(friend: UserId, canFriendViewMine: bool, canIViewFriends: bool)
    | MyMomentKey(found: bool, momentChat: Option<ChatId>, key: Option<string>)

  /** The state after a handler and the events it emitted, in order. */
  datatype Outcome = Outcome(state: State, events: seq<Event>)

  /** A rejection: one error event and no change. */
  function Reject(s: State, reason: string): (r: Outcome)
    ensures r.state == s && r.events == [Error(reason)]
  {
    Outcome(s, [Error(reason)])
  }

  /** `Users.getUserByUsername`: the first user with that name. */
  function FindByName(users: seq<User>, name: string): (r: Option<User>)
    ensures r.Some? ==> r.value in users && r.value.username == name
    ensures r.None? <==> forall x :: x in users ==> x.username != name
  {
    if |users| == 0 then None
    else if users[0].username == name then Some(users[0])
    else FindByName(users[1..], name)
  }

  /** `Users.getUser`: the first user with that id. */
  function FindById(users: seq<User>, id: UserId): (r: Option<User>)
    ensures r.Some? ==> r.value in users && r.value.id == id
    ensures r.None? <==> forall x :: x in users ==> x.id != id
  {
    if |users| == 0 then None
    else if users[0].id == id then Some(users[0])
    else FindById(users[1..], id)
  }

  /** Any of `us` has id `id`. */
  predicate HasId(us: seq<User>, id: UserId) {
    exists x :: x in us && x.id == id
  }

  /** The ids of a list of users. */
  function IdsOf(us: seq<User>): (r: set<UserId>)
    ensures forall id :: id in r <==> HasId(us, id)
  {
    set x | x in us :: x.id
  }

  /**
   `deleteChat` with the ON DELETE CASCADE of chat_members and messages:
   the chat, its member rows and its messages go; a message elsewhere that
   replied to one of them is detached.
   */
  function DeleteChatCascade(s: State, c: ChatId): (r: State)
    requires Consistent(s)
    ensures Consistent(r)
    ensures r.users == s.users
    ensures c !in r.chats.rows && AgreeOutside(s.chats.rows, r.chats.rows, {c})
    ensures forall k :: k in r.members <==> k in s.members && k.0 != c
    ensures forall k :: k in r.members ==> r.members[k] == s.members[k]
    ensures r.messages == Messages.DeleteChatMessages(s.messages, c)
    ensures forall id :: id in r.messages.rows ==> r.messages.rows[id].chat != c
  {
    var members := map k | k in s.members && k.0 != c :: s.members[k];
    State(s.users, Chats.DeleteChat(s.chats, c), members, Messages.DeleteChatMessages(s.messages, c))
  }

  /** Changing member rows without adding or removing any keeps the state consistent. */
  lemma SameMemberKeys(s: State, m: ChatMembers.Members)
    requires Consistent(s)
    requires m.Keys == s.members.Keys
    ensures Consistent(s.(members := m))
  {
    assert forall k :: k in m ==> k in s.members;
  }
}

=== FILE: group_packets.dfy ===
/**
 The group packet handlers (`GroupPackets.kt`): creating a group, inviting
 a member, and kicking a member or dissolving the chat.
 */
module GroupPackets {
  import opened Records
  import Chats
  import ChatMembers
  import Messages
  import Text
  import opened Database

  // ---------------------------------------------------------------------
  // create_group

  datatype CreateGroupRequest = CreateGroupRequest(
    name: Option<string>, memberUsernames: seq<string>, encryptedKeys: map<string, string>)

  const CreateBadPacket := "Create group failed: Invalid packet format"
  const CreateUnknownUser := "Create group failed: One or more users not found"
  const CreateMissingKeys := "Create group failed: Missing keys for: "
  const DefaultGroupName := "New Group"

  /** What `memberUsernames.mapNotNull(users::getUserByUsername)` promises about its result. */
  ghost predicate ResolvedBy(users: seq<User>, names: seq<string>, r: seq<User>) {
    && |r| <= |names|
    && (|r| == |names| <==> forall i :: 0 <= i < |names| ==> FindByName(users, names[i]).Some?)
    && (|r| == |names| ==> forall i :: 0 <= i < |names| ==> r[i] == FindByName(users, names[i]).value)
    && (forall u :: u in r ==> u in users && exists i :: 0 <= i < |names| && u.username == names[i])
  }

  /** `memberUsernames.mapNotNull(users::getUserByUsername)`. */
  function Resolve(users: seq<User>, names: seq<string>): (r: seq<User>)
    ensures |r| <= |names|
    ensures |r| == |names| <==> forall i :: 0 <= i < |names| ==> FindByName(users, names[i]).Some?
    ensures |r| == |names| ==> forall i :: 0 <= i < |names| ==> r[i] == FindByName(users, names[i]).value
    ensures forall u :: u in r ==> u in users && exists i :: 0 <= i < |names| && u.username == names[i]
  {
    if |names| == 0 then []
    else
      var rest := Resolve(users, names[1..]);
      assert ResolvedBy(users, names[1..], rest);
      match FindByName(users, names[0])
      case None =>
        ResolveSkip(users, names, rest);
        rest
      case Some(u) =>
        ResolveKeep(users, names, u, rest);
        [u] + rest
  }

  /** An unknown first name is dropped. */
  lemma ResolveSkip(users: seq<User>, names: seq<string>, rest: seq<User>)
    requires |names| > 0 && FindByName(users, names[0]).None?
    requires ResolvedBy(users, names[1..], rest)
    ensures ResolvedBy(users, names, rest)
  {
    assert forall i :: 1 <= i < |names| ==> names[i] == names[1..][i - 1];
    forall x | x in rest ensures exists i :: 0 <= i < |names| && x.username == names[i] {
      var j :| 0 <= j < |names[1..]| && x.username == names[1..][j];
      assert x.username == names[j + 1];
    }
  }

  /** A known first name puts its user in front. */
  lemma ResolveKeep(users: seq<User>, names: seq<string>, u: User, rest: seq<User>)
    requires |names| > 0 && FindByName(users, names[0]) == Some(u)
    requires ResolvedBy(users, names[1..], rest)
    ensures ResolvedBy(users, names, [u] + rest)
  {
    assert forall i :: 1 <= i < |names| ==> names[i] == names[1..][i - 1];
    assert forall i :: 1 <= i <= |rest| ==> ([u] + rest)[i] == rest[i - 1];
    forall x | x in [u] + rest ensures exists i :: 0 <= i < |names| && x.username == names[i] {
      if x == u {
        assert x.username == names[0];
      } else {
        assert x in rest;
        var j :| 0 <= j < |names[1..]| && x.username == names[1..][j];
        assert x.username == names[j + 1];
      }
    }
  }

  /** The listed usernames without a key, in order and with repetitions. */
  function MissingKeys(names: seq<string>, keys: map<string, string>): (r: seq<string>)
    ensures forall x :: x in r <==> x in names && x !in keys
  {
    if |names| == 0 then []
    else if names[0] in keys then MissingKeys(names[1..], keys)
    else [names[0]] + MissingKeys(names[1..], keys)
  }

  /** Some listed user other than the creator has id `id` and a key. */
  predicate InvitedWithKey(us: seq<User>, keys: map<string, string>, me: UserId, id: UserId) {
    id != me && exists u :: u in us && u.id == id && u.username in keys
  }

  /**
   The loop over the listed users: each one other than the creator who has
   a key is added with that key; an existing row is kept.
   */
  function AddInvited(m: ChatMembers.Members, c: ChatId, us: seq<User>, keys: map<string, string>, me: UserId)
    : (r: ChatMembers.Members)
    ensures forall k :: k in r <==> k in m || (k.0 == c && InvitedWithKey(us, keys, me, k.1))
    ensures forall k :: k in m ==> r[k] == m[k]
    ensures forall k :: k in r && k !in m ==>
      exists u :: u in us && u.id == k.1 && u.username in keys && r[k] == Member(keys[u.username], 0, false)
    decreases |us|
  {
    if |us| == 0 then m
    else
      InvitedSplit(us, keys, me);
      var u := us[0];
      if u.username in keys && u.id != me then
        AddInvited(ChatMembers.AddMember(m, c, u.id, keys[u.username]), c, us[1..], keys, me)
      else
        AddInvited(m, c, us[1..], keys, me)
  }

  lemma InvitedSplit(us: seq<User>, keys: map<string, string>, me: UserId)
    requires |us| > 0
    ensures forall x :: x in us[1..] ==> x in us
    ensures forall id :: InvitedWithKey(us, keys, me, id) <==>
      (id == us[0].id && us[0].username in keys && us[0].id != me) || InvitedWithKey(us[1..], keys, me, id)
  {
    assert us == [us[0]] + us[1..];
  }

  predicate CreateAllowed(s: State, q: CreateGroupRequest) {
    && (forall i :: 0 <= i < |q.memberUsernames| ==> FindByName(s.users, q.memberUsernames[i]).Some?)
    && (forall x :: x in q.memberUsernames ==> x in q.encryptedKeys)
  }

  /** The member rows of new group `c`: the creator's if they gave a key for themselves, then the invited users'. */
  function GroupMembers(m: ChatMembers.Members, c: ChatId, me: User, keys: map<string, string>, invited: seq<User>)
    : (r: ChatMembers.Members)
    requires forall k :: k in m ==> k.0 != c
    ensures forall k :: k in m ==> k in r && r[k] == m[k]
    ensures forall k :: k in r && k !in m ==> k.0 == c
    ensures forall u :: ChatMembers.IsMember(r, c, u) <==>
      (u == me.id && me.username in keys) || InvitedWithKey(invited, keys, me.id, u)
    ensures me.username in keys ==> (c, me.id) in r && r[(c, me.id)] == Member(keys[me.username], 0, false)
  {
    var m1 := if me.username in keys then ChatMembers.AddMember(m, c, me.id, keys[me.username]) else m;
    AddInvited(m1, c, invited, keys, me.id)
  }

  /**
   The accepted `create_group`: a fresh non-private chat owned by the
   creator, named "New Group" unless a name is given, with the members
   GroupMembers lists.
   */
  function BuildGroup(s: State, me: User, q: CreateGroupRequest, invited: seq<User>, now: int): (r: Outcome)
    requires Consistent(s)
    ensures Consistent(r.state)
    ensures r.state.users == s.users && r.state.messages == s.messages
    ensures s.chats.nextId !in s.chats.rows
    ensures r.state.chats.rows == s.chats.rows[s.chats.nextId := Chat(q.name.GetOr(DefaultGroupName), me.id, false, false, None, now)]
    ensures r.state.members == GroupMembers(s.members, s.chats.nextId, me, q.encryptedKeys, invited)
    ensures r.events == [Success("Group created successfully"), ChatList(IdsOf(invited) + {me.id})]
  {
    var (chats, c) := Chats.CreateChat(s.chats, q.name.GetOr(DefaultGroupName), me.id, now);
    var m := GroupMembers(s.members, c, me, q.encryptedKeys, invited);
    Outcome(s.(chats := chats, members := m),
            [Success("Group created successfully"), ChatList(IdsOf(invited) + {me.id})])
  }

  /**
   `create_group`: every listed username must name a user and carry a key;
   the accepted request is BuildGroup over the resolved users.
   */
  function CreateGroup(s: State, me: User, req: Option<CreateGroupRequest>, now: int): (r: Outcome)
    requires Consistent(s)
    ensures Consistent(r.state)
    ensures req.None? ==> r == Reject(s, CreateBadPacket)
    ensures req.Some? && !(forall i :: 0 <= i < |req.value.memberUsernames| ==> FindByName(s.users, req.value.memberUsernames[i]).Some?) ==>
      r == Reject(s, CreateUnknownUser)
    ensures req.Some? && (forall i :: 0 <= i < |req.value.memberUsernames| ==> FindByName(s.users, req.value.memberUsernames[i]).Some?)
            && !(forall x :: x in req.value.memberUsernames ==> x in req.value.encryptedKeys) ==>
      r == Reject(s, CreateMissingKeys + Text.Join(MissingKeys(req.value.memberUsernames, req.value.encryptedKeys), ", "))
    ensures req.Some? && CreateAllowed(s, req.value) ==>
      r == BuildGroup(s, me, req.value, Resolve(s.users, req.value.memberUsernames), now)
  {
    match req
    case None => Reject(s, CreateBadPacket)
    case Some(q) =>
      var invited := Resolve(s.users, q.memberUsernames);
      if |invited| != |q.memberUsernames| then Reject(s, CreateUnknownUser)
      else
        var missing := MissingKeys(q.memberUsernames, q.encryptedKeys);
        if |missing| != 0 then
          assert missing[0] in missing;
          Reject(s, CreateMissingKeys + Text.Join(missing, ", "))
        else
          assert forall x :: x in q.memberUsernames ==> x in q.encryptedKeys;
          BuildGroup(s, me, q, invited, now)
  }

  // ---------------------------------------------------------------------
  // add_member_to_chat

  datatype AddMemberRequest = AddMemberRequest(chat: ChatId, username: string, encryptedKey: string)

  const AddBadPacket := "Invalid packet format"
  const ChatNotFound := "Chat not found"
  const AddMomentOwnerOnly := "Only the owner can invite viewers to their moments"
  const NotMember := "You are not a member of this chat"
  const UserNotFound := "User not found: "
  const AlreadyMember := " is already a member"

  /** The ids of the members of chat `c` that the users table knows (`getChatMembersDetailed`). */
  function DetailedIds(s: State, c: ChatId): (r: set<UserId>)
    ensures forall u :: u in r ==> ChatMembers.IsMember(s.members, c, u)
  {
    IdsOf(ChatMembers.ChatUsers(s.users, s.members, c))
  }

  predicate AddAllowed(s: State, me: User, q: AddMemberRequest) {
    && q.chat in s.chats.rows
    && !(s.chats.rows[q.chat].isMoment && s.chats.rows[q.chat].owner != me.id)
    && ChatMembers.IsMember(s.members, q.chat, me.id)
    && FindByName(s.users, q.username).Some?
    && !ChatMembers.IsMember(s.members, q.chat, FindByName(s.users, q.username).value.id)
  }

  /**
   `add_member_to_chat`: a member invites a known user who is not yet a
   member (in a moment chat only the owner may invite). Exactly one row is
   added, with the given key; a system message announces it.
   */
  function AddMemberToChat(s: State, me: User, req: Option<AddMemberRequest>, now: int): (r: Outcome)
    requires Consistent(s)
    ensures Consistent(r.state)
    ensures r.state.users == s.users && r.state.chats == s.chats
    ensures req.None? ==> r == Reject(s, AddBadPacket)
    ensures req.Some? && req.value.chat !in s.chats.rows ==> r == Reject(s, ChatNotFound)
    ensures req.Some? && req.value.chat in s.chats.rows
            && s.chats.rows[req.value.chat].isMoment && s.chats.rows[req.value.chat].owner != me.id ==>
      r == Reject(s, AddMomentOwnerOnly)
    ensures req.Some? && !AddAllowed(s, me, req.value) ==> r.state == s && |r.events| == 1 && r.events[0].Error?
    ensures req.Some? && AddAllowed(s, me, req.value) ==>
      var q := req.value;
      var target := FindByName(s.users, q.username).value;
      var id := s.messages.nextId;
      && r.state.members == s.members[(q.chat, target.id) := Member(q.encryptedKey, 0, false)]
      && id !in s.messages.rows && id in r.state.messages.rows
      && AgreeOutside(s.messages.rows, r.state.messages.rows, {id})
      && r.state.messages.rows[id].content == me.username + " invited " + target.username + " to the chat"
      && r.state.messages.rows[id].chat == q.chat
      && r.state.messages.rows[id].sender.None?
      && r.events == [Success("Member added successfully"), ChatDetails(q.chat, DetailedIds(r.state, q.chat)),
                      ChatList({target.id}), Distribute(id, r.state.messages.rows[id], true)]
  {
    match req
    case None => Reject(s, AddBadPacket)
    case Some(q) =>
      match Chats.GetChat(s.chats, q.chat)
      case None => Reject(s, ChatNotFound)
      case Some(chat) =>
        if chat.isMoment && chat.owner != me.id then Reject(s, AddMomentOwnerOnly)
        else if !ChatMembers.IsMember(s.members, q.chat, me.id) then Reject(s, NotMember)
        else
          match FindByName(s.users, q.username)
          case None => Reject(s, UserNotFound + q.username)
          case Some(target) =>
            if ChatMembers.IsMember(s.members, q.chat, target.id) then Reject(s, q.username + AlreadyMember)
            else
              var m := ChatMembers.AddMember(s.members, q.chat, target.id, q.encryptedKey);
              var (msgs, id) := Messages.AddSystemMessage(s.messages, me.username + " invited " + target.username + " to the chat", q.chat, now);
              var s' := s.(members := m, messages := msgs);
              Outcome(s', [Success("Member added successfully"), ChatDetails(q.chat, DetailedIds(s', q.chat)),
                           ChatList({target.id}), Distribute(id, msgs.rows[id], true)])
  }

  // ---------------------------------------------------------------------
  // kick_member_from_chat

  datatype KickRequest = KickRequest(chat: ChatId, username: string)

  const KickMomentOwnerOnly := "Only the owner can remove viewers from their moments"
  const KickOwnerOnly := "Only owner can kick members"
  const KickTooFew := "Cannot kick member: Chat must have at least 3 members"

  /** A kick that dissolves the chat: any kick in a private chat, or the owner removing themselves. */
  predicate Dissolves(s: State, me: User, q: KickRequest)
    requires q.chat in s.chats.rows
  {
    s.chats.rows[q.chat].private || (s.chats.rows[q.chat].owner == me.id && me.username == q.username)
  }

  /** The known members of chat `c` other than `target`. */
  function Remaining(s: State, c: ChatId, target: UserId): (r: seq<User>)
    ensures forall x :: x in r <==> x in ChatMembers.ChatUsers(s.users, s.members, c) && x.id != target
  {
    var us := ChatMembers.ChatUsers(s.users, s.members, c);
    FilterOut(us, target)
  }

  function FilterOut(us: seq<User>, id: UserId): (r: seq<User>)
    ensures forall x :: x in r <==> x in us && x.id != id
    ensures |r| <= |us|
  {
    if |us| == 0 then []
    else if us[0].id == id then FilterOut(us[1..], id)
    else [us[0]] + FilterOut(us[1..], id)
  }

  /**
   Dissolving chat `c` with the file clean-up in the corrected order: the
   ids of its file messages are read before the chat (and, by cascade, its
   messages) is deleted.
   */
  function Dissolve(s: State, c: ChatId, recipients: set<UserId>): (r: Outcome)
    requires Consistent(s)
    ensures Consistent(r.state)
    ensures r.state == DeleteChatCascade(s, c)
    ensures r.events == [DeleteChatFiles(Messages.GetFileMessageIds(s.messages, c)), DeleteGroupAvatar(c),
                         ChatList(recipients), Success("Chat deleted successfully")]
  {
    var files := Messages.GetFileMessageIds(s.messages, c);
    var s1 := DeleteChatCascade(s, c);
    var s2 := s1.(messages := Messages.DeleteChatMessages(s1.messages, c));
    assert s2 == s1;
    Outcome(s2, [DeleteChatFiles(files), DeleteGroupAvatar(c), ChatList(recipients), Success("Chat deleted successfully")])
  }

  /**
   Dissolving chat `c` in the handler's order: the chat is deleted first,
   and the cascade has already removed its messages when their file ids
   are read.
   */
  function DissolveAsWritten(s: State, c: ChatId, recipients: set<UserId>): (r: Outcome)
    requires Consistent(s)
    ensures Consistent(r.state)
    ensures r.state == DeleteChatCascade(s, c)
    ensures r.events == [DeleteChatFiles({}), DeleteGroupAvatar(c), ChatList(recipients), Success("Chat deleted successfully")]
  {
    var s1 := DeleteChatCascade(s, c);
    var files := Messages.GetFileMessageIds(s1.messages, c);
    assert files == {};
    var s2 := s1.(messages := Messages.DeleteChatMessages(s1.messages, c));
    assert s2 == s1;
    Outcome(s2, [DeleteChatFiles(files), DeleteGroupAvatar(c), ChatList(recipients), Success("Chat deleted successfully")])
  }

  /** What a kick request comes to once the guards have run. */
  datatype KickPlan =
    | Refused(reason: string)
    | DissolveChat(chat: ChatId, recipients: set<UserId>)
    | RemoveTarget(chat: ChatId, target: User, remaining: seq<User>)

  /**
   The guards of `kick_member_from_chat`. In a moment chat only the owner
   may kick. A private chat, or an owner removing themselves, dissolves the
   chat if the requester is a member. Otherwise a non-owner may only remove
   themselves, the target must be a known user, and more than two known
   members must remain.
   */
  function PlanKick(s: State, me: User, req: Option<KickRequest>): (r: KickPlan)
    ensures req.None? ==> r == Refused(AddBadPacket)
    ensures req.Some? && req.value.chat !in s.chats.rows ==> r == Refused(ChatNotFound)
    ensures req.Some? && req.value.chat in s.chats.rows
            && s.chats.rows[req.value.chat].isMoment && s.chats.rows[req.value.chat].owner != me.id ==>
      r == Refused(KickMomentOwnerOnly)
    ensures r.DissolveChat? <==>
      && req.Some? && req.value.chat in s.chats.rows
      && !(s.chats.rows[req.value.chat].isMoment && s.chats.rows[req.value.chat].owner != me.id)
      && Dissolves(s, me, req.value)
      && HasId(ChatMembers.ChatUsers(s.users, s.members, req.value.chat), me.id)
    ensures r.DissolveChat? ==>
      r == DissolveChat(req.value.chat, IdsOf(ChatMembers.ChatUsers(s.users, s.members, req.value.chat)))
    ensures r.RemoveTarget? ==>
      && req.Some? && r.chat == req.value.chat && r.chat in s.chats.rows
      && !Dissolves(s, me, req.value)
      && (s.chats.rows[r.chat].owner == me.id || me.username == req.value.username)
      && FindByName(s.users, req.value.username) == Some(r.target)
      && r.remaining == Remaining(s, r.chat, r.target.id)
      && |r.remaining| > 2
    ensures req.Some? && req.value.chat in s.chats.rows && !Dissolves(s, me, req.value)
            && !(s.chats.rows[req.value.chat].isMoment && s.chats.rows[req.value.chat].owner != me.id)
            && s.chats.rows[req.value.chat].owner != me.id && me.username != req.value.username ==>
      r == Refused(KickOwnerOnly)
    ensures req.Some? && req.value.chat in s.chats.rows
            && !(s.chats.rows[req.value.chat].isMoment && s.chats.rows[req.value.chat].owner != me.id)
            && Dissolves(s, me, req.value) && !HasId(ChatMembers.ChatUsers(s.users, s.members, req.value.chat), me.id) ==>
      r == Refused(NotMember)
    ensures req.Some? && req.value.chat in s.chats.rows
            && !(s.chats.rows[req.value.chat].isMoment && s.chats.rows[req.value.chat].owner != me.id)
            && !Dissolves(s, me, req.value)
            && (s.chats.rows[req.value.chat].owner == me.id || me.username == req.value.username) ==>
      var q := req.value;
      match FindByName(s.users, q.username)
      case None => r == Refused(UserNotFound + q.username)
      case Some(target) =>
        if |Remaining(s, q.chat, target.id)| <= 2 then r == Refused(KickTooFew)
        else r == RemoveTarget(q.chat, target, Remaining(s, q.chat, target.id))
  {
    match req
    case None => Refused(AddBadPacket)
    case Some(q) =>
      match Chats.GetChat(s.chats, q.chat)
      case None => Refused(ChatNotFound)
      case Some(chat) =>
        if chat.isMoment && chat.owner != me.id then Refused(KickMomentOwnerOnly)
        else
          var isOwner := Chats.IsChatOwner(s.chats, q.chat, me.id);
          if chat.private || (isOwner && me.username == q.username) then
            var members := ChatMembers.ChatUsers(s.users, s.members, q.chat);
            if !HasId(members, me.id) then Refused(NotMember)
            else DissolveChat(q.chat, IdsOf(members))
          else if !isOwner && me.username != q.username then Refused(KickOwnerOnly)
          else
            match FindByName(s.users, q.username)
            case None => Refused(UserNotFound + q.username)
            case Some(target) =>
              var remaining := Remaining(s, q.chat, target.id);
              if |remaining| <= 2 then Refused(KickTooFew) else RemoveTarget(q.chat, target, remaining)
  }

  /** A non-owner who is allowed to remove someone is removing themselves. */
  lemma NonOwnerRemovesOnlySelf(s: State, me: User, req: Option<KickRequest>)
    requires PlanKick(s, me, req).RemoveTarget?
    requires s.chats.rows[PlanKick(s, me, req).chat].owner != me.id
    ensures PlanKick(s, me, req).target.username == me.username
  {
  }

  /** The plain kick: only the target's row goes, and a system message announces it. */
  function RemoveMember(s: State, me: User, c: ChatId, target: User, remaining: seq<User>, now: int): (r: Outcome)
    requires Consistent(s)
    requires c in s.chats.rows
    ensures Consistent(r.state)
    ensures r.state.chats == s.chats && r.state.users == s.users
    ensures !ChatMembers.IsMember(r.state.members, c, target.id)
    ensures AgreeOutside(s.members, r.state.members, {(c, target.id)})
    ensures var id := s.messages.nextId;
      && id !in s.messages.rows && id in r.state.messages.rows
      && AgreeOutside(s.messages.rows, r.state.messages.rows, {id})
      && r.state.messages.rows[id].content == me.username + " removed " + target.username + " from the chat"
      && r.state.messages.rows[id].chat == c
      && r.events == [Success("Member kicked successfully"), ChatDetails(c, IdsOf(remaining)),
                      ChatList({target.id}), Distribute(id, r.state.messages.rows[id], true)]
  {
    var m := ChatMembers.RemoveMember(s.members, c, target.id);
    var (msgs, id) := Messages.AddSystemMessage(s.messages, me.username + " removed " + target.username + " from the chat", c, now);
    Outcome(s.(members := m, messages := msgs),
            [Success("Member kicked successfully"), ChatDetails(c, IdsOf(remaining)),
             ChatList({target.id}), Distribute(id, msgs.rows[id], true)])
  }

  /**
   `kick_member_from_chat`, with the file clean-up of a dissolved chat in
   the corrected order (Dissolve).
   */
  function KickMember(s: State, me: User, req: Option<KickRequest>, now: int): (r: Outcome)
    requires Consistent(s)
    ensures Consistent(r.state)
    ensures PlanKick(s, me, req).Refused? ==> r == Reject(s, PlanKick(s, me, req).reason)
    ensures PlanKick(s, me, req).DissolveChat? ==>
      var c := PlanKick(s, me, req).chat;
      && r.state == DeleteChatCascade(s, c)
      && r.events == [DeleteChatFiles(Messages.GetFileMessageIds(s.messages, c)), DeleteGroupAvatar(c),
                      ChatList(IdsOf(ChatMembers.ChatUsers(s.users, s.members, c))), Success("Chat deleted successfully")]
    ensures PlanKick(s, me, req).RemoveTarget? ==>
      var p := PlanKick(s, me, req);
      r == RemoveMember(s, me, p.chat, p.target, p.remaining, now)
  {
    match PlanKick(s, me, req)
    case Refused(reason) => Reject(s, reason)
    case DissolveChat(c, recipients) => Dissolve(s, c, recipients)
    case RemoveTarget(c, target, remaining) => RemoveMember(s, me, c, target, remaining, now)
  }

  /**
   `kick_member_from_chat` in the handler's own order, where a dissolved
   chat's file ids are read after the cascade has deleted its messages.
   */
  function KickMemberAsWritten(s: State, me: User, req: Option<KickRequest>, now: int): (r: Outcome)
    requires Consistent(s)
    ensures Consistent(r.state)
    ensures PlanKick(s, me, req).DissolveChat? ==> |r.events| > 0 && r.events[0] == DeleteChatFiles({})
    ensures !PlanKick(s, me, req).DissolveChat? ==> r == KickMember(s, me, req, now)
  {
    match PlanKick(s, me, req)
    case Refused(reason) => Reject(s, reason)
    case DissolveChat(c, recipients) => DissolveAsWritten(s, c, recipients)
    case RemoveTarget(c, target, remaining) => RemoveMember(s, me, c, target, remaining, now)
  }

  /**
   When a dissolved chat held a file message, the handler as written never
   asks for that file to be deleted, although the message itself is gone;
   the corrected order asks for it.
   */
  lemma DissolveLeaksFiles(s: State, me: User, req: Option<KickRequest>, now: int, file: MessageId)
    requires Consistent(s)
    requires PlanKick(s, me, req).DissolveChat?
    requires file in s.messages.rows && s.messages.rows[file].chat == PlanKick(s, me, req).chat
    requires HasFile(s.messages.rows[file].mtype)
    ensures file !in KickMemberAsWritten(s, me, req, now).state.messages.rows
    ensures forall e :: e in KickMemberAsWritten(s, me, req, now).events && e.DeleteChatFiles? ==> file !in e.messageIds
    ensures file in KickMember(s, me, req, now).events[0].messageIds
  {
    var r := KickMemberAsWritten(s, me, req, now);
    assert r.events == [DeleteChatFiles({}), DeleteGroupAvatar(PlanKick(s, me, req).chat),
                        ChatList(PlanKick(s, me, req).recipients), Success("Chat deleted successfully")];
  }
}

=== FILE: messages.dfy ===
/**
 The messages table (`Messages.kt`): rows keyed by an auto-increment id.
 `reply_to` is a self-reference with ON DELETE SET NULL, so deleting a
 message detaches its replies instead of deleting them. Queries ordered by
 `time` refine SQL's unspecified tie order by the larger id first.
 */
module Messages {
  import opened Records
  import Chats
  import ChatMembers
  import Ordering

  datatype MessageTable = MessageTable(rows: map<MessageId, Message>, nextId: MessageId)

  /** Auto-increment ids, and every reply points at a row that exists (the reply_to foreign key). */
  ghost predicate Valid(t: MessageTable) {
    && 0 <= t.nextId
    && (forall id :: id in t.rows ==> 0 <= id < t.nextId)
    && (forall id :: id in t.rows && t.rows[id].replyTo.Some? ==> t.rows[id].replyTo.value in t.rows)
  }

  /** A fresh row as every insert of the table creates it: unread, no burn deadline, no reactions. */
  function NewRow(content: string, mtype: MessageType, chat: ChatId, sender: Option<UserId>, now: int,
                  replyTo: Option<MessageId>, burn: Option<int>): Message
  {
    Message(content, mtype, chat, sender, now, replyTo, None, burn, None, [])
  }

  function Insert(t: MessageTable, row: Message): (r: (MessageTable, MessageId))
    requires Valid(t)
    requires row.replyTo.Some? ==> row.replyTo.value in t.rows
    ensures Valid(r.0)
    ensures r.1 !in t.rows && r.1 in r.0.rows && r.0.rows[r.1] == row
    ensures AgreeOutside(t.rows, r.0.rows, {r.1})
  {
    (MessageTable(t.rows[t.nextId := row], t.nextId + 1), t.nextId)
  }

  /** `addChatMessage`: a new unread message that replies to nothing. */
  function AddChatMessage(t: MessageTable, content: string, mtype: MessageType, chat: ChatId, sender: UserId, now: int)
    : (r: (MessageTable, MessageId))
    requires Valid(t)
    ensures Valid(r.0)
    ensures r.1 == t.nextId && r.1 !in t.rows && r.1 in r.0.rows
    ensures var row := r.0.rows[r.1];
      && row.content == content && row.mtype == mtype && row.chat == chat
      && row.sender == Some(sender) && row.time == now
      && row.replyTo.None? && row.readAt.None?
      && row.burn.None? && row.burnDeadline.None? && row.reactions == []
    ensures AgreeOutside(t.rows, r.0.rows, {r.1})
  {
    Insert(t, NewRow(content, mtype, chat, Some(sender), now, None, None))
  }

  /**
   `addReplyMessage`: a new unread message replying to `target`; None when
   `target` does not exist (the reply_to foreign key rejects the insert).
   */
  function AddReplyMessage(t: MessageTable, content: string, mtype: MessageType, chat: ChatId, sender: UserId,
                           target: MessageId, now: int): (r: Option<(MessageTable, MessageId)>)
    requires Valid(t)
    ensures r.None? <==> target !in t.rows
    ensures r.Some? ==> var (t', id) := r.value;
      && Valid(t')
      && id == t.nextId && id !in t.rows && id in t'.rows
      && t'.rows[id].replyTo == Some(target) && t'.rows[id].readAt.None?
      && t'.rows[id].content == content && t'.rows[id].mtype == mtype
      && t'.rows[id].chat == chat && t'.rows[id].sender == Some(sender) && t'.rows[id].time == now
      && t'.rows[id].burn.None? && t'.rows[id].burnDeadline.None? && t'.rows[id].reactions == []
      && AgreeOutside(t.rows, t'.rows, {id})
  {
    if target !in t.rows then None
    else Some(Insert(t, NewRow(content, mtype, chat, Some(sender), now, Some(target), None)))
  }

  /**
   The six-argument `addChatMessage(content, type, chat, sender, burnTime,
   replyTo)` the send handler calls is not defined in `Messages.kt`;
   it is modelled as one fresh row that touches nothing else.
   */
  function AddMessage(t: MessageTable, content: string, mtype: MessageType, chat: ChatId, sender: UserId,
                      burn: Option<int>, replyTo: Option<MessageId>, now: int): (r: Option<(MessageTable, MessageId)>)
    requires Valid(t)
    ensures r.None? <==> replyTo.Some? && replyTo.value !in t.rows
    ensures r.Some? ==> var (t', id) := r.value;
      && Valid(t') && id == t.nextId && id !in t.rows && id in t'.rows
      && t'.rows[id] == Message(content, mtype, chat, Some(sender), now, replyTo, None, burn, None, [])
      && AgreeOutside(t.rows, t'.rows, {id})
  {
    if replyTo.Some? && replyTo.value !in t.rows then None
    else Some(Insert(t, NewRow(content, mtype, chat, Some(sender), now, replyTo, burn)))
  }

  /**
   `addSystemMessage` is not defined in `Messages.kt`; it is modelled
   as one fresh row without a sender that touches nothing else.
   */
  function AddSystemMessage(t: MessageTable, content: string, chat: ChatId, now: int): (r: (MessageTable, MessageId))
    requires Valid(t)
    ensures Valid(r.0)
    ensures r.1 == t.nextId && r.1 !in t.rows && r.1 in r.0.rows
    ensures var row := r.0.rows[r.1];
      && row.sender.None? && row.mtype == SYSTEM && row.chat == chat && row.content == content && row.readAt.None?
      && row.time == now && row.replyTo.None? && row.burn.None? && row.burnDeadline.None? && row.reactions == []
    ensures AgreeOutside(t.rows, r.0.rows, {r.1})
  {
    Insert(t, NewRow(content, SYSTEM, chat, None, now, None, None))
  }

  function GetMessage(t: MessageTable, id: MessageId): (r: Option<Message>)
    ensures r.Some? <==> id in t.rows
    ensures r.Some? ==> r.value == t.rows[id]
  {
    if id in t.rows then Some(t.rows[id]) else None
  }

  // ---------------------------------------------------------------------
  // Deletion with ON DELETE SET NULL on reply_to

  /** Deletes the rows in `gone`; a surviving reply to a deleted row loses its reply_to. */
  function DeleteRows(t: MessageTable, gone: set<MessageId>): (r: MessageTable)
    requires Valid(t)
    ensures Valid(r)
    ensures forall id :: id in r.rows <==> id in t.rows && id !in gone
    ensures forall id :: id in r.rows ==>
      r.rows[id] == if t.rows[id].replyTo.Some? && t.rows[id].replyTo.value in gone
                    then t.rows[id].(replyTo := None) else t.rows[id]
  {
    var rows := map id | id in t.rows && id !in gone ::
      if t.rows[id].replyTo.Some? && t.rows[id].replyTo.value in gone then t.rows[id].(replyTo := None) else t.rows[id];
    t.(rows := rows)
  }

  /** `deleteMessage`: the row goes; its replies stay, detached. */
  function DeleteMessage(t: MessageTable, id: MessageId): (r: MessageTable)
    requires Valid(t)
    ensures Valid(r)
    ensures id !in r.rows
    ensures forall x :: x in r.rows <==> x in t.rows && x != id
    ensures forall x :: x in r.rows && t.rows[x].replyTo == Some(id) ==> r.rows[x] == t.rows[x].(replyTo := None)
    ensures forall x :: x in r.rows && t.rows[x].replyTo != Some(id) ==> r.rows[x] == t.rows[x]
  {
    DeleteRows(t, {id})
  }

  /** `deleteChatMessages`: every message of chat `c` goes, and only those. */
  function DeleteChatMessages(t: MessageTable, c: ChatId): (r: MessageTable)
    requires Valid(t)
    ensures Valid(r)
    ensures forall x :: x in r.rows <==> x in t.rows && t.rows[x].chat != c
    ensures forall x :: x in r.rows ==>
      r.rows[x] == if t.rows[x].replyTo.Some? && t.rows[x].replyTo.value in t.rows && t.rows[t.rows[x].replyTo.value].chat == c
                   then t.rows[x].(replyTo := None) else t.rows[x]
  {
    DeleteRows(t, set x | x in t.rows && t.rows[x].chat == c)
  }

  /**
   `updateMessage`: no content deletes the message; new content replaces
   the content and nothing else.
   */
  function UpdateMessage(t: MessageTable, id: MessageId, newContent: Option<string>): (r: MessageTable)
    requires Valid(t)
    ensures Valid(r)
    ensures newContent.None? ==> r == DeleteMessage(t, id)
    ensures newContent.Some? ==> r.rows.Keys == t.rows.Keys && AgreeOutside(t.rows, r.rows, {id})
    ensures newContent.Some? && id in t.rows ==> r.rows[id] == t.rows[id].(content := newContent.value)
  {
    match newContent
    case None => DeleteMessage(t, id)
    case Some(s) => if id in t.rows then t.(rows := t.rows[id := t.rows[id].(content := s)]) else t
  }

  // ---------------------------------------------------------------------
  // Read receipts and burn after read

  /** `markAsRead(id)`: sets the read time only if it is not set yet. */
  function MarkAsRead(t: MessageTable, id: MessageId, now: int): (r: MessageTable)
    requires Valid(t)
    ensures Valid(r)
    ensures r.rows.Keys == t.rows.Keys
    ensures AgreeOutside(t.rows, r.rows, {id})
    ensures id in t.rows && t.rows[id].readAt.None? ==> r.rows[id] == t.rows[id].(readAt := Some(now))
    ensures id in t.rows && t.rows[id].readAt.Some? ==> r == t
  {
    if id in t.rows && t.rows[id].readAt.None? then t.(rows := t.rows[id := t.rows[id].(readAt := Some(now))])
    else t
  }

  /** A second mark keeps the first read time. */
  lemma MarkAsReadKeepsFirst(t: MessageTable, id: MessageId, first: int, second: int)
    requires Valid(t)
    ensures MarkAsRead(MarkAsRead(t, id, first), id, second) == MarkAsRead(t, id, first)
    ensures id in t.rows ==> MarkAsRead(MarkAsRead(t, id, first), id, second).rows[id].readAt ==
                             Some(t.rows[id].readAt.GetOr(first))
  {
  }

  /**
   `markAsRead(id, now, deadline)`, which the read handler calls, is not
   defined in `Messages.kt`; it is modelled as the write-once read mark of `markAsRead`
   that also records the deadline, touching no other row.
   */
  function MarkAsReadUntil(t: MessageTable, id: MessageId, now: int, deadline: Option<int>): (r: MessageTable)
    requires Valid(t)
    ensures Valid(r)
    ensures r.rows.Keys == t.rows.Keys
    ensures AgreeOutside(t.rows, r.rows, {id})
    ensures id in t.rows && t.rows[id].readAt.None? ==>
      r.rows[id] == t.rows[id].(readAt := Some(now), burnDeadline := deadline)
    ensures id in t.rows && t.rows[id].readAt.Some? ==> r == t
  {
    if id in t.rows && t.rows[id].readAt.None?
    then t.(rows := t.rows[id := t.rows[id].(readAt := Some(now), burnDeadline := deadline)])
    else t
  }

  /** The burn-after-read condition of the expiry query. */
  predicate Expired(chats: Chats.ChatTable, msg: Message, now: int) {
    && msg.chat in chats.rows
    && chats.rows[msg.chat].private
    && chats.rows[msg.chat].burnTime.Some?
    && msg.readAt.Some?
    && msg.readAt.value + chats.rows[msg.chat].burnTime.value < now
  }

  datatype ExpiredMessageInfo = ExpiredMessageInfo(messageId: MessageId, chatId: ChatId)

  /** `getExpiredMessageIds`: the read messages of burning private chats whose window has passed. */
  function GetExpiredMessageIds(t: MessageTable, chats: Chats.ChatTable, now: int): (r: set<ExpiredMessageInfo>)
    ensures forall e :: e in r <==> e.messageId in t.rows && e.chatId == t.rows[e.messageId].chat
                                    && Expired(chats, t.rows[e.messageId], now)
  {
    set id | id in t.rows && Expired(chats, t.rows[id], now) :: ExpiredMessageInfo(id, t.rows[id].chat)
  }

  /**
   A message read at `readAt` in a private chat with burn window `b` is
   expired exactly from `readAt + b + 1` on: the comparison is strict, and
   once expired it stays expired.
   */
  lemma ExpiryThreshold(chats: Chats.ChatTable, msg: Message, now: int, later: int)
    requires msg.chat in chats.rows && chats.rows[msg.chat].private
    requires chats.rows[msg.chat].burnTime.Some? && msg.readAt.Some?
    requires now <= later
    ensures Expired(chats, msg, now) <==> now >= msg.readAt.value + chats.rows[msg.chat].burnTime.value + 1
    ensures Expired(chats, msg, now) ==> Expired(chats, msg, later)
    ensures !Expired(chats, msg, msg.readAt.value + chats.rows[msg.chat].burnTime.value)
  {
  }

  /** `getFileMessageIds`: the image, video and file messages of chat `c`. */
  function GetFileMessageIds(t: MessageTable, c: ChatId): (r: set<MessageId>)
    ensures forall id :: id in r <==> id in t.rows && t.rows[id].chat == c && HasFile(t.rows[id].mtype)
  {
    set id | id in t.rows && t.rows[id].chat == c && HasFile(t.rows[id].mtype)
  }

  /**
   `toggleReaction` is not defined in `Messages.kt`; `toggle` stands
   for whatever it does to the reaction list, and only that list of that
   message changes.
   */
  function ToggleReaction(t: MessageTable, id: MessageId, user: UserId, emoji: string,
                          toggle: (seq<Reaction>, UserId, string) -> seq<Reaction>): (r: MessageTable)
    requires Valid(t)
    ensures Valid(r)
    ensures r.rows.Keys == t.rows.Keys
    ensures AgreeOutside(t.rows, r.rows, {id})
    ensures id in t.rows ==> r.rows[id].(reactions := t.rows[id].reactions) == t.rows[id]
  {
    if id in t.rows then t.(rows := t.rows[id := t.rows[id].(reactions := toggle(t.rows[id].reactions, user, emoji))])
    else t
  }

  // ---------------------------------------------------------------------
  // Ordered queries

  /** The send time of a message, as a sort key. */
  function TimeOf(rows: map<MessageId, Message>): int -> int {
    id => if id in rows then rows[id].time else 0
  }

  /** The ids below `hi` of the rows that `keep` selects, lowest first. */
  function IdsWhere(rows: map<MessageId, Message>, keep: Message -> bool, hi: int): (r: seq<MessageId>)
    ensures forall id :: id in r <==> 0 <= id < hi && id in rows && keep(rows[id])
    ensures Ordering.Distinct(r)
    decreases hi
  {
    if hi <= 0 then []
    else
      var rest := IdsWhere(rows, keep, hi - 1);
      if hi - 1 in rows && keep(rows[hi - 1]) then rest + [hi - 1] else rest
  }

  /** The rows `keep` selects, each once, newest first. */
  function NewestFirst(t: MessageTable, keep: Message -> bool): (r: seq<MessageId>)
    requires Valid(t)
    ensures forall id :: id in r <==> id in t.rows && keep(t.rows[id])
    ensures Ordering.Distinct(r)
    ensures Ordering.SortedDesc(TimeOf(t.rows), r)
  {
    var ids := IdsWhere(t.rows, keep, t.nextId);
    var r := Ordering.SortDesc(TimeOf(t.rows), ids);
    assert forall id :: id in r <==> id in ids by {
      forall id ensures id in r <==> id in ids {
        assert id in r <==> id in multiset(r);
        assert id in ids <==> id in multiset(ids);
      }
    }
    Ordering.DistinctPreserved(ids, r);
    r
  }

  /**
   The rank of message `id` among the rows `keep` selects: how many other
   selected rows come before it newest first.
   */
  ghost function Rank(t: MessageTable, keep: Message -> bool, id: MessageId): nat {
    |set j | j in t.rows && keep(t.rows[j]) && j != id && Ordering.Precedes(TimeOf(t.rows), j, id)|
  }

  lemma NewestFirstRank(t: MessageTable, keep: Message -> bool, p: int)
    requires Valid(t)
    requires 0 <= p < |NewestFirst(t, keep)|
    ensures Rank(t, keep, NewestFirst(t, keep)[p]) == p
  {
    var s := NewestFirst(t, keep);
    Ordering.PositionIsRank(TimeOf(t.rows), s, p);
    assert (set j | j in t.rows && keep(t.rows[j]) && j != s[p] && Ordering.Precedes(TimeOf(t.rows), j, s[p]))
        == (set j | j in s && j != s[p] && Ordering.Precedes(TimeOf(t.rows), j, s[p]));
  }

  /**
   The page `LIMIT count OFFSET begin` of the selected rows, newest first:
   exactly the selected rows whose rank lies in [begin, begin + count).
   */
  function Page(t: MessageTable, keep: Message -> bool, begin: nat, count: nat): (r: seq<MessageId>)
    requires Valid(t)
    ensures |r| <= count
    ensures Ordering.Distinct(r)
    ensures Ordering.SortedDesc(TimeOf(t.rows), r)
    ensures forall id :: id in r <==> id in t.rows && keep(t.rows[id]) && begin <= Rank(t, keep, id) < begin + count
  {
    var r := Ordering.Window(NewestFirst(t, keep), begin, count);
    Ordering.WindowSorted(TimeOf(t.rows), NewestFirst(t, keep), begin, count);
    forall id ensures id in r <==> id in t.rows && keep(t.rows[id]) && begin <= Rank(t, keep, id) < begin + count {
      PageMember(t, keep, begin, count, id);
    }
    r
  }

  /** A row is in the window exactly when it is selected and its rank falls inside the window. */
  lemma PageMember(t: MessageTable, keep: Message -> bool, begin: nat, count: nat, id: MessageId)
    requires Valid(t)
    ensures id in Ordering.Window(NewestFirst(t, keep), begin, count) <==>
      id in t.rows && keep(t.rows[id]) && begin <= Rank(t, keep, id) < begin + count
  {
    var s := NewestFirst(t, keep);
    if id in Ordering.Window(s, begin, count) {
      InWindowRanked(t, keep, begin, count, id);
    }
    if id in t.rows && keep(t.rows[id]) && begin <= Rank(t, keep, id) < begin + count {
      RankedInWindow(t, keep, begin, count, id);
    }
  }

  lemma InWindowRanked(t: MessageTable, keep: Message -> bool, begin: nat, count: nat, id: MessageId)
    requires Valid(t)
    requires id in Ordering.Window(NewestFirst(t, keep), begin, count)
    ensures id in t.rows && keep(t.rows[id]) && begin <= Rank(t, keep, id) < begin + count
  {
    var s := NewestFirst(t, keep);
    var r := Ordering.Window(s, begin, count);
    var i :| 0 <= i < |r| && r[i] == id;
    var p := begin + i;
    assert p < |s| && s[p] == id;
    assert i < count;
    NewestFirstRank(t, keep, p);
    assert Rank(t, keep, id) == p;
  }

  lemma RankedInWindow(t: MessageTable, keep: Message -> bool, begin: nat, count: nat, id: MessageId)
    requires Valid(t)
    requires id in t.rows && keep(t.rows[id]) && begin <= Rank(t, keep, id) < begin + count
    ensures id in Ordering.Window(NewestFirst(t, keep), begin, count)
  {
    var s := NewestFirst(t, keep);
    assert id in s;
    var p :| 0 <= p < |s| && s[p] == id;
    NewestFirstRank(t, keep, p);
    assert Ordering.Window(s, begin, count)[p - begin] == id;
  }

  /**
   `getChatMessages(chat, begin, count)`: the window of chat `c` starting at
   rank `begin` newest first, returned oldest first. A negative limit or
   offset is an SQL error (None).
   */
  function GetChatMessages(t: MessageTable, c: ChatId, begin: int, count: int): (r: Option<seq<MessageId>>)
    requires Valid(t)
    ensures r.None? <==> begin < 0 || count < 0
    ensures r.Some? ==> |r.value| <= count
    ensures r.Some? ==> forall i :: 0 <= i < |r.value| ==> r.value[i] in t.rows && t.rows[r.value[i]].chat == c
    ensures r.Some? ==> forall i, j :: 0 <= i < j < |r.value| ==> Ordering.Precedes(TimeOf(t.rows), r.value[j], r.value[i])
    ensures r.Some? ==> forall id :: id in r.value <==>
      id in t.rows && t.rows[id].chat == c && begin <= Rank(t, (m: Message) => m.chat == c, id) < begin + count
  {
    if begin < 0 || count < 0 then None
    else
      var page := Page(t, (m: Message) => m.chat == c, begin, count);
      Ordering.ReverseOfSorted(TimeOf(t.rows), page);
      Some(Ordering.Reverse(page))
  }

  /**
   `getChatMessages(chat, before, count)`, the variant the message handler
   calls, is not defined in `Messages.kt`; it is modelled as the newest
   `count` messages of the chat older than `before`, oldest first.
   */
  function GetChatMessagesBefore(t: MessageTable, c: ChatId, before: Option<int>, count: int): (r: Option<seq<MessageId>>)
    requires Valid(t)
    ensures r.None? <==> count < 0
    ensures r.Some? ==> |r.value| <= count
    ensures r.Some? ==> forall id :: id in r.value ==> id in t.rows && t.rows[id].chat == c
  {
    if count < 0 then None
    else Some(Ordering.Reverse(Page(t, (m: Message) => m.chat == c && (before.None? || m.time < before.value), 0, count)))
  }

  /** `MomentMessage`: a feed entry with the viewer's key for the owner's moment chat. */
  datatype MomentItem = MomentItem(messageId: MessageId, content: string, mtype: MessageType,
                                   ownerId: UserId, time: int, key: string)

  /** The feed condition: a root message posted by its chat's owner in a moment chat `u` belongs to. */
  predicate InFeed(chats: Chats.ChatTable, members: ChatMembers.Members, u: UserId, msg: Message) {
    && msg.chat in chats.rows
    && chats.rows[msg.chat].isMoment
    && ChatMembers.IsMember(members, msg.chat, u)
    && msg.replyTo.None?
    && msg.sender == Some(chats.rows[msg.chat].owner)
  }

  /** The feed condition as a row filter. */
  function FeedOf(chats: Chats.ChatTable, members: ChatMembers.Members, u: UserId): Message -> bool {
    (m: Message) => InFeed(chats, members, u, m)
  }

  /** The feed entry of message `id` as `u` sees it: the owner of its chat and `u`'s key for that chat. */
  function ItemOf(t: MessageTable, chats: Chats.ChatTable, members: ChatMembers.Members, u: UserId,
                  id: MessageId): (r: MomentItem)
    requires id in t.rows && InFeed(chats, members, u, t.rows[id])
    ensures r.messageId == id && r.time == t.rows[id].time && r.content == t.rows[id].content
  {
    var msg := t.rows[id];
    MomentItem(id, msg.content, msg.mtype, chats.rows[msg.chat].owner, msg.time, members[(msg.chat, u)].key)
  }

  /** The feed entries of a page of ids, in the same order. */
  function ItemsOf(t: MessageTable, chats: Chats.ChatTable, members: ChatMembers.Members, u: UserId,
                   ids: seq<MessageId>): (r: seq<MomentItem>)
    requires forall i :: 0 <= i < |ids| ==> ids[i] in t.rows && InFeed(chats, members, u, t.rows[ids[i]])
    ensures |r| == |ids|
    ensures forall i :: 0 <= i < |ids| ==> r[i] == ItemOf(t, chats, members, u, ids[i])
    ensures forall i :: 0 <= i < |ids| ==> r[i].messageId == ids[i] && r[i].time == t.rows[ids[i]].time
  {
    seq(|ids|, i requires 0 <= i < |ids| => ItemOf(t, chats, members, u, ids[i]))
  }

  /** A feed page holds selected rows only, newest first. */
  lemma FeedPageFacts(t: MessageTable, chats: Chats.ChatTable, members: ChatMembers.Members, u: UserId,
                      offset: nat, count: nat)
    requires Valid(t)
    ensures var ids := Page(t, FeedOf(chats, members, u), offset, count);
      && (forall i :: 0 <= i < |ids| ==> ids[i] in t.rows && InFeed(chats, members, u, t.rows[ids[i]])
                                         && offset <= Rank(t, FeedOf(chats, members, u), ids[i]) < offset + count)
      && (forall i, j :: 0 <= i < j < |ids| ==> t.rows[ids[i]].time >= t.rows[ids[j]].time)
      && (forall id :: id in t.rows && InFeed(chats, members, u, t.rows[id])
                       && offset <= Rank(t, FeedOf(chats, members, u), id) < offset + count ==>
            exists i :: 0 <= i < |ids| && ids[i] == id)
  {
    var ids := Page(t, FeedOf(chats, members, u), offset, count);
    forall i | 0 <= i < |ids|
      ensures ids[i] in t.rows && InFeed(chats, members, u, t.rows[ids[i]])
      ensures offset <= Rank(t, FeedOf(chats, members, u), ids[i]) < offset + count
    {
      assert ids[i] in ids;
    }
    forall i, j | 0 <= i < j < |ids| ensures t.rows[ids[i]].time >= t.rows[ids[j]].time {
      assert Ordering.Precedes(TimeOf(t.rows), ids[i], ids[j]);
    }
  }

  /** Every feed row of `u` whose rank lies in [offset, offset + count) has an entry in `items`. */
  ghost predicate FeedWindowCovered(t: MessageTable, chats: Chats.ChatTable, members: ChatMembers.Members, u: UserId,
                                    offset: int, count: int, items: seq<MomentItem>) {
    forall id :: id in t.rows && InFeed(chats, members, u, t.rows[id])
                 && offset <= Rank(t, FeedOf(chats, members, u), id) < offset + count ==>
      exists i :: 0 <= i < |items| && items[i].messageId == id
  }

  /**
   `getMomentMessagesForUser`: the feed of `u`, newest first, `count`
   entries from rank `offset`. A negative limit or offset is an SQL error.
   */
  function GetMomentMessagesForUser(t: MessageTable, chats: Chats.ChatTable, members: ChatMembers.Members,
                                    u: UserId, offset: int, count: int): (r: Option<seq<MomentItem>>)
    requires Valid(t)
    ensures r.None? <==> offset < 0 || count < 0
    ensures r.Some? ==> |r.value| <= count
    ensures r.Some? ==> forall i :: 0 <= i < |r.value| ==>
      && r.value[i].messageId in t.rows
      && InFeed(chats, members, u, t.rows[r.value[i].messageId])
      && offset <= Rank(t, FeedOf(chats, members, u), r.value[i].messageId) < offset + count
      && r.value[i] == ItemOf(t, chats, members, u, r.value[i].messageId)
    ensures r.Some? ==> forall i, j :: 0 <= i < j < |r.value| ==> r.value[i].time >= r.value[j].time
    ensures r.Some? ==> FeedWindowCovered(t, chats, members, u, offset, count, r.value)
  {
    if offset < 0 || count < 0 then None
    else
      FeedPageFacts(t, chats, members, u, offset, count);
      Some(ItemsOf(t, chats, members, u, Page(t, FeedOf(chats, members, u), offset, count)))
  }

  /** `getMomentComments`: exactly the replies to message `id`, oldest first. */
  function GetMomentComments(t: MessageTable, id: MessageId): (r: seq<MessageId>)
    requires Valid(t)
    ensures forall x :: x in r <==> x in t.rows && t.rows[x].replyTo == Some(id)
    ensures Ordering.Distinct(r)
    ensures forall i, j :: 0 <= i < j < |r| ==> Ordering.Precedes(TimeOf(t.rows), r[j], r[i])
  {
    var s := NewestFirst(t, (m: Message) => m.replyTo == Some(id));
    Ordering.ReverseOfSorted(TimeOf(t.rows), s);
    Ordering.Reverse(s)
  }
}

=== FILE: moment_packets.dfy ===
/**
 The moment packet handlers (`MomentPackets.kt`). A user's moments are the
 root messages they post in their own moment chat; a friend can read them
 once the owner has added the friend to that chat with an encrypted key.
 The friends table is not part of this model: a handler that asks
 `areFriends` is given the requester's friends as a set.
 */
module MomentPackets {
  import opened Records
  import Chats
  import ChatMembers
  import Messages
  import opened Database

  // ---------------------------------------------------------------------
  // get_moments

  /** The optional paging fields; a packet that does not parse counts as one with neither. */
  datatype MomentsRequest = MomentsRequest(offset: Option<int>, count: Option<int>)

  const DefaultCount := 50

  /** The offset and count the feed query is given: 0 and 50 unless the packet says otherwise. */
  function MomentsWindow(req: Option<MomentsRequest>): (r: (int, int))
    ensures req.None? ==> r == (0, DefaultCount)
    ensures req.Some? ==> r.0 == req.value.offset.GetOr(0) && r.1 == req.value.count.GetOr(DefaultCount)
  {
    match req
    case None => (0, DefaultCount)
    case Some(q) => (q.offset.GetOr(0), q.count.GetOr(DefaultCount))
  }

  /**
   `get_moments`: one page of the requester's feed. A negative offset or
   count makes the query fail, and nothing is sent.
   */
  function GetMoments(s: State, me: User, req: Option<MomentsRequest>): (r: Outcome)
    requires Consistent(s)
    ensures r.state == s
    ensures var (offset, count) := MomentsWindow(req);
      && (offset < 0 || count < 0 <==> r.events == [])
      && (r.events != [] ==>
            && |r.events| == 1 && r.events[0].MomentsList?
            && |r.events[0].moments| <= count
            && forall i :: 0 <= i < |r.events[0].moments| ==>
                 var item := r.events[0].moments[i];
                 && item.messageId in s.messages.rows
                 && Messages.InFeed(s.chats, s.members, me.id, s.messages.rows[item.messageId])
                 && offset <= Messages.Rank(s.messages, Messages.FeedOf(s.chats, s.members, me.id), item.messageId) < offset + count)
    ensures var (offset, count) := MomentsWindow(req);
      r.events != [] && r.events[0].MomentsList? ==>
        Messages.FeedWindowCovered(s.messages, s.chats, s.members, me.id, offset, count, r.events[0].moments)
    ensures var (offset, count) := MomentsWindow(req);
      r.events != [] && r.events[0].MomentsList? ==>
        && (forall i :: 0 <= i < |r.events[0].moments| ==>
              && r.events[0].moments[i].messageId in s.messages.rows
              && Messages.InFeed(s.chats, s.members, me.id, s.messages.rows[r.events[0].moments[i].messageId])
              && r.events[0].moments[i] == Messages.ItemOf(s.messages, s.chats, s.members, me.id, r.events[0].moments[i].messageId))
        && (forall i, j :: 0 <= i < j < |r.events[0].moments| ==> r.events[0].moments[i].time >= r.events[0].moments[j].time)
  {
    var (offset, count) := MomentsWindow(req);
    match Messages.GetMomentMessagesForUser(s.messages, s.chats, s.members, me.id, offset, count)
    case None => Outcome(s, [])
    case Some(items) => Outcome(s, [MomentsList(items)])
  }

  // ---------------------------------------------------------------------
  // post_moment

  datatype PostMomentRequest = PostMomentRequest(content: string, mtype: MessageType, key: Option<string>)

  const PostBadPacket := "Post moment failed: Invalid packet format"
  const PostKeyRequired := "Post moment failed: Key required for first moment"
  const PostDone := "Moment posted successfully"

  /** The stored text of a moment: only a text moment keeps its content. */
  function MomentContent(q: PostMomentRequest): (r: string)
    ensures q.mtype == TEXT ==> r == q.content
    ensures q.mtype != TEXT ==> r == ""
  {
    if q.mtype == TEXT then q.content else ""
  }

  /** The owner's moment chat after `getOrCreateMomentChat`, as a state. */
  function WithMomentChat(s: State, me: User, now: int): (r: (State, ChatId))
    requires Consistent(s)
    ensures Consistent(r.0)
    ensures r.0.users == s.users && r.0.members == s.members && r.0.messages == s.messages
    ensures Chats.IsMomentOf(r.0.chats.rows, r.1, me.id)
    ensures forall c :: c in s.chats.rows ==> c in r.0.chats.rows && r.0.chats.rows[c] == s.chats.rows[c]
    ensures (r.0.chats, r.1) == Chats.GetOrCreateMomentChat(s.chats, me.id, me.username, now)
  {
    var (chats, c) := Chats.GetOrCreateMomentChat(s.chats, me.id, me.username, now);
    (s.(chats := chats), c)
  }

  /**
   `post_moment`: the requester's moment chat is found or created. If the
   requester is not yet its member, a key is required to join it; without
   one the request fails, although a newly created moment chat stays. The
   moment is stored as a root message of the owner and the chat's time is
   bumped.
   */
  function PostMoment(s: State, me: User, req: Option<PostMomentRequest>, now: int): (r: Outcome)
    requires Consistent(s)
    ensures Consistent(r.state)
    ensures r.state.users == s.users
    ensures req.None? ==> r == Reject(s, PostBadPacket)
    ensures req.Some? ==>
      var (s1, c) := WithMomentChat(s, me, now);
      && (!ChatMembers.IsMember(s.members, c, me.id) && req.value.key.None? ==>
            r == Reject(s1, PostKeyRequired))
      && (ChatMembers.IsMember(s.members, c, me.id) || req.value.key.Some? ==>
            var id := s.messages.nextId;
            && id !in s.messages.rows && id in r.state.messages.rows
            && AgreeOutside(s.messages.rows, r.state.messages.rows, {id})
            && r.state.messages.rows[id].chat == c
            && r.state.messages.rows[id].sender == Some(me.id)
            && r.state.messages.rows[id].replyTo.None?
            && r.state.messages.rows[id].mtype == req.value.mtype
            && r.state.messages.rows[id].content == MomentContent(req.value)
            && r.state.messages.rows[id].time == now
            && r.state.messages.rows[id].readAt.None?
            && r.state.messages.rows[id].burn.None? && r.state.messages.rows[id].burnDeadline.None?
            && r.state.messages.rows[id].reactions == []
            && Chats.IsMomentOf(r.state.chats.rows, c, me.id)
            && r.state.chats.rows.Keys == s1.chats.rows.Keys && r.state.chats.nextId == s1.chats.nextId
            && r.state.chats.rows[c] == s1.chats.rows[c].(lastChatAt := now)
            && AgreeOutside(s1.chats.rows, r.state.chats.rows, {c})
            && r.state.members == ChatMembers.AddMember(s.members, c, me.id, req.value.key.GetOr(""))
            && r.events == [MomentPosted(id, c), Success(PostDone)])
  {
    match req
    case None => Reject(s, PostBadPacket)
    case Some(q) =>
      var (s1, c) := WithMomentChat(s, me, now);
      if !ChatMembers.IsMember(s1.members, c, me.id) && q.key.None? then Reject(s1, PostKeyRequired)
      else
        var members := ChatMembers.AddMember(s1.members, c, me.id, q.key.GetOr(""));
        var (msgs, id) := Messages.AddChatMessage(s1.messages, MomentContent(q), q.mtype, c, me.id, now);
        var chats := Chats.UpdateTime(s1.chats, c, now);
        Outcome(State(s.users, chats, members, msgs), [MomentPosted(id, c), Success(PostDone)])
  }

  /** A posted moment is in its owner's feed, and in the feed of every member of the moment chat. */
  lemma PostedMomentIsInFeed(s: State, me: User, q: PostMomentRequest, now: int, viewer: UserId)
    requires Consistent(s)
    requires PostMoment(s, me, Some(q), now).events != [Error(PostKeyRequired)]
    requires viewer == me.id || ChatMembers.IsMember(s.members, WithMomentChat(s, me, now).1, viewer)
    ensures var r := PostMoment(s, me, Some(q), now);
      Messages.InFeed(r.state.chats, r.state.members, viewer, r.state.messages.rows[s.messages.nextId])
  {
    var (s1, c) := WithMomentChat(s, me, now);
    assert ChatMembers.IsMember(s.members, c, me.id) || q.key.Some?;
  }

  // ---------------------------------------------------------------------
  // get_user_moments

  datatype UserMomentsRequest = UserMomentsRequest(userId: UserId, before: Option<int>, count: Option<int>)

  const UserMomentsBadPacket := "Get user moments failed: Invalid packet format"
  const NoSuchUser := "User not found"
  const NotViewer := "You are not a viewer of this user's moments"
  /** `Long.MAX_VALUE`, the default of the `before` field. */
  const LongMax := 0x7fff_ffff_ffff_ffff

  /** The entries of a page of `owner`'s moments, each carrying the viewer's key. */
  function UserItems(t: Messages.MessageTable, ids: seq<MessageId>, owner: UserId, key: string): (r: seq<Messages.MomentItem>)
    requires forall i :: 0 <= i < |ids| ==> ids[i] in t.rows
    ensures |r| == |ids|
    ensures forall i :: 0 <= i < |ids| ==>
      && r[i].messageId == ids[i] && r[i].ownerId == owner && r[i].key == key
      && r[i].content == t.rows[ids[i]].content && r[i].mtype == t.rows[ids[i]].mtype
      && r[i].time == t.rows[ids[i]].time
  {
    seq(|ids|, i requires 0 <= i < |ids| =>
      Messages.MomentItem(ids[i], t.rows[ids[i]].content, t.rows[ids[i]].mtype, owner, t.rows[ids[i]].time, key))
  }

  /**
   `get_user_moments`: the target user's moment chat, read through the
   offset-based `getChatMessages` with `before` (default Long.MAX_VALUE)
   as the offset. Only the owner and the chat's members may read it; a user
   without a moment chat has an empty list. Nothing changes.
   */
  function GetUserMoments(s: State, me: User, req: Option<UserMomentsRequest>): (r: Outcome)
    requires Consistent(s)
    ensures r.state == s
    ensures req.None? ==> r == Reject(s, UserMomentsBadPacket)
    ensures req.Some? && FindById(s.users, req.value.userId).None? ==> r == Reject(s, NoSuchUser)
    ensures req.Some? && FindById(s.users, req.value.userId).Some?
            && Chats.GetMomentChatByOwner(s.chats, req.value.userId).None? ==>
      r.events == [UserMomentsList(req.value.userId, FindById(s.users, req.value.userId).value.username, [])]
    ensures req.Some? && FindById(s.users, req.value.userId).Some?
            && Chats.GetMomentChatByOwner(s.chats, req.value.userId).Some? ==>
      var c := Chats.GetMomentChatByOwner(s.chats, req.value.userId).value;
      !ChatMembers.IsMember(s.members, c, me.id) && req.value.userId != me.id ==> r == Reject(s, NotViewer)
    ensures req.Some? && FindById(s.users, req.value.userId).Some?
            && Chats.GetMomentChatByOwner(s.chats, req.value.userId).Some? ==>
      var q := req.value;
      var c := Chats.GetMomentChatByOwner(s.chats, q.userId).value;
      var before, count := q.before.GetOr(LongMax), q.count.GetOr(DefaultCount);
      (ChatMembers.IsMember(s.members, c, me.id) || q.userId == me.id) ==>
        && (before < 0 || count < 0 ==> r.events == [])
        && (before >= 0 && count >= 0 ==>
              var page := Messages.GetChatMessages(s.messages, c, before, count).value;
              && r.events == [UserMomentsList(q.userId, FindById(s.users, q.userId).value.username,
                                              UserItems(s.messages, page, q.userId,
                                                        ChatMembers.GetMemberKey(s.members, c, me.id).GetOr("")))])
  {
    match req
    case None => Reject(s, UserMomentsBadPacket)
    case Some(q) =>
      match FindById(s.users, q.userId)
      case None => Reject(s, NoSuchUser)
      case Some(target) =>
        match Chats.GetMomentChatByOwner(s.chats, q.userId)
        case None => Outcome(s, [UserMomentsList(q.userId, target.username, [])])
        case Some(c) =>
          var key := ChatMembers.GetMemberKey(s.members, c, me.id);
          if key.None? && q.userId != me.id then Reject(s, NotViewer)
          else
            match Messages.GetChatMessages(s.messages, c, q.before.GetOr(LongMax), q.count.GetOr(DefaultCount))
            case None => Outcome(s, [])
            case Some(page) =>
              Outcome(s, [UserMomentsList(q.userId, target.username, UserItems(s.messages, page, q.userId, key.GetOr("")))])
  }

  /**
   Whatever list a viewer receives holds at most `count` entries, all
   messages of the target's moment chat, each naming the target as owner
   and carrying the viewer's key.
   */
  lemma UserMomentsEntries(s: State, me: User, req: Option<UserMomentsRequest>)
    requires Consistent(s)
    ensures req.Some? && FindById(s.users, req.value.userId).Some?
            && Chats.GetMomentChatByOwner(s.chats, req.value.userId).Some? ==>
      var c := Chats.GetMomentChatByOwner(s.chats, req.value.userId).value;
      forall e :: e in GetUserMoments(s, me, req).events && e.UserMomentsList? ==>
        && e.user == req.value.userId
        && |e.moments| <= req.value.count.GetOr(DefaultCount)
        && forall i :: 0 <= i < |e.moments| ==>
             && e.moments[i].messageId in s.messages.rows
             && s.messages.rows[e.moments[i].messageId].chat == c
             && e.moments[i].ownerId == req.value.userId
             && e.moments[i].key == ChatMembers.GetMemberKey(s.members, c, me.id).GetOr("")
  {
  }

  // ---------------------------------------------------------------------
  // toggle_moment_permission

  datatype TogglePermissionRequest = TogglePermissionRequest(friendId: UserId, canView: bool)

  const ToggleBadPacket := "Toggle moment permission failed: Invalid packet format"
  const NotFriend := "User is not your friend"
  const EnableHint := "Enable: call add_moment_viewer with encryptedKey"
  const Revoked := "Friend can no longer view your moments"

  /**
   `toggle_moment_permission`: for a friend, turning viewing off removes
   them from the requester's moment chat; turning it on changes nothing
   (the friend is added by a request that carries their key).
   */
  function ToggleMomentPermission(s: State, me: User, req: Option<TogglePermissionRequest>, myFriends: set<UserId>)
    : (r: Outcome)
    requires Consistent(s)
    ensures Consistent(r.state)
    ensures req.None? ==> r == Reject(s, ToggleBadPacket)
    ensures req.Some? && req.value.friendId !in myFriends ==> r == Reject(s, NotFriend)
    ensures req.Some? && req.value.friendId in myFriends ==>
      var f := req.value.friendId;
      && r.state.users == s.users && r.state.chats == s.chats && r.state.messages == s.messages
      && (req.value.canView ==> r.state == s)
      && (!req.value.canView && Chats.GetMomentChatByOwner(s.chats, me.id).Some? ==>
            var c := Chats.GetMomentChatByOwner(s.chats, me.id).value;
            && !ChatMembers.IsMember(r.state.members, c, f)
            && AgreeOutside(s.members, r.state.members, {(c, f)}))
      && (!req.value.canView && Chats.GetMomentChatByOwner(s.chats, me.id).None? ==> r.state == s)
      && r.events == [PermissionUpdated(f, req.value.canView), Success(if req.value.canView then EnableHint else Revoked)]
  {
    match req
    case None => Reject(s, ToggleBadPacket)
    case Some(q) =>
      if q.friendId !in myFriends then Reject(s, NotFriend)
      else
        var members :=
          if q.canView then s.members
          else match Chats.GetMomentChatByOwner(s.chats, me.id)
               case None => s.members
               case Some(c) => ChatMembers.RemoveMember(s.members, c, q.friendId);
        Outcome(s.(members := members),
                [PermissionUpdated(q.friendId, q.canView), Success(if q.canView then EnableHint else Revoked)])
  }

  // ---------------------------------------------------------------------
  // get_moment_permission

  /** The `encryptedKey` field as the JSON tree has it. */
  datatype KeyField = Absent | JsonNull | Text(value: string)

  datatype PermissionRequest = PermissionRequest(friendId: UserId, encryptedKey: KeyField)

  const PermissionBadPacket := "Get moment permission failed: Invalid packet format"

  /**
   The key as the handler reads it: `jsonPrimitive?.content` of a JSON null
   is the text "null", so an explicit null counts as a key.
   */
  function KeyAsWritten(f: KeyField): (r: Option<string>)
    ensures f.Absent? <==> r.None?
    ensures f.Text? ==> r == Some(f.value)
    ensures f.JsonNull? ==> r == Some("null")
  {
    match f
    case Absent => None
    case JsonNull => Some("null")
    case Text(v) => Some(v)
  }

  /** The key as intended: an explicit null is no key, as `create_group` reads its optional fields. */
  function KeyOf(f: KeyField): (r: Option<string>)
    ensures r.Some? <==> f.Text?
    ensures f.Text? ==> r == Some(f.value)
  {
    match f
    case Text(v) => Some(v)
    case _ => None
  }

  /** Whether `viewer` is a member of `owner`'s moment chat; false without one. */
  function CanView(s: State, owner: UserId, viewer: UserId): (r: bool)
    requires Chats.Valid(s.chats)
    ensures r <==> exists c :: Chats.IsMomentOf(s.chats.rows, c, owner) && ChatMembers.IsMember(s.members, c, viewer)
  {
    match Chats.GetMomentChatByOwner(s.chats, owner)
    case None => false
    case Some(c) =>
      assert forall c' :: Chats.IsMomentOf(s.chats.rows, c', owner) ==> c' == c;
      ChatMembers.IsMember(s.members, c, viewer)
  }

  /**
   The body of `get_moment_permission` once the key is read: with a key,
   the requester's moment chat is found or created and the friend joins it
   with that key (an existing row is kept); then both viewing directions
   are reported.
   */
  function GrantAndReport(s: State, me: User, friend: UserId, key: Option<string>, now: int): (r: Outcome)
    requires Consistent(s)
    ensures Consistent(r.state)
    ensures r.state.users == s.users && r.state.messages == s.messages
    ensures key.None? ==> r.state == s
    ensures key.Some? ==>
      var (s1, c) := WithMomentChat(s, me, now);
      && r.state == s1.(members := ChatMembers.AddMember(s.members, c, friend, key.value))
      && CanView(r.state, me.id, friend)
    ensures r.events == [PermissionStatus(friend, CanView(r.state, me.id, friend), CanView(r.state, friend, me.id))]
  {
    var s2 :=
      match key
      case None => s
      case Some(k) =>
        var (s1, c) := WithMomentChat(s, me, now);
        s1.(members := ChatMembers.AddMember(s1.members, c, friend, k));
    Outcome(s2, [PermissionStatus(friend, CanView(s2, me.id, friend), CanView(s2, friend, me.id))])
  }

  /** `get_moment_permission` with the key read as intended (KeyOf). A non-friend gets no reply. */
  function GetMomentPermission(s: State, me: User, req: Option<PermissionRequest>, myFriends: set<UserId>, now: int)
    : (r: Outcome)
    requires Consistent(s)
    ensures Consistent(r.state)
    ensures req.None? ==> r == Reject(s, PermissionBadPacket)
    ensures req.Some? && req.value.friendId !in myFriends ==> r == Outcome(s, [])
    ensures req.Some? && req.value.friendId in myFriends ==>
      r == GrantAndReport(s, me, req.value.friendId, KeyOf(req.value.encryptedKey), now)
    ensures req.Some? && !req.value.encryptedKey.Text? ==> r.state == s
  {
    match req
    case None => Reject(s, PermissionBadPacket)
    case Some(q) =>
      if q.friendId !in myFriends then Outcome(s, [])
      else GrantAndReport(s, me, q.friendId, KeyOf(q.encryptedKey), now)
  }

  /** `get_moment_permission` as written: an explicit null key grants access with the key "null". */
  function GetMomentPermissionAsWritten(s: State, me: User, req: Option<PermissionRequest>, myFriends: set<UserId>, now: int)
    : (r: Outcome)
    requires Consistent(s)
    ensures Consistent(r.state)
    ensures req.Some? && req.value.encryptedKey != JsonNull ==> r == GetMomentPermission(s, me, req, myFriends, now)
    ensures req.Some? && req.value.friendId in myFriends ==>
      r == GrantAndReport(s, me, req.value.friendId, KeyAsWritten(req.value.encryptedKey), now)
  {
    match req
    case None => Reject(s, PermissionBadPacket)
    case Some(q) =>
      if q.friendId !in myFriends then Outcome(s, [])
      else GrantAndReport(s, me, q.friendId, KeyAsWritten(q.encryptedKey), now)
  }

  /**
   An explicit `"encryptedKey": null` for a friend who is not yet a viewer
   makes them a viewer holding the key "null" as written, which they cannot
   decrypt with; read as intended it leaves the state alone.
   */
  lemma NullKeyGrantsAccess(s: State, me: User, friend: UserId, myFriends: set<UserId>, now: int)
    requires Consistent(s)
    requires friend in myFriends
    requires !CanView(s, me.id, friend)
    ensures var r := GetMomentPermissionAsWritten(s, me, Some(PermissionRequest(friend, JsonNull)), myFriends, now);
      && CanView(r.state, me.id, friend)
      && r.state.members[(WithMomentChat(s, me, now).1, friend)].key == "null"
    ensures GetMomentPermission(s, me, Some(PermissionRequest(friend, JsonNull)), myFriends, now).state == s
  {
    var (s1, c) := WithMomentChat(s, me, now);
    assert !ChatMembers.IsMember(s.members, c, friend);
  }

  /** After a friend's viewing is turned off, the permission status reports that they cannot view. */
  lemma ToggleOffRevokes(s: State, me: User, friend: UserId, myFriends: set<UserId>, now: int)
    requires Consistent(s)
    requires friend in myFriends
    ensures var s1 := ToggleMomentPermission(s, me, Some(TogglePermissionRequest(friend, false)), myFriends).state;
      GetMomentPermission(s1, me, Some(PermissionRequest(friend, Absent)), myFriends, now).events
        == [PermissionStatus(friend, false, CanView(s1, friend, me.id))]
  {
    var s1 := ToggleMomentPermission(s, me, Some(TogglePermissionRequest(friend, false)), myFriends).state;
    match Chats.GetMomentChatByOwner(s.chats, me.id)
    case None =>
      assert !CanView(s1, me.id, friend);
    case Some(c) =>
      assert !ChatMembers.IsMember(s1.members, c, friend);
      assert !CanView(s1, me.id, friend);
  }

  // ---------------------------------------------------------------------
  // get_my_moment_key

  /** `get_my_moment_key`: the requester's moment chat and their own key for it, if any. */
  function GetMyMomentKey(s: State, me: User): (r: Outcome)
    requires Consistent(s)
    ensures r.state == s
    ensures |r.events| == 1 && r.events[0].MyMomentKey?
    ensures r.events[0].found <==> exists c :: Chats.IsMomentOf(s.chats.rows, c, me.id)
    ensures r.events[0].found <==> r.events[0].momentChat.Some?
    ensures r.events[0].found ==>
      && Chats.IsMomentOf(s.chats.rows, r.events[0].momentChat.value, me.id)
      && r.events[0].key == ChatMembers.GetMemberKey(s.members, r.events[0].momentChat.value, me.id)
    ensures !r.events[0].found ==> r.events[0].key.None?
  {
    match Chats.GetMomentChatByOwner(s.chats, me.id)
    case None => Outcome(s, [MyMomentKey(false, None, None)])
    case Some(c) => Outcome(s, [MyMomentKey(true, Some(c), ChatMembers.GetMemberKey(s.members, c, me.id))])
  }

  /** Once a moment is posted, the owner's moment key is found, and it is the key they joined with. */
  lemma PostThenKey(s: State, me: User, q: PostMomentRequest, now: int)
    requires Consistent(s)
    requires PostMoment(s, me, Some(q), now).events != [Error(PostKeyRequired)]
    ensures var s1 := PostMoment(s, me, Some(q), now).state;
      var e := GetMyMomentKey(s1, me).events[0];
      && e.found && e.key.Some?
      && (!ChatMembers.IsMember(s.members, WithMomentChat(s, me, now).1, me.id) ==> e.key == q.key)
  {
    var (s0, c) := WithMomentChat(s, me, now);
    var s1 := PostMoment(s, me, Some(q), now).state;
    assert ChatMembers.IsMember(s.members, c, me.id) || q.key.Some?;
    Chats.MomentChatIsUnique(s1.chats, me.id, c);
  }
}

=== FILE: ordering.dfy ===
/**
 Ordering of table rows by a timestamp column. SQL's `ORDER BY time DESC`
 leaves ties in an unspecified order; the model breaks them by the larger
 row id first, which is one of the orders the database may return.
 */
module Ordering {

  /** In a newest-first list, `a` may come before `b`. */
  predicate Precedes(key: int -> int, a: int, b: int) {
    key(a) > key(b) || (key(a) == key(b) && a >= b)
  }

  predicate SortedDesc(key: int -> int, s: seq<int>) {
    forall i, j :: 0 <= i < j < |s| ==> Precedes(key, s[i], s[j])
  }

  predicate Distinct<T(==)>(s: seq<T>) {
    forall i, j :: 0 <= i < j < |s| ==> s[i] != s[j]
  }

  function Insert(key: int -> int, x: int, s: seq<int>): (r: seq<int>)
    requires SortedDesc(key, s)
    ensures SortedDesc(key, r)
    ensures multiset(r) == multiset(s) + multiset{x}
    ensures forall y :: y in r ==> y == x || y in s
  {
    if |s| == 0 then [x]
    else if Precedes(key, x, s[0]) then
      assert forall j :: 0 <= j < |s| ==> Precedes(key, x, s[j]);
      [x] + s
    else
      SortedTail(key, s);
      var rest := Insert(key, x, s[1..]);
      assert Precedes(key, s[0], x);
      assert forall y :: y in s[1..] ==> Precedes(key, s[0], y);
      ConsSorted(key, s[0], rest);
      assert s == [s[0]] + s[1..];
      [s[0]] + rest
  }

  /** A row that may precede every row of a newest-first list may head it. */
  lemma ConsSorted(key: int -> int, h: int, s: seq<int>)
    requires SortedDesc(key, s)
    requires forall y :: y in s ==> Precedes(key, h, y)
    ensures SortedDesc(key, [h] + s)
  {
    forall i, j | 0 <= i < j < |s| + 1 ensures Precedes(key, ([h] + s)[i], ([h] + s)[j]) {
      assert ([h] + s)[j] == s[j - 1];
      if i > 0 {
        assert ([h] + s)[i] == s[i - 1];
      }
    }
  }

  /** Insertion sort, newest first. */
  function SortDesc(key: int -> int, s: seq<int>): (r: seq<int>)
    ensures SortedDesc(key, r)
    ensures multiset(r) == multiset(s)
  {
    if |s| == 0 then []
    else
      assert s == s[..|s| - 1] + [s[|s| - 1]];
      Insert(key, s[|s| - 1], SortDesc(key, s[..|s| - 1]))
  }

  function Reverse<T>(s: seq<T>): (r: seq<T>)
    ensures |r| == |s|
    ensures forall i :: 0 <= i < |s| ==> r[i] == s[|s| - 1 - i]
  {
    if |s| == 0 then [] else Reverse(s[1..]) + [s[0]]
  }

  /** `LIMIT count OFFSET begin` over an already ordered list. */
  function Window<T>(s: seq<T>, begin: nat, count: nat): (r: seq<T>)
    ensures |r| == if begin >= |s| then 0 else if begin + count <= |s| then count else |s| - begin
    ensures forall i :: 0 <= i < |r| ==> r[i] == s[begin + i]
  {
    if begin >= |s| then []
    else if begin + count <= |s| then s[begin..begin + count]
    else s[begin..]
  }

  /** A window of a newest-first list without repetitions is one too. */
  lemma WindowSorted(key: int -> int, s: seq<int>, begin: nat, count: nat)
    requires SortedDesc(key, s) && Distinct(s)
    ensures SortedDesc(key, Window(s, begin, count)) && Distinct(Window(s, begin, count))
  {
    var r := Window(s, begin, count);
    forall i, j | 0 <= i < j < |r| ensures Precedes(key, r[i], r[j]) && r[i] != r[j] {
      assert r[i] == s[begin + i] && r[j] == s[begin + j];
    }
  }

  /** Two newest-first lists of the same rows are the same list. */
  lemma {:induction false} SortedDescUnique(key: int -> int, a: seq<int>, b: seq<int>)
    requires SortedDesc(key, a) && SortedDesc(key, b)
    requires multiset(a) == multiset(b)
    ensures a == b
    decreases |a|
  {
    if |a| > 0 {
      SameHead(key, a, b);
      TailMultiset(a);
      TailMultiset(b);
      SortedTail(key, a);
      SortedTail(key, b);
      SortedDescUnique(key, a[1..], b[1..]);
      assert a == [a[0]] + a[1..];
      assert b == [b[0]] + b[1..];
    } else {
      assert |b| == 0;
    }
  }

  /** Two newest-first lists of the same rows start with the same row. */
  lemma SameHead(key: int -> int, a: seq<int>, b: seq<int>)
    requires SortedDesc(key, a) && SortedDesc(key, b)
    requires multiset(a) == multiset(b)
    requires |a| > 0
    ensures |b| > 0 && a[0] == b[0]
  {
    assert a[0] in multiset(b);
    assert |b| > 0;
    assert b[0] in multiset(a);
    var i :| 0 <= i < |b| && b[i] == a[0];
    var j :| 0 <= j < |a| && a[j] == b[0];
    assert Precedes(key, b[0], b[i]);
    assert Precedes(key, a[0], a[j]);
  }

  /** Dropping the head removes exactly one copy of it. */
  lemma TailMultiset(a: seq<int>)
    requires |a| > 0
    ensures multiset(a[1..]) == multiset(a) - multiset{a[0]}
  {
    assert a == [a[0]] + a[1..];
  }

  /** The tail of a newest-first list is newest first. */
  lemma SortedTail(key: int -> int, a: seq<int>)
    requires SortedDesc(key, a) && |a| > 0
    ensures SortedDesc(key, a[1..])
  {
    forall i, j | 0 <= i < j < |a| - 1 ensures Precedes(key, a[1..][i], a[1..][j]) {
      assert a[1..][i] == a[i + 1] && a[1..][j] == a[j + 1];
    }
  }

  /** Sorting keeps the elements distinct. */
  lemma DistinctPreserved(a: seq<int>, b: seq<int>)
    requires Distinct(a)
    requires multiset(a) == multiset(b)
    ensures Distinct(b)
  {
    forall i, j | 0 <= i < j < |b| ensures b[i] != b[j] {
      if b[i] == b[j] {
        var x := b[i];
        assert multiset(b)[x] >= 2 by {
          assert b == b[..i] + [b[i]] + b[i + 1..j] + [b[j]] + b[j + 1..];
          assert multiset(b) == multiset(b[..i]) + multiset{x} + multiset(b[i + 1..j]) + multiset{x} + multiset(b[j + 1..]);
        }
        DistinctCountOne(a, x);
      }
    }
  }

  lemma {:induction false} DistinctCountOne(a: seq<int>, x: int)
    requires Distinct(a)
    ensures multiset(a)[x] <= 1
    decreases |a|
  {
    if |a| > 0 {
      assert a == [a[0]] + a[1..];
      assert Distinct(a[1..]);
      DistinctCountOne(a[1..], x);
      if a[0] == x {
        assert x !in a[1..];
        assert multiset(a[1..])[x] == 0;
      }
    }
  }

  /** A list without repetitions has as many distinct elements as entries. */
  lemma {:induction false} DistinctCard(s: seq<int>)
    requires Distinct(s)
    ensures |set x | x in s| == |s|
    decreases |s|
  {
    if |s| > 0 {
      DistinctCard(s[1..]);
      assert (set x | x in s) == {s[0]} + (set x | x in s[1..]);
      assert s[0] !in (set x | x in s[1..]);
    }
  }

  /**
   In a newest-first list without repetitions, the entry at position `p` is
   preceded by exactly `p` other entries: its position is its rank.
   */
  lemma PositionIsRank(key: int -> int, s: seq<int>, p: int)
    requires SortedDesc(key, s) && Distinct(s)
    requires 0 <= p < |s|
    ensures |set j | j in s && j != s[p] && Precedes(key, j, s[p])| == p
  {
    var a := set j | j in s && j != s[p] && Precedes(key, j, s[p]);
    var b := set j | j in s[..p];
    forall j | j in a ensures j in b {
      var q :| 0 <= q < |s| && s[q] == j;
      assert q < p;
      assert s[..p][q] == j;
    }
    forall j | j in b ensures j in a {
      var q :| 0 <= q < p && s[..p][q] == j;
      assert s[q] == j;
    }
    assert a == b;
    assert Distinct(s[..p]);
    DistinctCard(s[..p]);
  }

  /** Reversing a newest-first list gives an oldest-first list of the same entries. */
  lemma ReverseOfSorted(key: int -> int, s: seq<int>)
    requires SortedDesc(key, s)
    ensures forall i, j :: 0 <= i < j < |Reverse(s)| ==> Precedes(key, Reverse(s)[j], Reverse(s)[i])
    ensures forall x :: x in Reverse(s) <==> x in s
    ensures Distinct(s) ==> Distinct(Reverse(s))
  {
    var r := Reverse(s);
    forall x | x in s ensures x in r {
      var i :| 0 <= i < |s| && s[i] == x;
      assert r[|s| - 1 - i] == x;
    }
  }
}

=== FILE: records.dfy ===
/**
 The record shapes of the chat backend: users, chats, chat members and
 messages, as the relational rows and data classes store them, plus the
 small helpers (an Option type, a 32-bit integer type, a map frame
 predicate) that every table module shares.
 */
module Records {

  /** A nullable value (`T?` in the source). */
  datatype Option<+T> = None | Some(value: T) {
    /** The `?:` (elvis) operator. */
    function GetOr(default: T): T {
      match this
      case Some(v) => v
      case None => default
    }
  }

  type UserId = int
  type ChatId = int
  type MessageId = int

  /** Kotlin's Int.MIN_VALUE and Int.MAX_VALUE. */
  const IntMin: int := -0x8000_0000
  const IntMax: int := 0x7fff_ffff

  /** A value of a 32-bit signed SQL `integer` column or Kotlin `Int`. */
  newtype Int32 = x: int | -0x8000_0000 <= x <= 0x7fff_ffff

  /** The kinds of message; a file-carrying kind keeps its payload in file storage. */
  datatype MessageType = TEXT | IMAGE | VIDEO | FILE | SYSTEM

  predicate HasFile(t: MessageType) {
    t == IMAGE || t == VIDEO || t == FILE
  }

  /** A row of the users table, reduced to what the chat core reads. */
  datatype User = User(id: UserId, username: string, isDonor: bool)

  /** A row of the chats table. `burnTime` is the burn-after-read window in milliseconds. */
  datatype Chat = Chat(
    name: string,
    owner: UserId,
    private: bool,
    isMoment: bool,
    burnTime: Option<int>,
    lastChatAt: int)

  /** A row of the chat_members table, keyed by (chat, user). */
  datatype Member = Member(key: string, unread: Int32, doNotDisturb: bool)

  /** One user's reaction on a message. */
  datatype Reaction = Reaction(user: UserId, emoji: string)

  /**
   A row of the messages table. `sender` is None for a system message;
   `burn` is the chat's burn window captured when the message was sent and
   `burnDeadline` the instant recorded when it was read.
   */
  datatype Message = Message(
    content: string,
    mtype: MessageType,
    chat: ChatId,
    sender: Option<UserId>,
    time: int,
    replyTo: Option<MessageId>,
    readAt: Option<int>,
    burn: Option<int>,
    burnDeadline: Option<int>,
    reactions: seq<Reaction>)

  /** `a` and `b` agree on every key outside `except`. */
  ghost predicate AgreeOutside<K(!new), V>(a: map<K, V>, b: map<K, V>, except: set<K>) {
    forall k :: k !in except ==> (k in a <==> k in b) && (k in a && k in b ==> a[k] == b[k])
  }
}

=== FILE: text.dfy ===
/**
 The string conversions the core relies on: Kotlin's `String.toIntOrNull()`
 (decimal, ASCII digits), `Int.toString()`, `String.split(":")` with no
 limit, and `joinToString()`, each with the law that ties it to its partner.
 */
module Text {
  import opened Records

  predicate IsDigit(c: char) {
    '0' <= c <= '9'
  }

  predicate AllDigits(s: string) {
    forall i :: 0 <= i < |s| ==> IsDigit(s[i])
  }

  function DigitChar(d: nat): (c: char)
    requires d < 10
    ensures IsDigit(c)
  {
    (('0' as int) + d) as char
  }

  function DigitValue(c: char): (d: nat)
    requires IsDigit(c)
    ensures d < 10
    ensures DigitChar(d) == c
    ensures forall e :: 0 <= e < 10 && DigitChar(e) == c ==> e == d
  {
    (c as int) - ('0' as int)
  }

  /** The number a string of decimal digits denotes (leading zeros allowed). */
  function DigitsValue(s: string): nat
    requires AllDigits(s)
  {
    if |s| == 0 then 0 else DigitsValue(s[..|s| - 1]) * 10 + DigitValue(s[|s| - 1])
  }

  /** An optional leading '-' or '+' followed by at least one decimal digit and nothing else. */
  predicate SignedDigits(s: string) {
    |s| > 0 &&
    if s[0] == '-' || s[0] == '+' then |s| > 1 && AllDigits(s[1..]) else AllDigits(s)
  }

  /** The value a signed digit string denotes, before any range check. */
  function SignedValue(s: string): int
    requires SignedDigits(s)
  {
    if s[0] == '-' then -(DigitsValue(s[1..]) as int)
    else if s[0] == '+' then DigitsValue(s[1..])
    else DigitsValue(s)
  }

  /**
   `String.toIntOrNull()`: an optional leading '-' or '+', then at least one
   digit and nothing else, and a value that fits in a 32-bit Int.
   */
  function ToIntOrNull(s: string): (r: Option<int>)
    ensures r.Some? <==> SignedDigits(s) && IntMin <= SignedValue(s) <= IntMax
    ensures r.Some? ==> r.value == SignedValue(s)
    ensures r.Some? ==> IntMin <= r.value <= IntMax
    ensures r.Some? && AllDigits(s) ==> r.value == DigitsValue(s)
  {
    if |s| == 0 then None
    else if s[0] == '-' || s[0] == '+' then
      var digits := s[1..];
      if |digits| == 0 || !AllDigits(digits) then None
      else
        var v := if s[0] == '-' then -(DigitsValue(digits) as int) else DigitsValue(digits);
        if IntMin <= v <= IntMax then Some(v) else None
    else if !AllDigits(s) then None
    else if DigitsValue(s) <= IntMax then Some(DigitsValue(s) as int)
    else None
  }

  /** Decimal digits of a natural number, without leading zeros. */
  function NatToString(n: nat): (s: string)
    ensures |s| > 0 && AllDigits(s)
    decreases n
  {
    if n < 10 then [DigitChar(n)] else NatToString(n / 10) + [DigitChar(n % 10)]
  }

  /** `Int.toString()` / string interpolation of an integer. */
  function IntToString(n: int): string {
    if n < 0 then "-" + NatToString(-n) else NatToString(n)
  }

  lemma {:induction false} NatToStringValue(n: nat)
    ensures DigitsValue(NatToString(n)) == n
    decreases n
  {
    var s := NatToString(n);
    if n >= 10 {
      NatToStringValue(n / 10);
      assert s[..|s| - 1] == NatToString(n / 10);
      assert s[|s| - 1] == DigitChar(n % 10);
    }
  }

  /** Printing an Int and parsing it back gives the same Int. */
  lemma IntToStringRoundTrip(n: int)
    requires IntMin <= n <= IntMax
    ensures ToIntOrNull(IntToString(n)) == Some(n)
  {
    if n < 0 {
      NegativeRoundTrip(-n);
    } else {
      NatRoundTrip(n);
    }
  }

  lemma NatRoundTrip(n: nat)
    requires n <= IntMax
    ensures ToIntOrNull(NatToString(n)) == Some(n)
  {
    var s := NatToString(n);
    NatToStringValue(n);
    assert IsDigit(s[0]);
  }

  lemma NegativeRoundTrip(n: nat)
    requires 0 < n <= -IntMin
    ensures ToIntOrNull("-" + NatToString(n)) == Some(-(n as int))
  {
    var s := "-" + NatToString(n);
    NatToStringValue(n);
    assert s[0] == '-' && s[1..] == NatToString(n);
  }

  /** Distinct Ints print differently. */
  lemma IntToStringInjective(a: int, b: int)
    requires IntMin <= a <= IntMax && IntMin <= b <= IntMax
    requires IntToString(a) == IntToString(b)
    ensures a == b
  {
    IntToStringRoundTrip(a);
    IntToStringRoundTrip(b);
  }

  /** `s.split(sep)`: every part, empty ones included, in order. */
  function Split(s: string, sep: char): (parts: seq<string>)
    ensures |parts| >= 1
    decreases |s|
  {
    if |s| == 0 then [""]
    else if s[0] == sep then [""] + Split(s[1..], sep)
    else
      var rest := Split(s[1..], sep);
      [[s[0]] + rest[0]] + rest[1..]
  }

  /** `parts.joinToString(sep)`. */
  function Join(parts: seq<string>, sep: string): string {
    if |parts| == 0 then ""
    else if |parts| == 1 then parts[0]
    else parts[0] + sep + Join(parts[1..], sep)
  }

  function Occurrences(s: string, c: char): nat {
    if |s| == 0 then 0 else (if s[0] == c then 1 else 0) + Occurrences(s[1..], c)
  }

  /** Splitting loses nothing: joining the parts with the separator restores the string. */
  lemma {:induction false} SplitJoin(s: string, sep: char)
    ensures Join(Split(s, sep), [sep]) == s
    decreases |s|
  {
    if |s| > 0 {
      SplitJoin(s[1..], sep);
      var rest := Split(s[1..], sep);
      if s[0] == sep {
        assert Split(s, sep) == [""] + rest;
        assert Join(Split(s, sep), [sep]) == "" + [sep] + Join(rest, [sep]);
        assert s == [s[0]] + s[1..];
      } else {
        var parts := Split(s, sep);
        assert parts == [[s[0]] + rest[0]] + rest[1..];
        if |rest| == 1 {
          assert Join(parts, [sep]) == [s[0]] + rest[0];
        } else {
          assert parts[1..] == rest[1..];
          assert Join(parts, [sep]) == [s[0]] + rest[0] + [sep] + Join(rest[1..], [sep]);
          assert Join(rest, [sep]) == rest[0] + [sep] + Join(rest[1..], [sep]);
        }
        assert s == [s[0]] + s[1..];
      }
    }
  }

  /** There is one part more than there are separators, and no part contains one. */
  lemma {:induction false} SplitCount(s: string, sep: char)
    ensures |Split(s, sep)| == Occurrences(s, sep) + 1
    ensures forall i :: 0 <= i < |Split(s, sep)| ==> sep !in Split(s, sep)[i]
    decreases |s|
  {
    if |s| > 0 {
      SplitCount(s[1..], sep);
      var rest := Split(s[1..], sep);
      var parts := Split(s, sep);
      if s[0] != sep {
        assert forall i :: 1 <= i < |parts| ==> parts[i] == rest[i];
        assert sep !in [s[0]] + rest[0];
      }
    }
  }

  /** A string without the separator is a single part. */
  lemma {:induction false} SplitNoSep(a: string, sep: char)
    requires sep !in a
    ensures Split(a, sep) == [a]
    decreases |a|
  {
    if |a| > 0 {
      SplitNoSep(a[1..], sep);
      assert [a[0]] + a[1..] == a;
    }
  }

  /** Text up to the first separator is the first part. */
  lemma {:induction false} SplitAfter(a: string, sep: char, rest: string)
    requires sep !in a
    ensures Split(a + [sep] + rest, sep) == [a] + Split(rest, sep)
    decreases |a|
  {
    var s := a + [sep] + rest;
    if |a| == 0 {
      assert s[0] == sep && s[1..] == rest;
    } else {
      assert s[0] == a[0] && s[1..] == a[1..] + [sep] + rest;
      SplitAfter(a[1..], sep, rest);
      assert [a[0]] + a[1..] == a;
    }
  }

  lemma {:induction false} OccurrencesAppend(a: string, b: string, c: char)
    ensures Occurrences(a + b, c) == Occurrences(a, c) + Occurrences(b, c)
    decreases |a|
  {
    if |a| == 0 {
      assert a + b == b;
    } else {
      assert (a + b)[0] == a[0] && (a + b)[1..] == a[1..] + b;
      OccurrencesAppend(a[1..], b, c);
    }
  }

  lemma {:induction false} OccurrencesAbsent(s: string, c: char)
    ensures c !in s ==> Occurrences(s, c) == 0
    decreases |s|
  {
    if |s| > 0 && c !in s {
      assert forall x :: x in s[1..] ==> x in s;
      OccurrencesAbsent(s[1..], c);
    }
  }

  /** Decimal text holds only digits and a sign. */
  lemma IntToStringChars(n: int)
    ensures forall i :: 0 <= i < |IntToString(n)| ==> IsDigit(IntToString(n)[i]) || IntToString(n)[i] == '-'
  {
  }

  /** Two digits read as a number from 0 to 99. */
  lemma TwoDigits(a: char, b: char)
    requires IsDigit(a) && IsDigit(b)
    ensures ToIntOrNull([a, b]) == Some(DigitValue(a) * 10 + DigitValue(b))
  {
    var s := [a, b];
    assert s[..1] == [a] && s[..1][..0] == [];
    assert DigitsValue(s) == DigitsValue([a]) * 10 + DigitValue(b);
  }
}

=== FILE: weekly_summary.dfy ===
/**
 The weekly summary broadcast (`WeeklySummaryService.kt`): the configured
 "D:HH:mm" slot, the next local date-time that matches it, the scheduler's
 start guard and loop step, and the text of the summary. The clock and the
 time zone are parameters: local date-times are given as a day number
 (days since 1970-01-01) and a time of day in milliseconds.
 */
module WeeklySummary {
  import opened Records
  import Text

  // ---------------------------------------------------------------------
  // The configured slot

  /** An ISO day of week (1 = Monday … 7 = Sunday), an hour and a minute. */
  datatype Schedule = Schedule(day: int, hour: int, minute: int)

  predicate ValidSchedule(sc: Schedule) {
    1 <= sc.day <= 7 && 0 <= sc.hour <= 23 && 0 <= sc.minute <= 59
  }

  /** `Char.isWhitespace()`: the Unicode space separators and the ASCII and information-separator controls. */
  predicate IsWhitespace(c: char) {
    || c == ' ' || '\t' <= c <= '\r' || '\U{1C}' <= c <= '\U{1F}' || c == '\U{A0}' || c == '\U{1680}'
    || '\U{2000}' <= c <= '\U{200A}' || c == '\U{2028}' || c == '\U{2029}' || c == '\U{202F}' || c == '\U{205F}'
    || c == '\U{3000}'
  }

  /** `String.isBlank()`. */
  predicate IsBlank(s: string) {
    forall i :: 0 <= i < |s| ==> IsWhitespace(s[i])
  }

  /** The three fields are integers in range. */
  predicate FieldsValid(parts: seq<string>)
    requires |parts| == 3
  {
    && Text.ToIntOrNull(parts[0]).Some? && Text.ToIntOrNull(parts[1]).Some? && Text.ToIntOrNull(parts[2]).Some?
    && ValidSchedule(Schedule(Text.ToIntOrNull(parts[0]).value, Text.ToIntOrNull(parts[1]).value,
                              Text.ToIntOrNull(parts[2]).value))
  }

  /**
   `parseScheduledTime`: a non-blank string of exactly three ':'-separated
   integers, a day of week in 1..7, an hour in 0..23 and a minute in 0..59.
   */
  function ParseScheduledTime(s: string): (r: Option<Schedule>)
    ensures r.Some? <==> !IsBlank(s) && |Text.Split(s, ':')| == 3 && FieldsValid(Text.Split(s, ':'))
    ensures r.Some? ==>
      && ValidSchedule(r.value)
      && Text.ToIntOrNull(Text.Split(s, ':')[0]) == Some(r.value.day)
      && Text.ToIntOrNull(Text.Split(s, ':')[1]) == Some(r.value.hour)
      && Text.ToIntOrNull(Text.Split(s, ':')[2]) == Some(r.value.minute)
  {
    if IsBlank(s) then None
    else
      var parts := Text.Split(s, ':');
      if |parts| != 3 then None
      else
        match (Text.ToIntOrNull(parts[0]), Text.ToIntOrNull(parts[1]), Text.ToIntOrNull(parts[2]))
        case (Some(d), Some(h), Some(m)) =>
          if ValidSchedule(Schedule(d, h, m)) then Some(Schedule(d, h, m)) else None
        case _ => None
  }

  /** The blank check never decides anything: a blank string has one part, so it fails the part count anyway. */
  lemma {:induction false} BlankHasOnePart(s: string)
    requires IsBlank(s)
    ensures |Text.Split(s, ':')| == 1
  {
    assert forall i :: 0 <= i < |s| ==> s[i] != ':';
    Text.SplitNoSep(s, ':');
  }

  /** An hour or minute with two digits, as in "09". */
  function Pad2(n: nat): (r: string)
    requires n < 100
    ensures |r| == 2 && Text.AllDigits(r)
  {
    if n < 10 then ['0', Text.DigitChar(n)] else [Text.DigitChar(n / 10), Text.DigitChar(n % 10)]
  }

  /** The "D:HH:mm" form of a slot that the configuration file documents. */
  function FormatSchedule(sc: Schedule): (r: string)
    requires ValidSchedule(sc)
  {
    Text.IntToString(sc.day) + ":" + Pad2(sc.hour) + ":" + Pad2(sc.minute)
  }

  lemma Pad2Value(n: nat)
    requires n < 100
    ensures Text.ToIntOrNull(Pad2(n)) == Some(n)
  {
    var s := Pad2(n);
    assert Text.DigitValue(s[0]) == n / 10 && Text.DigitValue(s[1]) == n % 10;
    Text.TwoDigits(s[0], s[1]);
    assert s == [s[0], s[1]];
  }

  /** Digits hold no separator. */
  lemma NoColon(s: string)
    requires forall i :: 0 <= i < |s| ==> Text.IsDigit(s[i]) || s[i] == '-'
    ensures ':' !in s
  {
  }

  /** The three parts of `a:b:c` when none of them holds a ':'. */
  lemma SplitThree(a: string, b: string, c: string)
    requires ':' !in a && ':' !in b && ':' !in c
    ensures Text.Split(a + ":" + b + ":" + c, ':') == [a, b, c]
  {
    assert a + ":" + b + ":" + c == a + [':'] + (b + [':'] + c);
    Text.SplitAfter(a, ':', b + [':'] + c);
    Text.SplitAfter(b, ':', c);
    Text.SplitNoSep(c, ':');
  }

  /** Every valid slot written as "D:HH:mm" parses back to itself. */
  lemma ParseFormatRoundTrip(sc: Schedule)
    requires ValidSchedule(sc)
    ensures ParseScheduledTime(FormatSchedule(sc)) == Some(sc)
  {
    var a, b, c := Text.IntToString(sc.day), Pad2(sc.hour), Pad2(sc.minute);
    Text.IntToStringChars(sc.day);
    NoColon(a);
    NoColon(b);
    NoColon(c);
    SplitThree(a, b, c);
    Text.IntToStringRoundTrip(sc.day);
    Pad2Value(sc.hour);
    Pad2Value(sc.minute);
    var s := FormatSchedule(sc);
    assert s[0] == a[0] && !IsWhitespace(a[0]);
  }

  /**
   The data-class default "7:09:00" is Sunday 09:00; the default the config
   delegate installs, "0:09:00", names day 0 and is rejected, so the
   scheduler keeps retrying until the file is edited. The empty time,
   documented as switching the feature off, is rejected the same way.
   */
  lemma ConfigDefaults()
    ensures ParseScheduledTime("7:09:00") == Some(Schedule(7, 9, 0))
    ensures ParseScheduledTime("0:09:00").None?
    ensures ParseScheduledTime("").None?
  {
    assert "7:09:00" == FormatSchedule(Schedule(7, 9, 0));
    ParseFormatRoundTrip(Schedule(7, 9, 0));
    var zero := Text.IntToString(0);
    assert zero == "0";
    assert "0:09:00" == zero + ":" + Pad2(9) + ":" + Pad2(0);
    SplitThree(zero, Pad2(9), Pad2(0));
    Text.IntToStringRoundTrip(0);
  }

  /** A field that is not a signed integer is refused even when the part count and the other fields are right. */
  lemma NonNumericFieldRefused()
    ensures ParseScheduledTime("a:09:00").None?
  {
    SplitThree("a", "09", "00");
    assert !Text.SignedDigits("a") by { assert !Text.IsDigit("a"[0]); }
    assert Text.ToIntOrNull("a").None?;
  }

  // ---------------------------------------------------------------------
  // The next run

  const MillisPerDay := 86_400_000

  /** A local date-time: a day number and a time of day. */
  datatype LocalDateTime = LocalDateTime(date: int, millisOfDay: int)

  predicate ValidTime(t: LocalDateTime) {
    0 <= t.millisOfDay < MillisPerDay
  }

  /** `LocalDateTime` ordering: by date, then by time of day. */
  predicate AtOrBefore(a: LocalDateTime, b: LocalDateTime) {
    a.date < b.date || (a.date == b.date && a.millisOfDay <= b.millisOfDay)
  }

  /** The ISO day of week of day number `d`; day 0, 1970-01-01, is a Thursday. */
  function DayOfWeek(d: int): (r: int)
    ensures 1 <= r <= 7
  {
    (d + 3) % 7 + 1
  }

  /** `date.atTime(hour, minute)`. */
  function At(d: int, sc: Schedule): (r: LocalDateTime)
    requires ValidSchedule(sc)
    ensures ValidTime(r) && r.date == d
  {
    LocalDateTime(d, sc.hour * 3_600_000 + sc.minute * 60_000)
  }

  /** Moving `(day - dow + 7) % 7` days ahead lands on `day`. */
  lemma ShiftToWeekday(d: int, day: int)
    requires 1 <= day <= 7
    ensures 0 <= (day - DayOfWeek(d) + 7) % 7 < 7
    ensures DayOfWeek(d + (day - DayOfWeek(d) + 7) % 7) == day
  {
    var x := (d + 3) % 7;
    var k := (day - DayOfWeek(d) + 7) % 7;
    assert k == (day - x + 6) % 7;
    var q := (d + 3) / 7;
    assert d + 3 == 7 * q + x;
    if day - x + 6 >= 7 {
      assert k == day - x - 1;
      assert d + k + 3 == 7 * q + (day - 1);
    } else {
      assert k == day - x + 6;
      assert d + k + 3 == 7 * (q + 1) + (day - 1);
    }
  }

  /** Two different days less than a week apart fall on different days of the week. */
  lemma WeekdaysApart(a: int, b: int)
    requires a < b < a + 7
    ensures DayOfWeek(a) != DayOfWeek(b)
  {
    var qa, qb := (a + 3) / 7, (b + 3) / 7;
    assert a + 3 == 7 * qa + (a + 3) % 7;
    assert b + 3 == 7 * qb + (b + 3) % 7;
  }

  lemma WeekLater(d: int)
    ensures DayOfWeek(d + 7) == DayOfWeek(d)
  {
    var q := (d + 3) / 7;
    assert d + 3 == 7 * q + (d + 3) % 7;
    assert d + 7 + 3 == 7 * (q + 1) + (d + 3) % 7;
  }

  /**
   `calculateNextRunTime`: the first slot strictly after `now`. The
   starting offset `(targetDay - dow + 7) % 7` is never negative, so
   Kotlin's remainder agrees with Dafny's here.
   */
  method CalculateNextRunTime(now: LocalDateTime, sc: Schedule) returns (r: LocalDateTime)
    requires ValidSchedule(sc)
    ensures r == At(r.date, sc)
    ensures DayOfWeek(r.date) == sc.day
    ensures !AtOrBefore(r, now)
    ensures now.date <= r.date <= now.date + 7
    ensures forall d :: now.date <= d < r.date && DayOfWeek(d) == sc.day ==> AtOrBefore(At(d, sc), now)
  {
    ShiftToWeekday(now.date, sc.day);
    var target := now.date + (sc.day - DayOfWeek(now.date) + 7) % 7;
    forall d | now.date <= d < target
      ensures DayOfWeek(d) != sc.day
    {
      WeekdaysApart(d, target);
    }
    while AtOrBefore(At(target, sc), now)
      invariant now.date <= target <= now.date + 7
      invariant DayOfWeek(target) == sc.day
      invariant forall d :: now.date <= d < target && DayOfWeek(d) == sc.day ==> AtOrBefore(At(d, sc), now)
      decreases now.date + 7 - target
    {
      WeekLater(target);
      forall d | target < d < target + 7
        ensures DayOfWeek(d) != sc.day
      {
        WeekdaysApart(target, d);
      }
      target := target + 7;
    }
    r := At(target, sc);
  }

  /** The first matching slot after `now` is unique: any two results of the search agree. */
  lemma NextRunUnique(now: LocalDateTime, sc: Schedule, a: LocalDateTime, b: LocalDateTime)
    requires ValidSchedule(sc)
    requires a == At(a.date, sc) && DayOfWeek(a.date) == sc.day && !AtOrBefore(a, now) && now.date <= a.date
    requires forall d :: now.date <= d < a.date && DayOfWeek(d) == sc.day ==> AtOrBefore(At(d, sc), now)
    requires b == At(b.date, sc) && DayOfWeek(b.date) == sc.day && !AtOrBefore(b, now) && now.date <= b.date
    requires forall d :: now.date <= d < b.date && DayOfWeek(d) == sc.day ==> AtOrBefore(At(d, sc), now)
    ensures a == b
  {
  }

  // ---------------------------------------------------------------------
  // The scheduler

  /** What `start` does. */
  datatype StartResult = AlreadyRunning | Disabled | Launched

  /**
   `start`: a running scheduler is left alone, a disabled one is not
   launched. The result pairs whether a job runs afterwards with the case.
   */
  function Start(running: bool, enabled: bool): (r: (bool, StartResult))
    ensures r.1 == AlreadyRunning <==> running
    ensures r.1 == Launched <==> !running && enabled
    ensures r.0 <==> r.1 != Disabled
  {
    if running then (true, AlreadyRunning)
    else if !enabled then (false, Disabled)
    else (true, Launched)
  }

  /** `stop`: whatever ran is cancelled. */
  function Stop(running: bool): (r: bool)
    ensures !r
  {
    false
  }

  /** Reloading the configuration stops and starts the service, so it then runs exactly when enabled. */
  lemma ReloadFollowsConfig(running: bool, enabled: bool)
    ensures Start(Stop(running), enabled).0 == enabled
    ensures Start(Stop(running), enabled).1 != AlreadyRunning
  {
  }

  /** One turn of the scheduler loop: wait an hour after a bad slot, else wait for the next run. */
  datatype Step = Retry(delayMillis: int) | RunAt(at: LocalDateTime)

  const RetryDelay := 3_600_000

  method NextStep(config: string, now: LocalDateTime) returns (r: Step)
    ensures ParseScheduledTime(config).None? <==> r == Retry(RetryDelay)
    ensures r.RunAt? ==>
      && !AtOrBefore(r.at, now)
      && r.at == At(r.at.date, ParseScheduledTime(config).value)
      && DayOfWeek(r.at.date) == ParseScheduledTime(config).value.day
      && now.date <= r.at.date <= now.date + 7
      && forall d :: now.date <= d < r.at.date && DayOfWeek(d) == ParseScheduledTime(config).value.day ==>
           AtOrBefore(At(d, ParseScheduledTime(config).value), now)
  {
    match ParseScheduledTime(config)
    case None =>
      r := Retry(RetryDelay);
    case Some(sc) =>
      var at := CalculateNextRunTime(now, sc);
      r := RunAt(at);
  }

  // ---------------------------------------------------------------------
  // The summary text

  function Repeat(c: char, n: nat): (r: string)
    ensures |r| == n && forall i :: 0 <= i < n ==> r[i] == c
  {
    seq(n, _ => c)
  }

  const Rule := Repeat('=', 30)
  const Title := "📊 周报摘要"
  const PeriodLabel := "📅 统计时间: "
  const UsersHeading := "🏆 最活跃的10位用户:"
  const ChatsHeading := "💬 最活跃的10个群聊:"
  const CountSuffix := " 条消息"
  const Farewell := "下周见! 👋"

  /** A line of the summary: the text and a line break. */
  function Line(text: string): (r: string)
    ensures '\n' !in text ==> Text.Occurrences(r, '\n') == 1
  {
    Text.OccurrencesAbsent(text, '\n');
    Text.OccurrencesAppend(text, "\n", '\n');
    text + "\n"
  }

  /** The medal of the entry at 0-based position `i`: gold, silver, bronze, then "4.", "5.", …. */
  function Medal(i: nat): (r: string)
    ensures i == 0 ==> r == "🥇"
    ensures i == 1 ==> r == "🥈"
    ensures i == 2 ==> r == "🥉"
    ensures i < 3 ==> |r| == 1 && !Text.IsDigit(r[0]) && r[0] != '\n'
    ensures i >= 3 ==> r == Text.NatToString(i + 1) + "."
  {
    if i == 0 then "🥇" else if i == 1 then "🥈" else if i == 2 then "🥉"
    else Text.IntToString(i + 1) + "."
  }

  /** Different positions get different medals. */
  lemma MedalInjective(i: nat, j: nat)
    requires i != j
    ensures Medal(i) != Medal(j)
  {
    if i >= 3 && j >= 3 {
      if Medal(i) == Medal(j) {
        var a, b := Text.NatToString(i + 1), Text.NatToString(j + 1);
        assert a == Medal(i)[..|a|];
        assert |a| == |b|;
        assert a == b;
        Text.NatToStringValue(i + 1);
        Text.NatToStringValue(j + 1);
      }
    } else if i >= 3 || j >= 3 {
      var k := if i >= 3 then i else j;
      assert |Medal(k)| >= 2;
    }
  }

  /** The text of one ranked entry: `"  <medal> <name>: <count> 条消息"`. */
  function RankText(i: nat, entry: (string, int)): (r: string)
    ensures '\n' !in entry.0 ==> '\n' !in r
  {
    var medal, count := Medal(i), Text.IntToString(entry.1);
    Text.IntToStringChars(entry.1);
    assert '\n' !in medal by {
      if i >= 3 { assert Text.AllDigits(Text.NatToString(i + 1)); }
    }
    "  " + medal + " " + entry.0 + ": " + count + CountSuffix
  }

  /** The ranked entries, one line each, in list order. */
  function RankLines(entries: seq<(string, int)>): string
    decreases |entries|
  {
    if |entries| == 0 then ""
    else RankLines(entries[..|entries| - 1]) + Line(RankText(|entries| - 1, entries[|entries| - 1]))
  }

  predicate NoBreaks(entries: seq<(string, int)>) {
    forall i :: 0 <= i < |entries| ==> '\n' !in entries[i].0
  }

  /**
   Entry `k` is the `k`-th line of the ranking (counting from 0), with
   medal `k`: exactly `k` line breaks come before it.
   */
  lemma {:induction false} RankLineAt(entries: seq<(string, int)>, k: nat)
    requires NoBreaks(entries)
    requires k < |entries|
    ensures exists pre, post :: RankLines(entries) == pre + Line(RankText(k, entries[k])) + post
                                && Text.Occurrences(pre, '\n') == k
    decreases |entries|
  {
    var n := |entries| - 1;
    var init := entries[..n];
    var last := Line(RankText(n, entries[n]));
    assert RankLines(entries) == RankLines(init) + last;
    assert NoBreaks(init);
    if k == n {
      RankLineCount(init);
      assert RankLines(entries) == RankLines(init) + last + "";
    } else {
      assert init[k] == entries[k];
      RankLineAt(init, k);
      var line := Line(RankText(k, entries[k]));
      var pre, post :| RankLines(init) == pre + line + post && Text.Occurrences(pre, '\n') == k;
      Associate(pre, line, post, last);
    }
  }

  lemma Associate(a: string, b: string, c: string, d: string)
    ensures (a + b + c) + d == a + b + (c + d)
    ensures a + b + c + d == a + (b + c + d)
  {
  }

  /** The ranking has one line per entry. */
  lemma {:induction false} RankLineCount(entries: seq<(string, int)>)
    ensures NoBreaks(entries) ==> Text.Occurrences(RankLines(entries), '\n') == |entries|
    decreases |entries|
  {
    if |entries| > 0 && NoBreaks(entries) {
      var n := |entries| - 1;
      assert NoBreaks(entries[..n]);
      RankLineCount(entries[..n]);
      Text.OccurrencesAppend(RankLines(entries[..n]), Line(RankText(n, entries[n])), '\n');
    }
  }

  /** The title, a rule and the period the summary covers, each followed by a blank line. */
  function Header(startDate: string, endDate: string): (r: string)
    ensures Line(Title) <= r
    ensures '\n' !in startDate && '\n' !in endDate ==> Text.Occurrences(r, '\n') == 5
  {
    var period := PeriodLabel + startDate + " ~ " + endDate;
    var a := Line(Title);
    var b := Line(Rule) + Line("") + Line(period) + Line("");
    Text.OccurrencesAppend(Line(Rule), Line(""), '\n');
    Text.OccurrencesAppend(Line(Rule) + Line(""), Line(period), '\n');
    Text.OccurrencesAppend(Line(Rule) + Line("") + Line(period), Line(""), '\n');
    Text.OccurrencesAppend(a, b, '\n');
    a + b
  }

  /** A heading, the ranking under it and a blank line. */
  function Section(heading: string, entries: seq<(string, int)>): (r: string)
    ensures '\n' !in heading && NoBreaks(entries) ==> Text.Occurrences(r, '\n') == |entries| + 2
  {
    var a, b, c := Line(heading), RankLines(entries), Line("");
    RankLineCount(entries);
    Text.OccurrencesAppend(a, b, '\n');
    Text.OccurrencesAppend(a + b, c, '\n');
    a + b + c
  }

  /** The closing rule and the farewell, which ends the text without a line break. */
  function Closing(): (r: string)
    ensures Text.Occurrences(r, '\n') == 1
    ensures |r| >= |Farewell| && r[|r| - |Farewell|..] == Farewell
  {
    Text.OccurrencesAbsent(Farewell, '\n');
    Text.OccurrencesAppend(Line(Rule), Farewell, '\n');
    Line(Rule) + Farewell
  }

  /**
   `buildSummary`: the title, the period, the ranked users and chats, and
   the farewell. The two dates are given already rendered, as the local
   dates of the period's start and of now. It opens with its title line
   and closes with the farewell.
   */
  function BuildSummary(topUsers: seq<(string, int)>, topChats: seq<(string, int)>, startDate: string, endDate: string)
    : (r: string)
    ensures Line(Title) <= r
    ensures |r| >= |Farewell| && r[|r| - |Farewell|..] == Farewell
  {
    var h, u, c, z := Header(startDate, endDate), Section(UsersHeading, topUsers), Section(ChatsHeading, topChats), Closing();
    FramedJoin(h, u, c, z);
    h + u + c + z
  }

  /** Joining keeps the title line of the first part in front and the farewell of the last part at the end. */
  lemma FramedJoin(h: string, u: string, c: string, z: string)
    requires Line(Title) <= h
    requires |z| >= |Farewell| && z[|z| - |Farewell|..] == Farewell
    ensures Line(Title) <= h + u + c + z
    ensures |h + u + c + z| >= |Farewell| && (h + u + c + z)[|h + u + c + z| - |Farewell|..] == Farewell
  {
    Associate(h, u, c, z);
    PrefixOfAppend(Line(Title), h, u + c + z);
    SuffixOfAppend(Farewell, h + u + c, z);
  }

  lemma PrefixOfAppend(x: string, a: string, b: string)
    requires x <= a
    ensures x <= a + b
  {
    assert (a + b)[..|x|] == a[..|x|];
  }

  lemma SuffixOfAppend(x: string, a: string, b: string)
    requires |b| >= |x| && b[|b| - |x|..] == x
    ensures |a + b| >= |x| && (a + b)[|a + b| - |x|..] == x
  {
    assert (a + b)[|a + b| - |x|..] == b[|b| - |x|..];
  }

  /**
   Ten fixed lines plus one per ranked user and one per ranked chat, when
   no name or date holds a line break.
   */
  lemma SummaryLineCount(topUsers: seq<(string, int)>, topChats: seq<(string, int)>, startDate: string, endDate: string)
    requires NoBreaks(topUsers) && NoBreaks(topChats)
    requires '\n' !in startDate && '\n' !in endDate
    ensures Text.Occurrences(BuildSummary(topUsers, topChats, startDate, endDate), '\n') == 10 + |topUsers| + |topChats|
  {
    var h, u, c, z := Header(startDate, endDate), Section(UsersHeading, topUsers), Section(ChatsHeading, topChats), Closing();
    assert '\n' !in UsersHeading;
    assert '\n' !in ChatsHeading;
    assert Text.Occurrences(h, '\n') == 5;
    assert Text.Occurrences(u, '\n') == |topUsers| + 2;
    assert Text.Occurrences(c, '\n') == |topChats| + 2;
    assert BuildSummary(topUsers, topChats, startDate, endDate) == h + u + c + z;
    Text.OccurrencesAppend(h, u, '\n');
    Text.OccurrencesAppend(h + u, c, '\n');
    Text.OccurrencesAppend(h + u + c, z, '\n');
  }
}
